=== FILE: README.md ===
# genomeview, modelled in Dafny

genomeview draws genomic data as SVG: a `Document` holds `GenomeView`s,
optionally grouped side by side in `ViewRow`s. Each view has a `Scale` that
maps the window `chrom:start-end` onto pixels, and it stacks tracks
vertically. An interval track packs intervals into rows, first fit from
left to right. The BAM tracks turn aligned reads, or mate pairs, into such
intervals and walk each read's CIGAR to draw its mismatches, deletions,
insertions and clips. A mismatch is drawn only when the pileup-based
consensus (`MismatchCounts`) supports it, when the base is N, or when no
consensus table is kept. The BED track turns BED
lines into transcripts and draws them as thick coding blocks, thin UTR
blocks and strand connectors. A genome source supplies the reference
sequence and handles the "chr1"/"1" naming conventions.

The project has one module per modelled source file. Three of its modules,
`Wrappers`, `Sequences` and `PyText`, stand for Python built-ins rather than
for a source file:

- `Wrappers`: `Option`, `Result` and the Python exception kinds.
- `Sequences`: the list comprehensions `[x for x in s if p(x)]` and
  `[f(x) for x in s]`, as reference definitions for the filters.
- `PyText`: the Python string built-ins the code relies on.
- `Utilities`: `match_chrom_format`.
- `GenomeSources`: `reverse_comp` and the in-memory genome source.
- `QuickConsensus`: `MismatchCounts`.
- `Svg`: the attribute handling of `_addOptions`, the SVG backend's
  commands, clip groups and the `Renderer`.
- `GenomeViews`: `Scale`, the document, row and view layout, and
  `get_tracks`.
- `IntervalTracks`: `Interval`, `overlaps`, `color_by_strand` and the row
  packing of `layout_interval`/`layout`.
- `BamTracks`: the read tracks.
- `BedTracks`: the BED track.

Code that changes objects in place is modelled as classes with
`modifies` clauses:

- `Scale`;
- `MismatchCounts`, whose count tables are arrays;
- `IntervalTrack`;
- the BAM and BED tracks;
- `GenomeView`, `ViewRow` and `Document`.

Each mutating method is proved against a function on values, and the
properties are lemmas about those functions. The source's loops are
`while` loops with their invariants, for example:

- the CIGAR walk;
- the row search;
- the read grouping and mate buffering;
- the exon passes;
- the plain-BED filter.

Python behaviour that matters is written out:

- exceptions are `Result` values;
- slices clip their bounds;
- `int()` fails with ValueError;
- unpacking too few fields fails with ValueError;
- indexing past the end fails with IndexError;
- comparing an int with None fails with TypeError;
- a dictionary lookup of a missing key fails with KeyError.

## Model

| member | source | states |
|---|---|---|
| Sequences.Filter | genomeview/bedtrack.py:152-154 | the comprehension keeps only accepted elements of the input, and every accepted element |
| Sequences.Map | genomeview/bamtrack.py:28-40 | one transformed element per input element, position by position |
| Sequences.FilterSnoc | genomeview/bedtrack.py:152-154 | filtering one more element appends it when it is accepted: the order of a loop that yields accepted items |
| PyText.SliceBound | genomeview/genomesource.py:37 | a slice bound is normalised into 0..n: negative bounds count from the end, and out-of-range bounds are clipped |
| PyText.Slice | genomeview/genomesource.py:37 | `s[i:j]` has length at most `|s|`, is exactly `s[i..j]` when `0 <= i <= j <= |s|`, and is empty when the normalised bounds cross |
| PyText.Upper | genomeview/genomeview.py:213 | upper-casing keeps the length and maps each character through the ASCII upper-case table |
| PyText.UpperIdempotent | genomeview/genomeview.py:213 | upper-casing an upper-cased sequence changes nothing |
| PyText.RemoveAll | genomeview/utilities.py:5 | `s.replace(pat, "")` never lengthens the string |
| PyText.RemoveAllAbsent | genomeview/utilities.py:5 | a string that does not contain the pattern is returned unchanged |
| PyText.RemoveAllLeading | genomeview/utilities.py:5 | removing the pattern from `pat + s`, when `s` does not contain it, gives `s` |
| PyText.SplitNonEmptyFrom | genomeview/bedtrack.py:52-53 | `[x for x in s.split(sep) if x]`: every item is non-empty |
| PyText.SplitItemsClean | genomeview/bedtrack.py:52-53 | every item of the split is non-empty and free of the separator |
| PyText.ParseInt | genomeview/bedtrack.py:14-15 | `int(s)` succeeds exactly on a run of decimal digits, optionally after one sign; otherwise ValueError |
| PyText.NatToString | genomeview/bedtrack.py:161 | `str(n)` is all digits, a single one exactly when `n < 10` |
| PyText.ParseShowsNat | genomeview/bedtrack.py:14-15 | `int(str(n)) == n` for every natural `n` |
| PyText.NatToStringInjective | genomeview/bedtrack.py:161 | equal decimal strings come from equal numbers |
| PyText.TailAfterUnderscore | genomeview/bedtrack.py:160-161 | the suffix after the last underscore has no underscore |
| PyText.TailAfterUnderscoreOf | genomeview/bedtrack.py:160-161 | the suffix after the last underscore of `a + "_" + d` is `d` when `d` has no underscore |
| PyText.SuffixAfterUnderscore | genomeview/bedtrack.py:160-161 | `a + "_" + d == b + "_" + e` with underscore-free `d`, `e` forces `a == b` and `d == e` |
| Utilities.AlternativeName | genomeview/utilities.py:4-7 | a name containing "chr" loses every "chr"; any other name gets "chr" in front |
| Utilities.MatchChromFormat | genomeview/utilities.py:1-11 | the name itself when it is a key; else the alternative spelling when that is a key; else the name unchanged; the result is a key iff either spelling is |
| Utilities.PrefixedNameFindsBareKey | genomeview/utilities.py:1-10 | "chr"+name is found under the bare key `name` when only that is present |
| Utilities.AlternativeNameRoundTrip | genomeview/utilities.py:4-7 | for a bare name, converting to the other convention twice gives it back |
| GenomeSources.CompInvolution | genomeview/genomesource.py:11 | the complement table is its own inverse on every character |
| GenomeSources.Reverse | genomeview/genomesource.py:15 | position `k` of the reversal is position `|s|-1-k` of the input |
| GenomeSources.ReverseComp | genomeview/genomesource.py:13-15 | the reverse complement keeps the length |
| GenomeSources.ReverseCompAt | genomeview/genomesource.py:13-15 | position `k` of the reverse complement is the complement of position `|s|-1-k` |
| GenomeSources.ReverseCompInvolution | genomeview/genomesource.py:11-15 | taking the reverse complement twice gives the input back |
| GenomeSources.GenomeSource.Keys | genomeview/genomesource.py:42-43 | `keys()` lists exactly the contig names, each once |
| GenomeSources.GenomeSource.GetSeq | genomeview/genomesource.py:35-40 | fails exactly when the reconciled name is not a contig; otherwise the result is no longer than the contig |
| GenomeSources.FirstOfEach | genomeview/genomesource.py:27-28 | the names of the pairs, one per pair |
| GenomeSources.FromPairs | genomeview/genomesource.py:27-28 | the ordered dictionary has each name once and exactly the pairs' names as keys; the last pair's value is the one kept for its name |
| GenomeSources.FirstIndex | genomeview/genomesource.py:27-28 | the position of a name's first pair: that name, with no earlier occurrence |
| GenomeSources.FirstIndexSnoc | genomeview/genomesource.py:27-28 | a later pair does not move the first occurrence of an earlier name; a new name first occurs at the end |
| GenomeSources.OrderExtended | genomeview/genomesource.py:27-28 | first-occurrence order survives a later pair, and a new name extends it at the end |
| GenomeSources.FromPairsKeyOrder | genomeview/genomesource.py:27-43 | `keys()` of `OrderedDict(pairs)` lists the names in the order of their first pairs |
| GenomeSources.FromPairsLastWins | genomeview/genomesource.py:27-28 | every name holds the sequence of its last pair |
| GenomeSources.GetSeqInclusive | genomeview/genomesource.py:35-37 | within the contig, the plus strand is the inclusive range `start..end`, `end-start+1` bases |
| GenomeSources.GetSeqTruncated | genomeview/genomesource.py:37 | past the contig's end the slice is truncated to the contig |
| GenomeSources.GetSeqMinusStrand | genomeview/genomesource.py:38-39 | the minus strand succeeds iff the plus strand does, and is its reverse complement |
| QuickConsensus.TypeToId | genomeview/quickconsensus.py:10 | A, C, G, T and DEL have rows (DEL is row 5, row 4 is unused); every other type has none |
| QuickConsensus.Zeros | genomeview/quickconsensus.py:17-19 | a zero row of the window's length |
| QuickConsensus.EmptyTally | genomeview/quickconsensus.py:12-19 | a new table has the window's shape and every count is zero |
| QuickConsensus.NpIndex | genomeview/quickconsensus.py:40 | numpy indexing: valid iff `-n <= i < n`; a negative index counts from the end |
| QuickConsensus.Increment | genomeview/quickconsensus.py:37-43 | `add_count` keeps the shape; it fails exactly on an unknown type (KeyError) or a position numpy cannot index |
| QuickConsensus.AddInsertionEffect | genomeview/quickconsensus.py:39-40 | an insertion adds one to the insertion count of its column and changes nothing else |
| QuickConsensus.AddSymbolEffect | genomeview/quickconsensus.py:41-43 | a base or deletion adds one to its row in its column and changes nothing else |
| QuickConsensus.DeletionRow | genomeview/quickconsensus.py:10 | "DEL" is row 5 and "INS" has no row |
| QuickConsensus.AddCountNonNegative | genomeview/quickconsensus.py:37-43 | counting keeps every count non-negative |
| QuickConsensus.AnyColumnAboveIff | genomeview/quickconsensus.py:69-75 | the per-column test holds iff some column in range passes it |
| QuickConsensus.QueryBounds | genomeview/quickconsensus.py:53-59 | the queried columns start at `start - self.start`; without an end one column; an end past the window is clipped to it |
| QuickConsensus.Query | genomeview/quickconsensus.py:49-77 | a position outside the window is never supported; inside, only an unknown type fails |
| QuickConsensus.QueryDeletion | genomeview/quickconsensus.py:71-73 | a deletion is supported iff some column in range has more than 30% deleted reads |
| QuickConsensus.QueryNucleotide | genomeview/quickconsensus.py:74-75 | a base is supported iff some column in range has more than 20% of its reads showing it |
| QuickConsensus.QueryInsertion | genomeview/quickconsensus.py:62-65 | an insertion is supported iff the insertions exceed 20% of the summed coverage in range |
| QuickConsensus.QueryZeroCoverage | genomeview/quickconsensus.py:68-75 | a column no read covers never supports a base or a deletion |
| QuickConsensus.EmptyTallySupportsNothing | genomeview/quickconsensus.py:49-77 | a table that has counted nothing supports no type anywhere |
| QuickConsensus.TallyRead | genomeview/quickconsensus.py:25-35 | one pileup read keeps the shape; a reference skip changes nothing |
| QuickConsensus.TallyColumn | genomeview/quickconsensus.py:25-35 | tallying a column keeps the table's shape and window |
| QuickConsensus.TallyColumns | genomeview/quickconsensus.py:21-35 | tallying all columns keeps the table's shape and window |
| QuickConsensus.TallyReadEffect | genomeview/quickconsensus.py:26-35 | a read adds one insertion if it has one, one deletion if deleted, and otherwise one to its base's row (none for N); every other column, and row 4 of every column, is unchanged |
| QuickConsensus.TallyColumnFails | genomeview/quickconsensus.py:25-35 | a failure on some reads of a column fails the column |
| QuickConsensus.TallyColumnsFail | genomeview/quickconsensus.py:21-35 | a failing column fails the whole tally |
| QuickConsensus.MismatchCounts.Table | genomeview/quickconsensus.py:18-19 | the arrays read as a table of the window's shape |
| QuickConsensus.MismatchCounts.constructor | genomeview/quickconsensus.py:12-19 | a new object holds the empty table over `start..end` |
| QuickConsensus.MismatchCounts.AddCount | genomeview/quickconsensus.py:37-43 | the arrays change exactly as `Increment` says, or the KeyError is reported |
| QuickConsensus.MismatchCounts.TallyOne | genomeview/quickconsensus.py:26-35 | one read changes the arrays as `TallyRead` says |
| QuickConsensus.MismatchCounts.TallyColumnReads | genomeview/quickconsensus.py:25-35 | a column's reads change the arrays as `TallyColumn` says |
| QuickConsensus.MismatchCounts.TallyReads | genomeview/quickconsensus.py:21-35 | the pileup loop changes the arrays as `TallyColumns` says |
| Svg.Lookup | genomeview/svg.py:9-11 | none exactly when no entry has the key; otherwise the value of an entry with that key |
| Svg.Store | genomeview/svg.py:9 | `d[key] = v`: existing keys keep their places; a new key is appended with its value |
| Svg.Update | genomeview/svg.py:9 | `defaults.update(kwargs)` keeps the defaults' keys in their order and drops none |
| Svg.StoreLookup | genomeview/svg.py:9 | looking up a stored key gives the stored value; other keys are unaffected |
| Svg.StoreDistinct | genomeview/svg.py:9 | storing keeps the keys distinct |
| Svg.UpdateLookup | genomeview/svg.py:9 | after an update every key reads the keyword value if given, else the default |
| Svg.Emitted | genomeview/svg.py:10-12 | at most one emitted attribute per entry |
| Svg.EmittedMembers | genomeview/svg.py:10-12 | an attribute is emitted iff its value is neither None nor the empty string |
| Svg.AttrTextAppend | genomeview/svg.py:12-13 | the attribute text of two lists is the concatenation of their texts |
| Svg.AddOptions | genomeview/svg.py:6-13 | the options are the defaults updated by the keywords, and the text lists exactly the emitted ones in order |
| Svg.BackendText | genomeview/svg.py:18-22 | the anchor must be start, middle or end (AssertionError otherwise); the text is placed at the given point |
| Svg.BackendTextWithBackground | genomeview/svg.py:18-44 | fails iff the anchor is invalid; otherwise a filter definition, then the same text twice at the same point, in the family a `family` keyword binds to `text` (Helvetica by default) |
| Svg.KeywordFamily | genomeview/svg.py:18 | the `family` parameter of `text` as keyword arguments bind it: Helvetica when absent, "None" for None, otherwise the given value |
| Svg.TextWithBackgroundAttrs | genomeview/svg.py:18-44 | the first text has the background colour as fill and the solid filter, the second the text colour as fill and no filter; a `family` keyword is the font and not an attribute of either; every other keyword is passed through to both |
| Svg.LineAttrs | genomeview/svg.py:54-57 | a line's attributes are the caller's keywords except `arrowhead`, which binds to its unused parameter, over a black stroke |
| Svg.LineWithArrowsAttrs | genomeview/svg.py:59-67 | the line of `line_with_arrows` has the caller's keywords except `arrowhead`, over a stroke in the given colour |
| Svg.BackendRect | genomeview/svg.py:48-52 | a rectangle tag at the given point, with the given width and height |
| Svg.RectAttrs | genomeview/svg.py:48-52 | a rectangle's attributes are the caller's keywords over a white fill and a black stroke |
| Svg.BackendLine | genomeview/svg.py:54-57 | a line tag between the two given points |
| Svg.BackendLineWithArrows | genomeview/svg.py:59-74 | UnboundLocalError iff at least one arrow is drawn (`n` >= 1) in a direction other than right or left; otherwise a line between the two points with `n`, the direction and the colour |
| Svg.BackendArrow | genomeview/svg.py:76-95 | UnboundLocalError iff the direction is neither right nor left; otherwise an arrow tag at the point with that direction and colour |
| Svg.ArrowAttrs | genomeview/svg.py:76-77 | an arrow's attributes are the caller's keywords except `scale`, which binds to its parameter, with no defaults |
| Svg.Remove | genomeview/svg.py:43 | deleting a key never lengthens the attributes; an absent key changes nothing |
| Svg.KeyIndex | genomeview/svg.py:43 | the position of a key's first entry, or the length when it is absent |
| Svg.RemoveEntry | genomeview/svg.py:43 | deleting a present key drops exactly its entry; the other entries keep their order |
| Svg.RemoveLookup | genomeview/svg.py:43 | with distinct keys, the deleted key is gone and every other key keeps its value |
| Svg.StartClippedGroup | genomeview/svg.py:97-100 | a clip path, then the group opened on it |
| Svg.StopClippedGroup | genomeview/svg.py:102-103 | closes the group |
| Svg.NetAppend | genomeview/svg.py:97-103 | group depth adds over concatenation |
| Svg.BalancedAppend | genomeview/svg.py:97-103 | concatenating balanced outputs stays balanced |
| Svg.BalancedWrap | genomeview/svg.py:135-154 | a balanced body between a group's opening and closing is balanced |
| Svg.FlatBalanced | genomeview/svg.py:117-133 | output without group lines is balanced |
| Svg.Indented | genomeview/svg.py:141-150 | indenting keeps the number of lines |
| Svg.IndentedNet | genomeview/svg.py:141-150 | indenting keeps the group depth |
| Svg.IndentedBalanced | genomeview/svg.py:141-150 | indenting keeps balance |
| Svg.Renderer.Render | genomeview/svg.py:135-154 | a comment, the clip group of the renderer's box, the prerender, render and postrender lines in that order and each indented, then the closing tag |
| Svg.Renderer.Text | genomeview/svg.py:117-118 | AssertionError iff the anchor is not start, middle or end; otherwise a text tag with that anchor at the point shifted by the renderer's offset |
| Svg.Renderer.TextWithBackground | genomeview/svg.py:120-121 | fails iff the anchor is not start, middle or end; otherwise the filter definition, then the background text and the front text, both at the shifted point |
| Svg.Renderer.Rect | genomeview/svg.py:123-124 | a rectangle at the shifted point, with the given width and height |
| Svg.Renderer.Line | genomeview/svg.py:126-127 | a line between the two points, each shifted by the renderer's offset |
| Svg.Renderer.LineWithArrows | genomeview/svg.py:129-130 | fails iff an arrow is drawn in a direction other than right or left; otherwise a line between the two shifted points |
| Svg.Renderer.Arrow | genomeview/svg.py:132-133 | fails iff the direction is neither right nor left; otherwise an arrow at the shifted point |
| Svg.Subrenderer | genomeview/svg.py:156-168 | succeeds iff the requested size fits the parent (AssertionError otherwise); the child's origin is the parent's shifted |
| Svg.SubrendererTranslates | genomeview/svg.py:117-133 | each of `text`, `text_with_background`, `rect`, `line`, `line_with_arrows` and `arrow` drawn through a sub-renderer equals the same call on the parent, with every point shifted by the sub-renderer's offset (both ends of a line) |
| Svg.SubrenderersCompose | genomeview/svg.py:156-168 | nested sub-renderers add their offsets |
| Svg.RenderBalanced | genomeview/svg.py:135-154 | a render's output is balanced whenever the element's lines are |
| GenomeViews.AfterSetup | genomeview/genomeview.py:166-173 | `_setup` records the width; it keeps the cache consistent; a failure leaves bases-per-pixel unchanged |
| GenomeViews.SetupIdempotent | genomeview/genomeview.py:166-173 | a second `_setup` passes and changes nothing |
| GenomeViews.SetupInvalidation | genomeview/genomeview.py:166-173 | with an unchanged width nothing happens; a new width drops the cached sequence |
| GenomeViews.SetupFailureIsNotRetried | genomeview/genomeview.py:166-173 | with no width or width 0 `_setup` fails, yet records the width, so the next call passes without recomputing |
| GenomeViews.BasesPerPixel | genomeview/genomeview.py:171-173 | the bases per pixel times the pixel width is the window's width in bases; positive when both are |
| GenomeViews.ToPx | genomeview/genomeview.py:175-183 | the pixel offset times the bases per pixel is the position's distance from the window start; the start itself is at pixel 0 |
| GenomeViews.RelPx | genomeview/genomeview.py:185-193 | the pixel length times the bases per pixel is the genomic length |
| GenomeViews.ProjectionEnds | genomeview/genomeview.py:175-183 | the window's start projects to pixel 0 and its end to the full width |
| GenomeViews.ProjectionIncreasing | genomeview/genomeview.py:175-183 | on a positive width the projection is strictly increasing |
| GenomeViews.ProjectionDifference | genomeview/genomeview.py:175-193 | the distance of two projected positions is the projected length |
| GenomeViews.AfterToPixels | genomeview/genomeview.py:175-183 | `topixels` runs `_setup` first |
| GenomeViews.AfterRelPixels | genomeview/genomeview.py:185-193 | `relpixels` runs `_setup` first |
| GenomeViews.PixelsOnWidth | genomeview/genomeview.py:166-193 | once a non-zero width is set, `topixels` and `relpixels` are the linear maps for that width |
| GenomeViews.AfterGetSeq | genomeview/genomeview.py:195-219 | `get_seq` runs `_setup`, which keeps the width and records it as the last width seen; a success requires the view's strand and leaves a cached window |
| GenomeViews.AfterFetch | genomeview/genomeview.py:201-219 | after `_setup`, only the cached window may change, and a window already cached is kept; a success requires the view's strand and leaves a cached window |
| GenomeViews.FetchChecks | genomeview/genomeview.py:202-219 | after `_setup`: AssertionError iff there is no source or the range (defaulting to the window) leaves the window, and then the cache is untouched; a success is the requested slice of the cached window |
| GenomeViews.GetSeqChecks | genomeview/genomeview.py:195-219 | the same for the whole of `get_seq`: AssertionError iff `_setup` passed and then the source is missing or the range leaves the window; a success is the requested slice of the cached window |
| GenomeViews.GetSeqUsesCache | genomeview/genomeview.py:211-213 | once the window is cached, the source is not consulted again |
| GenomeViews.GetSeqWindow | genomeview/genomeview.py:201-219 | with a fresh cache, the sequence of a sub-range is the upper-cased slice of the contig |
| GenomeViews.GetSeqStrandMismatch | genomeview/genomeview.py:215-217 | asking for the other strand raises, but the window is cached first |
| GenomeViews.Scale.constructor | genomeview/genomeview.py:151-164 | a scale over the window with empty caches |
| GenomeViews.Scale.Create | genomeview/genomeview.py:151-164 | ValueError exactly when `start >= end` |
| GenomeViews.Scale.SetPixelWidth | genomeview/genomeview.py:124-126 | the view's write sets the width and nothing else |
| GenomeViews.Scale.Setup | genomeview/genomeview.py:166-173 | the object's caches change as `AfterSetup` says |
| GenomeViews.Scale.ToPixels | genomeview/genomeview.py:175-183 | as `AfterToPixels`; with a width set the result is the linear map |
| GenomeViews.Scale.RelPixels | genomeview/genomeview.py:185-193 | as `AfterRelPixels`; the width is kept |
| GenomeViews.Scale.GetSeq | genomeview/genomeview.py:195-219 | the result and the new caches are those of `AfterGetSeq` |
| GenomeViews.Scale.Fetch | genomeview/genomeview.py:201-219 | the result and the new caches are those of `AfterFetch` |
| GenomeViews.Scale.LoadWindow | genomeview/genomeview.py:212-213 | the window returned is `CachedWindow` of the old caches (the cached window, else the source's sequence upper-cased); only a loaded window is stored, and nothing changes on a source error |
| GenomeViews.SumSnoc | genomeview/genomeview.py:44-45 | a sum grows by the last height |
| GenomeViews.SumPlusClosedForm | genomeview/genomeview.py:129-131 | Σ(h + gap) is Σh plus one gap per height |
| GenomeViews.MatchingTracks | genomeview/genomeview.py:117-122 | exactly the tracks with the given name, or all of them when no name is given |
| GenomeViews.MatchingTracksInOrder | genomeview/genomeview.py:117-122 | the matching tracks are the view's tracks filtered in order |
| GenomeViews.TracksOf | genomeview/genomeview.py:24-31 | AttributeError iff the element has no `get_tracks`; otherwise every track it returns matches the name filter |
| GenomeViews.TracksOfAllComplete | genomeview/genomeview.py:24-31 | a track is reported iff it sits under the elements, at any depth of rows, and its name matches |
| GenomeViews.TracksOfAll | genomeview/genomeview.py:24-31 | every track collected from the elements matches the name filter |
| GenomeViews.TracksOfAllMembers | genomeview/genomeview.py:24-31 | a track is collected iff one of the elements holds it and it matches the name filter; elements without `get_tracks` contribute nothing |
| GenomeViews.GenomeView.GetTracks | genomeview/genomeview.py:117-122 | a track is returned iff it is one of the view's tracks and the name is None or equals its name |
| GenomeViews.ViewRow.GetTracks | genomeview/genomeview.py:75-82 | a track is returned iff one of the row's views holds it and it matches the name filter |
| GenomeViews.Document.GetTracks | genomeview/genomeview.py:24-31 | a track is returned iff one of the document's elements holds it and it matches the name filter |
| GenomeViews.GenomeView.constructor | genomeview/genomeview.py:103-112 | the view's tracks and scale, a margin of 10, no pixel width, and a height of 0 until layout sets it |
| GenomeViews.GenomeView.Layout | genomeview/genomeview.py:124-131 | the width goes to the view and its scale; the height is Σ(track height + margin) |
| GenomeViews.GenomeView.Render | genomeview/genomeview.py:133-138 | succeeds iff every track fits the renderer's height; track `i` starts at Σ(h + margin) over the tracks above it |
| GenomeViews.MaxHeight | genomeview/genomeview.py:92 | the largest height, or 0 for none |
| GenomeViews.ViewRow.constructor | genomeview/genomeview.py:55-66 | the views, a space of 5 between them, nothing laid out |
| GenomeViews.ViewRow.Layout | genomeview/genomeview.py:84-92 | ZeroDivisionError iff there are no views; each view gets an equal share of the width after the gaps; the height is the tallest view's |
| GenomeViews.ViewRow.Render | genomeview/genomeview.py:94-99 | before layout a row with views has no `each_width` and fails with AttributeError; otherwise succeeds iff the share and every height fit the renderer; the views are placed side by side, each `each_width` wide and one gap apart |
| GenomeViews.Document.constructor | genomeview/genomeview.py:11-19 | the width, the elements and margins of 5 |
| GenomeViews.Document.Layout | genomeview/genomeview.py:33-36 | the view width is the width inside the side margins |
| GenomeViews.Document.Render | genomeview/genomeview.py:38-50 | a header with height Σ(h + gap) + 2·margin, each element placed below the previous one, then the footer |
| GenomeViews.DocumentStacking | genomeview/genomeview.py:38-50 | with heights and gap not negative, the placed elements do not overlap: each one's bottom plus a gap is above every later one's top, and above the page's bottom margin |
| IntervalTracks.NormaliseStrand | genomeview/intervaltrack.py:11-12 | a boolean strand becomes "+" for True and "-" for False; a string is kept |
| IntervalTracks.Overlaps | genomeview/intervaltrack.py:15-22 | true iff the chromosomes agree, neither interval starts after the other ends (touching ends count), and the strands agree or strand is ignored |
| IntervalTracks.MakeInterval | genomeview/intervaltrack.py:3-13 | the interval keeps its fields, with the strand normalised |
| IntervalTracks.OverlapsSharedPosition | genomeview/intervaltrack.py:15-22 | ignoring strand, well-formed intervals overlap iff they share a chromosome and a position |
| IntervalTracks.OverlapsStrandAndSymmetry | genomeview/intervaltrack.py:15-22 | overlapping with strand is overlapping without it plus equal strands; both are symmetric |
| IntervalTracks.TouchingIntervalsOverlap | genomeview/intervaltrack.py:19 | intervals that meet at one position overlap (closed ranges) |
| IntervalTracks.ColorByStrand | genomeview/intervaltrack.py:27-32 | the minus colour iff the strand is "-", the plus colour otherwise |
| IntervalTracks.FirstFit | genomeview/intervaltrack.py:52-59 | the first row whose end lies left of `x`, or a new row when none does |
| IntervalTracks.LabelWidth | genomeview/intervaltrack.py:61-64 | the room a label takes is never negative |
| IntervalTracks.Extents | genomeview/intervaltrack.py:51-64 | the pixel extent of each interval, in order |
| IntervalTracks.ExtentOrdered | genomeview/intervaltrack.py:51-64 | an interval's extent never ends before it starts |
| IntervalTracks.PackFrom | genomeview/intervaltrack.py:51-79 | every interval gets a row, and rows are only ever added, at most one per interval |
| IntervalTracks.PackSeparates | genomeview/intervaltrack.py:51-67 | two intervals put in one row do not overlap in pixels: the later starts right of where the earlier ends |
| IntervalTracks.FirstClash | genomeview/intervaltrack.py:66-67 | the index of the first repeated id, or the length when all ids are fresh |
| IntervalTracks.RecordRows | genomeview/intervaltrack.py:66 | the row map gains exactly the laid-out ids |
| IntervalTracks.RecordRowsLookup | genomeview/intervaltrack.py:66 | each laid-out id maps to its row; earlier ids keep theirs |
| IntervalTracks.TrackHeight | genomeview/intervaltrack.py:79 | the height is at least one row plus the margin |
| IntervalTracks.IntervalTrack.constructor | genomeview/intervaltrack.py:37-49 | the intervals, margins 15 and 2, label distance 3, no rows, height 100 |
| IntervalTracks.IntervalTrack.FindRow | genomeview/intervaltrack.py:52-59 | the row loop finds `FirstFit` |
| IntervalTracks.IntervalTrack.LayoutInterval | genomeview/intervaltrack.py:51-67 | the rows change as `Place` says; AssertionError iff the id is already placed; otherwise the id maps to its first-fit row |
| IntervalTracks.IntervalTrack.LayoutEach | genomeview/intervaltrack.py:70-78 | the intervals are placed in order, stopping at the first repeated id |
| IntervalTracks.IntervalTrack.Layout | genomeview/intervaltrack.py:70-79 | from no rows and an empty map, every interval is placed as `PackFrom` says; on success the height follows the row count |
| IntervalTracks.FirstClashAt | genomeview/intervaltrack.py:66-67 | a fresh prefix followed by a repeated id makes that index the first clash |
| IntervalTracks.PlaceRule | genomeview/intervaltrack.py:52-64 | placing extends the chosen row to the new end, or adds a row |
| IntervalTracks.OverlappingIntervalsSeparate | genomeview/intervaltrack.py:51-79 | intervals that overlap in the genome never share a row |
| IntervalTracks.DisjointIntervalsCanSplitRows | genomeview/intervaltrack.py:61-64 | disjoint but close intervals go to different rows because of the margin |
| IntervalTracks.OverlapScenario | genomeview/intervaltrack.py:51-79 | intervals A (100-150) and B (140-200) end up in rows 0 and 1 |
| BamTracks.ReadInterval | genomeview/bamtrack.py:28-40 | a read's interval: its name, its span, "-" iff reversed, labelled iff labels are on |
| BamTracks.ReadIntervals | genomeview/bamtrack.py:28-40 | one interval per kept read (mapped, and secondary only when included) |
| BamTracks.ReadIntervalsInOrder | genomeview/bamtrack.py:28-40 | the intervals are those of the kept reads, in fetch order, each once |
| BamTracks.ReadIntervalsFromKept | genomeview/bamtrack.py:28-40 | every interval comes from a kept read |
| BamTracks.BaseGlyph | genomeview/bamtrack.py:84-94 | fails iff the base is past the read, the window failed, or a differing base has no colour; a base is drawn iff it differs from the reference and is N, or there is no table, or the consensus supports it |
| BamTracks.MatchFrom | genomeview/bamtrack.py:76-97 | on success, no more glyphs than bases in the match; each a mismatch inside both the match and the reference window |
| BamTracks.OpGlyphs | genomeview/bamtrack.py:76-130 | only a match can fail; a match draws at most one glyph per base, any other operation at most one glyph |
| BamTracks.Advance | genomeview/bamtrack.py:76-130 | each cursor moves forward by at most the operation's length; only M and D move the reference cursor, and only M, I and S move the query cursor |
| BamTracks.CigarFrom | genomeview/bamtrack.py:76-130 | the walk fails only if some remaining operation is a match |
| BamTracks.CigarGlyphs | genomeview/bamtrack.py:61-130 | nothing for a secondary read; KeyError for a primary read with no row; any other failure comes from a match |
| BamTracks.WalkMatch | genomeview/bamtrack.py:76-97 | the match loop draws what `MatchFrom` says |
| BamTracks.WalkOp | genomeview/bamtrack.py:76-130 | one operation draws what `OpGlyphs` says and moves the cursors as `Advance` says |
| BamTracks.WalkCigar | genomeview/bamtrack.py:61-130 | the operation loop draws what `CigarFrom` says |
| BamTracks.SoundAppend | genomeview/bamtrack.py:84-94 | the mismatch-soundness property holds of a concatenation |
| BamTracks.MatchFromSound | genomeview/bamtrack.py:76-97 | a match run draws mismatches only inside the window, each naming the read's base there |
| BamTracks.CigarFromSound | genomeview/bamtrack.py:61-130 | the whole walk draws mismatches only inside the window |
| BamTracks.BaseGlyphEmptyTable | genomeview/bamtrack.py:84-94 | against an empty table, a base is drawn only when it is N |
| BamTracks.CigarFromEmptyTable | genomeview/bamtrack.py:61-130 | against an empty table only clips and N bases are drawn |
| BamTracks.CursorsFollowSam | genomeview/bamtrack.py:76-130 | for M, I, D, S, H and P the cursors advance as the SAM format says |
| BamTracks.SkippedReferenceNotAdvanced | genomeview/bamtrack.py:76-130 | N, = and X move neither cursor, though they consume reference in the SAM format |
| BamTracks.ReadCoord | genomeview/bamtrack.py:152-154 | a read's key is a 4-tuple |
| BamTracks.LtTransitive | genomeview/bamtrack.py:164-170 | the tuple ordering is transitive |
| BamTracks.LtAsymmetric | genomeview/bamtrack.py:164-170 | the tuple ordering is asymmetric |
| BamTracks.ListLtTransitive | genomeview/bamtrack.py:164-170 | the ordering of lists of tuples is transitive |
| BamTracks.ListLtAsymmetric | genomeview/bamtrack.py:164-170 | the ordering of lists of tuples is asymmetric |
| BamTracks.CoordsOf | genomeview/bamtrack.py:149-154 | the keys of the mapped reads of one name, in fetch order |
| BamTracks.Group | genomeview/bamtrack.py:149-154 | the grouping has each name once, with 4-tuple keys |
| BamTracks.GroupCollects | genomeview/bamtrack.py:149-154 | a name is grouped iff some mapped read has it, and its list is that name's keys in fetch order |
| BamTracks.FixLone | genomeview/bamtrack.py:157-162 | only a lone entry is changed: its mate's start is added as a pseudo-entry |
| BamTracks.FixedItems | genomeview/bamtrack.py:157-162 | one item per grouped name, in the grouping's order, each with its fixed list |
| BamTracks.InsertItem | genomeview/bamtrack.py:164-170 | insertion adds exactly the item |
| BamTracks.SortItems | genomeview/bamtrack.py:164-170 | the sort is a permutation |
| BamTracks.SortItemsSorted | genomeview/bamtrack.py:164-170 | the sorted items are ordered by their key lists and are a permutation |
| BamTracks.SortItemsNames | genomeview/bamtrack.py:164-170 | sorting keeps the names, and keeps them distinct |
| BamTracks.PairIntervalsOf | genomeview/bamtrack.py:166-170 | one plus-strand interval per item, named after the read and spanning the item's keys |
| BamTracks.PairIntervalsShape | genomeview/bamtrack.py:149-170 | one interval per mapped read name, each on the view's chromosome and the + strand, captioned with its name iff labels are drawn |
| BamTracks.PairIntervalsFresh | genomeview/bamtrack.py:164-170 | each name gets one interval, so the layout never meets a repeated id |
| BamTracks.PairIntervalsSpan | genomeview/bamtrack.py:149-170 | every mapped read name gets an interval spanning its keys |
| BamTracks.IndexOfName | genomeview/bamtrack.py:222-226 | the first buffered read with the name, or the buffer's length |
| BamTracks.PairUpCount | genomeview/bamtrack.py:217-227 | twice the number of pairs plus the reads left in the buffer is the number of mapped reads |
| BamTracks.FindMate | genomeview/bamtrack.py:221-222 | the buffer lookup returns the position `IndexOfName` gives |
| BamTracks.PairReads | genomeview/bamtrack.py:218-226 | the fetch loop ends with the pairs and the buffer `PairUp` defines |
| BamTracks.GroupsOfLayout | genomeview/bamtrack.py:228-232 | each pair appears twice in a row, then each leftover read on its own, in buffer order |
| BamTracks.DrawnGroupsShape | genomeview/bamtrack.py:217-232 | one drawing per mapped read: each pair, two mapped reads of one name, drawn twice in a row, then each leftover mapped read alone |
| BamTracks.PairUpInvariant | genomeview/bamtrack.py:220-234 | the buffer holds each name once, exactly the names seen an odd number of times; each pair is two mapped reads of one name |
| BamTracks.BufferReads | genomeview/bamtrack.py:217-232 | the loop hands each pair to drawing twice, once per read, then each leftover read alone, as `DrawnGroups` says |
| BamTracks.ConnectorSpan | genomeview/bamtrack.py:183-201 | mates: from the first's end to the last's start; a lone read has a connector iff it is a proper pair, and it joins the read's start and its mate's start, the lesser first |
| BamTracks.Mapped | genomeview/bamtrack.py:177-178 | only mapped reads remain, each from the input |
| BamTracks.DrawReadPair | genomeview/bamtrack.py:176-214 | nothing when no read is mapped; KeyError iff the first mapped read has no row; otherwise its row |
| BamTracks.MatesConnectorWithinSpan | genomeview/bamtrack.py:164-201 | two mates' connector stays within their laid-out span |
| BamTracks.LoneMateConnectorWithinSpan | genomeview/bamtrack.py:157-201 | a lone proper-pair read's connector starts at the laid-out span's start (the lesser of its own start and its mate's) and ends inside the span |
| BamTracks.BamTrack.constructor | genomeview/bamtrack.py:9-25 | an empty interval track with the flags and no mismatch table |
| BamTracks.BamTrack.Counts | genomeview/bamtrack.py:47-50 | the table as a value, when there is one |
| BamTracks.BamTrack.ResetMismatchCounts | genomeview/bamtrack.py:47-50 | a fresh table over the scale's window, tallied from the pileup, when consensus filtering is on; otherwise the previous table is kept |
| BamTracks.BamTrack.DrawCigar | genomeview/bamtrack.py:61-130 | draws what `CigarGlyphs` says for the read, window and table |
| BamTracks.BamTrack.LayoutSingleEnd | genomeview/bamtrack.py:43-45 | the kept reads become the intervals; a repeated name fails the layout with AssertionError; otherwise all are placed, the height follows the rows and the mismatch table is reset |
| BamTracks.BamTrack.LayoutPairedEnd | genomeview/bamtrack.py:141-173 | the same scale again changes nothing; otherwise the table is reset, then the pair intervals are placed; on failure the height is kept and either the reset failed with the rows untouched or the placement stopped where `Placed` says |
| BamTracks.BamTrack.PlacePairs | genomeview/bamtrack.py:149-173 | the pair intervals are placed, and on success the height follows the rows |
| BamTracks.GroupReads | genomeview/bamtrack.py:149-154 | the grouping loop builds `Group` |
| BamTracks.FixLoneMates | genomeview/bamtrack.py:157-162 | the fix-up loop builds `FixedItems` |
| BamTracks.PairedLayoutFromEmptyPasses | genomeview/bamtrack.py:164-173 | from an empty track the paired layout never fails its duplicate-id check |
| BedTracks.ParseOptional | genomeview/bedtrack.py:21-26 | a missing value stays missing; a present one is parsed, ValueError otherwise |
| BedTracks.MakeTranscript | genomeview/bedtrack.py:10-32 | succeeds iff every number parses; the exons default to the whole span |
| BedTracks.ParseAll | genomeview/bedtrack.py:52-53 | succeeds iff every item parses, and then each value is its item's |
| BedTracks.BlockExons | genomeview/bedtrack.py:55-56 | `zip` of starts and lengths: as many exons as the shorter list, each offset by the transcript's start |
| BedTracks.BlockColumns | genomeview/bedtrack.py:51-56 | fewer than 12 fields, or a block count that is not positive, give no blocks; blocks are the zipped starts and lengths placed from the start; failures are ValueError |
| BedTracks.TxFromBedFields | genomeview/bedtrack.py:34-60 | fewer than 3 fields give ValueError, exactly 7 IndexError; otherwise the chrom, start, end, name, strand and coding bounds are parsed from their columns, and the exons are the block columns' or one exon over the span |
| BedTracks.IgnoresScoreAndItemRgb | genomeview/bedtrack.py:34-60 | the score and itemRgb columns do not affect the transcript |
| BedTracks.NoSeparatorInDigits | genomeview/bedtrack.py:52-53 | a printed number contains no comma |
| BedTracks.SplitJoinComma | genomeview/bedtrack.py:52-53 | splitting a comma-joined list of printed numbers gives the printed numbers |
| BedTracks.ParseAllShows | genomeview/bedtrack.py:52-53 | parsing printed numbers gives the numbers |
| BedTracks.Bed6RoundTrip | genomeview/bedtrack.py:34-60 | a BED6 line written from a transcript reads back as that transcript |
| BedTracks.BlockSizes | genomeview/bedtrack.py:55-56 | one block size per exon |
| BedTracks.BlockStarts | genomeview/bedtrack.py:55-56 | one block start per exon |
| BedTracks.Bed12Fields | genomeview/bedtrack.py:34-60 | a BED12 line has 12 fields |
| BedTracks.Bed12RoundTrip | genomeview/bedtrack.py:34-60 | a BED12 line written from a transcript reads back as that transcript, exons included |
| BedTracks.Bed12Blocks | genomeview/bedtrack.py:51-56 | the block columns of a written line read back as the exons |
| BedTracks.BlocksGiveExons | genomeview/bedtrack.py:55-56 | block starts and sizes zip back to the exons |
| BedTracks.BlockListRoundTrip | genomeview/bedtrack.py:52-53 | a comma list of numbers reads back as those numbers |
| BedTracks.LineVerdict | genomeview/bedtrack.py:109-114 | an empty line gives IndexError; another chromosome is skipped; otherwise at least 3 fields are needed |
| BedTracks.VerdictIsOverlap | genomeview/bedtrack.py:113-114 | a line is kept iff its span meets the window inclusively, which is `overlaps` ignoring strand |
| BedTracks.ReadPlainBedSound | genomeview/bedtrack.py:105-119 | every transcript is on the chromosome and overlaps the window; the warning is raised iff no line names the chromosome |
| BedTracks.ReadPlainBed | genomeview/bedtrack.py:106-119 | at most one transcript per line |
| BedTracks.ReadErrorSticks | genomeview/bedtrack.py:105-119 | an error on a prefix of the lines is the error of the whole read |
| BedTracks.FetchPlainBed | genomeview/bedtrack.py:105-119 | the loop computes `ReadPlainBed` |
| BedTracks.Included | genomeview/bedtrack.py:145-154 | without a filter every transcript; with one, exactly those it accepts |
| BedTracks.IncludedInOrder | genomeview/bedtrack.py:145-154 | with a filter, the accepted transcripts in file order, each once |
| BedTracks.LocusOf | genomeview/bedtrack.py:156-168 | the id is the name (or "feature") plus "_" and the index; the label is present iff labels are on and there is a name |
| BedTracks.Loci | genomeview/bedtrack.py:156-168 | one locus per transcript, the i-th built with index i |
| BedTracks.IntervalsOf | genomeview/bedtrack.py:163 | the loci's intervals in order |
| BedTracks.IterLoci | genomeview/bedtrack.py:156-168 | the generator loop yields `Loci` |
| BedTracks.LocusIdsDiffer | genomeview/bedtrack.py:160-161 | loci at different indexes have different ids |
| BedTracks.LociFresh | genomeview/bedtrack.py:156-168 | every id is fresh, so the layout never meets a repeated one |
| BedTracks.ThickClipped | genomeview/bedtrack.py:216-225 | a thick part exists iff the exon meets the coding range, and lies inside both |
| BedTracks.ThickSegment | genomeview/bedtrack.py:216-225 | TypeError only for a coding start without a coding end; a thick segment lies inside its exon |
| BedTracks.ThinSegment | genomeview/bedtrack.py:226-231 | TypeError only for a coding start without a coding end; a thin segment is the whole exon |
| BedTracks.ExonPlan | genomeview/bedtrack.py:214-231 | fails only with TypeError; at most one thin and one thick segment per exon |
| BedTracks.ExonDrawnWhole | genomeview/bedtrack.py:214-231 | every exon is drawn whole by one of the passes |
| BedTracks.PassSegments | genomeview/bedtrack.py:214-245 | a pass draws at most one segment per exon, all of its kind; a failure is TypeError |
| BedTracks.ExonPlanOrder | genomeview/bedtrack.py:214-245 | the thin segments come first, then the thick ones |
| BedTracks.NonCodingAllThin | genomeview/bedtrack.py:226-231 | a non-coding transcript draws every exon thin and nothing thick |
| BedTracks.ExonSegments | genomeview/bedtrack.py:214-245 | the nested exon loops compute `ExonPlan` |
| BedTracks.PassErrorSticks | genomeview/bedtrack.py:214-245 | a failing exon fails its pass |
| BedTracks.NarrowInBases | genomeview/bedtrack.py:172-176 | a transcript is drawn generically iff it spans fewer bases than 12 pixels hold |
| BedTracks.ExonSpan | genomeview/bedtrack.py:233-239 | a block is at least 1 px wide: exact when wide enough, otherwise 1 px centred on its start |
| BedTracks.SegmentRect | genomeview/bedtrack.py:233-245 | the block has the thick or thin height, the colour and the id, and is centred on the row |
| BedTracks.Connectors | genomeview/bedtrack.py:193-208 | one connector between each pair of consecutive exons, pointing with the strand |
| BedTracks.DrawLocus | genomeview/bedtrack.py:170-251 | generic when narrow; KeyError without a row; succeeds iff the exon passes do; one block per planned segment, drawn at the row's top; connectors between consecutive exons on the midline; a label iff there is one, right of the end |
| BedTracks.BedTrack.constructor | genomeview/bedtrack.py:122-143 | an empty interval track, labels on, no filter |
| BedTracks.BedTrack.Layout | genomeview/bedtrack.py:145-168 | the included transcripts become the loci and are laid out without failing; the height follows the rows |
| BedTracks.BedTrack.Draw | genomeview/bedtrack.py:170-251 | draws as `DrawLocus` says, at the scale's bases-per-pixel |
| BedTracks.LaidOutLociHaveRows | genomeview/bedtrack.py:179-182 | after the layout every locus has a row, so drawing never raises KeyError for a row |

## Left out

- Reading files: pysam BAM access, pyBigWig, tabix and `open()`, plus
  `FastaGenomeSource`, `export` and `convenience`. The fetched reads,
  pileup columns, BED lines (already split into fields) and contigs are
  parameters.
- BED fetching from tabix and bigBed: only the plain-BED filter is
  modelled. Its logged warning is returned as a flag.
- IntervalTracks.IntervalTrack.Layout: requires a non-zero pixel width
  even when there are no intervals. Python's `layout` projects nothing then,
  so it also succeeds with a missing or zero width. The model's placement
  states are defined only for a projecting scale.
- `arrowKwdArgs` of `line_with_arrows` and the arrows it draws: the
  `LineWithArrows` command records the line, `n`, the direction and the
  colour, and not the individual `arrow` tags. Only their failure on an
  unknown direction is modelled.
- `axis`, `graphtrack` and the numpy arrow placement (`n_arrows`, the
  `arange`/`round` positions of `line_with_arrows` and `arrow`): these
  are floating-point drawing. Pixel positions are `real` and have no
  rounding.
- SVG formatting: number formatting, the text of the tags, the global id
  counters (ids are parameters) and the debug `print`s.
- `IntervalTrack.draw_interval` and `render_label` are not modelled. A
  narrow BED transcript returns `Generic` in their place.
  `IntervalTrack.draw_interval` calls `renderer.block_arrow`, which the
  `Renderer` in `svg.py` does not define.
- Track heights and renderer ids are parameters of the view, row and
  document methods, so the tracks' own `render` generators are not called.
- `ViewRow.get_views` and the track placeholder in `track.py` are not
  modelled.
- Constructor wiring (keyword defaults, file-type dispatch) is not
  modelled.
- `min_indel_size` is not modelled.
- Inheritance becomes composition. The BAM and BED tracks each hold an
  `IntervalTrack` and call its methods.
- BamTracks.BamTrack.DrawCigar: takes the scale's reference window as a
  parameter instead of calling `get_seq`. Its glyphs are in genomic
  coordinates. The pixel geometry of bamtrack.py:85-127 is not modelled:
  the rectangle width `max(...,2)` centred on the midpoint, the clip width
  of 4, the deletion box, the row offset and the fill colours.
- BamTracks.DrawReadPair: states the reads' row and the connector's
  genomic span only. The connector's y (bamtrack.py:199) and the pixel
  projection of the reads and connector are not modelled.
- Generators that fail part-way return only the error. The items yielded
  before the failure are not modelled.
- The `AttributeError` that `Renderer.render` tolerates from a missing
  `prerender` or `postrender` is modelled as an optional argument.
- `int()` with surrounding whitespace or underscores is not accepted by
  `PyText.ParseInt`. Python accepts both. BED fields never contain them
  once split on whitespace.
- PyText.ParseInt: only ASCII digits are digits. Python's `int()` also
  reads other Unicode decimal digits, which BED files do not use.
- PyText.Upper: only ASCII letters are upper-cased. Python's `str.upper`
  maps every Unicode letter; reference sequences are ASCII.
- GenomeViews.GenomeView: the height is 0 before `layout`. The Python
  object has no `height` attribute until then, so reading it earlier
  raises AttributeError. Every modelled caller lays the view out first.
- BamTracks.SortItems: stability of Python's sort (equal keys keep their
  order) is not proved. The contract states sortedness and permutation.
- QuickConsensus.MismatchCounts.TallyReads: on an error, the partially
  updated table is not stated.
- QuickConsensus.MismatchCounts: the numpy float counts are modelled as
  integers. The ratio tests are stated by cross-multiplying.
- BedTracks.BlockColumns parses `start` even when no block is used. The
  outcome is the same, because the transcript parses `start` anyway.
- The interval layout follows the code, not a shortcut description of it.
  Intervals that do not overlap in the genome can still need separate rows,
  because each extent carries a 15 px margin (and room for the label).
  `IntervalTracks.DisjointIntervalsCanSplitRows` exhibits this.
- The SAM operations N, = and X move neither cursor in `_draw_cigar`.
  The model keeps that behaviour, which
  `BamTracks.SkippedReferenceNotAdvanced` states.

=== FILE: bamtrack.dfy ===
/** BAM read tracks: reads become intervals (single-end) or mate pairs
    (paired-end), each read's CIGAR is walked to find the mismatches,
    deletions, insertions and clips worth drawing, and mates are paired up
    again when the track is rendered. */
module BamTracks {
  import opened Wrappers
  import opened PyText
  import QuickConsensus
  import IntervalTracks
  import GenomeViews
  import Sequences

  /** The fields of a pysam `AlignedSegment` the track reads. CIGAR lengths
      are unsigned in BAM. */
  datatype AlignedRead = AlignedRead(
    name: string, refStart: int, refEnd: int, nextRefStart: int,
    isUnmapped: bool, isSecondary: bool, isReverse: bool, isProperPair: bool,
    bases: string, cigar: seq<(int, nat)>)

  // ---------------------------------------------------------------------
  // Single-end iteration

  /** The reads `__iter__` turns into intervals: mapped ones, and secondary
      ones only when they are included. */
  predicate Kept(r: AlignedRead, includeSecondary: bool) {
    !r.isUnmapped && (includeSecondary || !r.isSecondary)
  }

  /** A read's interval: its name as id, forward unless reversed, labelled
      with its name when read labels are drawn. */
  function ReadInterval(r: AlignedRead, chrom: string, drawReadLabels: bool): (iv: IntervalTracks.Interval)
    ensures iv.id == r.name && iv.chrom == chrom && iv.start == r.refStart && iv.end == r.refEnd
    ensures iv.strand == (if r.isReverse then "-" else "+")
    ensures iv.caption == (if drawReadLabels then Some(r.name) else None)
  {
    IntervalTracks.MakeInterval(r.name, chrom, r.refStart, r.refEnd, IntervalTracks.BoolStrand(!r.isReverse),
                                if drawReadLabels then Some(r.name) else None)
  }

  function KeptCount(fetched: seq<AlignedRead>, includeSecondary: bool): nat {
    if fetched == [] then 0
    else KeptCount(fetched[..|fetched| - 1], includeSecondary) + (if Kept(fetched[|fetched| - 1], includeSecondary) then 1 else 0)
  }

  /** `SingleEndBAMTrack.__iter__` over the reads the fetch returns: one
      interval per kept read, in fetch order, and nothing else. */
  function ReadIntervals(fetched: seq<AlignedRead>, chrom: string, includeSecondary: bool, drawReadLabels: bool)
    : (ivs: seq<IntervalTracks.Interval>)
    ensures |ivs| == KeptCount(fetched, includeSecondary)
    ensures forall j :: 0 <= j < |fetched| && Kept(fetched[j], includeSecondary) ==>
      ReadInterval(fetched[j], chrom, drawReadLabels) in ivs
  {
    if fetched == [] then []
    else
      var n := |fetched|;
      var init := ReadIntervals(fetched[..n - 1], chrom, includeSecondary, drawReadLabels);
      assert forall j :: 0 <= j < n - 1 ==> fetched[..n - 1][j] == fetched[j];
      if Kept(fetched[n - 1], includeSecondary) then init + [ReadInterval(fetched[n - 1], chrom, drawReadLabels)]
      else init
  }

  /** The intervals are exactly `[interval(r) for r in fetched if kept(r)]`:
      the kept reads, in fetch order, each once. */
  lemma {:induction false} ReadIntervalsInOrder(fetched: seq<AlignedRead>, chrom: string, includeSecondary: bool,
                                                drawReadLabels: bool)
    ensures ReadIntervals(fetched, chrom, includeSecondary, drawReadLabels)
         == Sequences.Map(Sequences.Filter(fetched, r => Kept(r, includeSecondary)),
                          r => ReadInterval(r, chrom, drawReadLabels))
  {
    if fetched != [] {
      var n := |fetched|;
      var init := fetched[..n - 1];
      var keep := r => Kept(r, includeSecondary);
      var toInterval := r => ReadInterval(r, chrom, drawReadLabels);
      ReadIntervalsInOrder(init, chrom, includeSecondary, drawReadLabels);
      assert fetched == init + [fetched[n - 1]];
      Sequences.FilterSnoc(init, fetched[n - 1], keep);
      if Kept(fetched[n - 1], includeSecondary) {
        Sequences.MapSnoc(Sequences.Filter(init, keep), fetched[n - 1], toInterval);
      } else {
        assert Sequences.Filter(fetched, keep) == Sequences.Filter(init, keep) + [];
      }
    }
  }

  ghost predicate IsKeptInterval(fetched: seq<AlignedRead>, includeSecondary: bool, chrom: string, drawReadLabels: bool,
                                 iv: IntervalTracks.Interval) {
    exists j :: 0 <= j < |fetched| && Kept(fetched[j], includeSecondary) && iv == ReadInterval(fetched[j], chrom, drawReadLabels)
  }

  /** Every interval comes from a kept read. */
  lemma {:induction false} ReadIntervalsFromKept(fetched: seq<AlignedRead>, chrom: string, includeSecondary: bool, drawReadLabels: bool)
    ensures forall k :: 0 <= k < |ReadIntervals(fetched, chrom, includeSecondary, drawReadLabels)| ==>
      IsKeptInterval(fetched, includeSecondary, chrom, drawReadLabels, ReadIntervals(fetched, chrom, includeSecondary, drawReadLabels)[k])
  {
    if fetched != [] {
      var n := |fetched|;
      var init := fetched[..n - 1];
      ReadIntervalsFromKept(init, chrom, includeSecondary, drawReadLabels);
      var prev := ReadIntervals(init, chrom, includeSecondary, drawReadLabels);
      var ivs := ReadIntervals(fetched, chrom, includeSecondary, drawReadLabels);
      forall k | 0 <= k < |ivs|
        ensures IsKeptInterval(fetched, includeSecondary, chrom, drawReadLabels, ivs[k])
      {
        if k < |prev| {
          assert ivs[k] == prev[k];
          assert IsKeptInterval(init, includeSecondary, chrom, drawReadLabels, prev[k]);
          var j :| 0 <= j < |init| && Kept(init[j], includeSecondary) && prev[k] == ReadInterval(init[j], chrom, drawReadLabels);
          assert init[j] == fetched[j];
        } else {
          assert ivs[k] == ReadInterval(fetched[n - 1], chrom, drawReadLabels);
        }
      }
    }
  }

  // ---------------------------------------------------------------------
  // The CIGAR walk

  /** What `_draw_cigar` draws, in genomic coordinates: a mismatching base,
      a deletion box from `start` to `end`, an insertion tick, a clip tick. */
  datatype Glyph = Mismatch(pos: int, base: char) | Deletion(start: int, end: int) | Insertion(pos: int) | Clip(pos: int)

  /** `nuc_colors`: the bases a mismatch can be drawn for. */
  const NucColors: map<char, string> := map['A' := "blue", 'C' := "orange", 'G' := "green", 'T' := "black", 'N' := "gray"]

  /** BAM operation codes, section 4.2 of the SAM format specification. */
  const MatchOp: int := 0
  const InsOp: int := 1
  const DelOp: int := 2
  const RefSkipOp: int := 3
  const SoftClipOp: int := 4
  const HardClipOp: int := 5
  const PadOp: int := 6
  const SeqMatchOp: int := 7
  const SeqMismatchOp: int := 8

  /** What the walk sees: the scale's window, the window's reference
      sequence as the scale's `get_seq` yields it (or the error it raises),
      the quick-consensus table if there is one, and the read's bases. */
  datatype Walk = Walk(start: int, end: int, window: Result<string>, counts: Option<QuickConsensus.Tally>, bases: string)

  ghost predicate WalkValid(w: Walk) {
    w.counts.Some? ==> QuickConsensus.Shaped(w.counts.value)
  }

  /** `not self.mismatch_counts or ... self.mismatch_counts.query(...)`. The
      walk only asks about A, C, G, T, DEL and INS, which `query` never
      rejects, so an answer other than true is false. */
  predicate Supported(w: Walk, type_: string, qstart: int, qend: Option<int>)
    requires WalkValid(w)
  {
    w.counts.None? || QuickConsensus.Query(w.counts.value, type_, qstart, qend) == Ok(true)
  }

  /** The reference base at `p`: a one-character slice of the window. */
  function RefAt(window: string, start: int, p: int): string {
    Slice(window, p - start, p + 1 - start)
  }

  /** One aligned base at genome position `p`, query offset `qi`. The base is
      read first (IndexError past the read), then the reference (the window's
      error), then its colour (KeyError outside ACGTN); a base equal to the
      reference draws nothing, N always draws, any other base draws when the
      consensus supports it. */
  function BaseGlyph(w: Walk, p: int, qi: nat): (r: Result<seq<Glyph>>)
    requires WalkValid(w)
    ensures r.Ok? ==> qi < |w.bases| && w.window.Ok? && |r.value| <= 1
    ensures r.Err? <==> (qi >= |w.bases| || w.window.Err?
                         || (RefAt(w.window.value, w.start, p) != [w.bases[qi]] && w.bases[qi] !in NucColors))
    ensures r.Ok? && r.value != [] ==>
      r.value == [Mismatch(p, w.bases[qi])] && RefAt(w.window.value, w.start, p) != [w.bases[qi]]
      && w.bases[qi] in NucColors
    ensures r.Ok? ==> (r.value != [] <==> (RefAt(w.window.value, w.start, p) != [w.bases[qi]]
                                          && (w.bases[qi] == 'N' || Supported(w, [w.bases[qi]], p, None))))
  {
    if qi >= |w.bases| then Err(IndexError)
    else
      var alt := w.bases[qi];
      if w.window.Err? then Err(w.window.error)
      else if RefAt(w.window.value, w.start, p) == [alt] then Ok([])
      else if alt !in NucColors then Err(KeyError)
      else if alt == 'N' || Supported(w, [alt], p, None) then Ok([Mismatch(p, alt)])
      else Ok([])
  }

  /** Glyphs in front of the glyphs still to come, unless those fail. */
  function Then(a: seq<Glyph>, r: Result<seq<Glyph>>): Result<seq<Glyph>> {
    if r.Err? then Err(r.error) else Ok(a + r.value)
  }

  lemma ThenNothing(r: Result<seq<Glyph>>)
    ensures Then([], r) == r
  {
    if r.Ok? {
      assert [] + r.value == r.value;
    }
  }

  lemma ThenThen(a: seq<Glyph>, b: seq<Glyph>, r: Result<seq<Glyph>>)
    ensures Then(a, Then(b, r)) == Then(a + b, r)
  {
    if r.Ok? {
      assert a + (b + r.value) == (a + b) + r.value;
    }
  }

  /** Offsets `i..len` of a match run starting at genome `g`, query `q`:
      offsets left of the window are skipped, the run stops at the window's
      end. */
  function MatchFrom(w: Walk, g: int, q: nat, i: nat, len: nat): (r: Result<seq<Glyph>>)
    requires WalkValid(w)
    ensures r.Ok? ==> r.value == [] || i + |r.value| <= len
    ensures r.Ok? ==> forall k :: 0 <= k < |r.value| ==>
      r.value[k].Mismatch? && g + i <= r.value[k].pos < g + len && w.start <= r.value[k].pos < w.end
    decreases len - i
  {
    if i >= len then Ok([])
    else if g + i < w.start then MatchFrom(w, g, q, i + 1, len)
    else if g + i >= w.end then Ok([])
    else
      match BaseGlyph(w, g + i, q + i)
      case Err(e) => Err(e)
      case Ok(gl) => Then(gl, MatchFrom(w, g, q, i + 1, len))
  }

  /** The glyphs of one operation at cursors `g`, `q`. A deletion asks about
      DEL over `[g, g + len]`, an insertion about INS over `[g - 2, g + 2]`;
      a clip of 5 or more is drawn whatever the consensus; any other code
      draws nothing. */
  function OpGlyphs(w: Walk, g: int, q: nat, op: (int, nat)): (r: Result<seq<Glyph>>)
    requires WalkValid(w)
    ensures r.Err? ==> op.0 == MatchOp
    ensures r.Ok? ==> |r.value| <= if op.0 == MatchOp then op.1 else 1
  {
    var (code, len) := op;
    if code == MatchOp then MatchFrom(w, g, q, 0, len)
    else if code == DelOp then Ok(if Supported(w, "DEL", g, Some(g + len + 1)) then [Deletion(g, g + len + 1)] else [])
    else if code == InsOp then Ok(if Supported(w, "INS", g - 2, Some(g + 2)) then [Insertion(g)] else [])
    else if code == SoftClipOp || code == HardClipOp then Ok(if len >= 5 then [Clip(g)] else [])
    else Ok([])
  }

  /** How one operation moves the genome and query cursors in the source:
      a match moves both, a deletion the genome cursor, an insertion and a
      soft clip the query cursor, anything else neither. */
  function Advance(op: (int, nat), g: int, q: nat): (r: (int, nat))
    ensures g <= r.0 <= g + op.1 && q <= r.1 <= q + op.1
    ensures r.0 != g ==> op.0 == MatchOp || op.0 == DelOp
    ensures r.1 != q ==> op.0 == MatchOp || op.0 == InsOp || op.0 == SoftClipOp
  {
    var (code, len) := op;
    if code == MatchOp then (g + len, q + len)
    else if code == DelOp then (g + len, q)
    else if code == InsOp || code == SoftClipOp then (g, q + len)
    else (g, q)
  }

  /** The walk over the remaining operations. */
  function CigarFrom(w: Walk, ops: seq<(int, nat)>, g: int, q: nat): (r: Result<seq<Glyph>>)
    requires WalkValid(w)
    ensures r.Err? ==> exists k :: 0 <= k < |ops| && ops[k].0 == MatchOp
    decreases |ops|
  {
    if ops == [] then Ok([])
    else
      match OpGlyphs(w, g, q, ops[0])
      case Err(e) => Err(e)
      case Ok(a) =>
        var (g', q') := Advance(ops[0], g, q);
        Then(a, CigarFrom(w, ops[1..], g', q'))
  }

  /** `_draw_cigar`: a secondary read draws nothing; otherwise its row must
      be known (KeyError), and the walk starts at the read's reference start
      and query offset 0. */
  function CigarGlyphs(read: AlignedRead, w: Walk, rowOf: map<string, nat>): (r: Result<seq<Glyph>>)
    requires WalkValid(w)
    ensures read.isSecondary ==> r == Ok([])
    ensures !read.isSecondary && read.name !in rowOf ==> r == Err(KeyError)
    ensures r.Err? ==> read.name !in rowOf || exists k :: 0 <= k < |read.cigar| && read.cigar[k].0 == MatchOp
  {
    if read.isSecondary then Ok([])
    else if read.name !in rowOf then Err(KeyError)
    else CigarFrom(w, read.cigar, read.refStart, 0)
  }

  /** The match run as the loop in `_draw_cigar` walks it. */
  method WalkMatch(w: Walk, g: int, q: nat, len: nat) returns (r: Result<seq<Glyph>>)
    requires WalkValid(w)
    ensures r == MatchFrom(w, g, q, 0, len)
  {
    var acc: seq<Glyph> := [];
    var i: nat := 0;
    ThenNothing(MatchFrom(w, g, q, 0, len));
    while i < len
      invariant i <= len
      invariant MatchFrom(w, g, q, 0, len) == Then(acc, MatchFrom(w, g, q, i, len))
      decreases len - i
    {
      if g + i < w.start {
        i := i + 1;
        continue;
      }
      if g + i >= w.end {
        break;
      }
      var b := BaseGlyph(w, g + i, q + i);
      if b.Err? {
        return Err(b.error);
      }
      ThenThen(acc, b.value, MatchFrom(w, g, q, i + 1, len));
      acc := acc + b.value;
      i := i + 1;
    }
    assert acc + [] == acc;
    r := Ok(acc);
  }

  /** One operation of the loop in `_draw_cigar`: its glyphs and the
      cursors it leaves. */
  method WalkOp(w: Walk, op: (int, nat), g: int, q: nat) returns (r: Result<seq<Glyph>>, g': int, q': nat)
    requires WalkValid(w)
    ensures r == OpGlyphs(w, g, q, op) && (g', q') == Advance(op, g, q)
  {
    var (code, len) := op;
    g', q' := g, q;
    var part: seq<Glyph> := [];
    if code == MatchOp {
      r := WalkMatch(w, g, q, len);
      g', q' := g + len, q + len;
      return;
    } else if code == DelOp {
      if Supported(w, "DEL", g, Some(g + len + 1)) {
        part := [Deletion(g, g + len + 1)];
      }
      g' := g + len;
    } else if code == InsOp {
      if Supported(w, "INS", g - 2, Some(g + 2)) {
        part := [Insertion(g)];
      }
      q' := q + len;
    } else if code == SoftClipOp || code == HardClipOp {
      if len >= 5 {
        part := [Clip(g)];
      }
      if code == SoftClipOp {
        q' := q + len;
      }
    }
    r := Ok(part);
  }

  /** The operation loop of `_draw_cigar`, with its two cursors. */
  method WalkCigar(w: Walk, ops: seq<(int, nat)>, g0: int) returns (r: Result<seq<Glyph>>)
    requires WalkValid(w)
    ensures r == CigarFrom(w, ops, g0, 0)
  {
    var acc: seq<Glyph> := [];
    var g: int, q: nat := g0, 0;
    var k := 0;
    ThenNothing(CigarFrom(w, ops, g0, 0));
    assert ops[0..] == ops;
    while k < |ops|
      invariant 0 <= k <= |ops|
      invariant CigarFrom(w, ops, g0, 0) == Then(acc, CigarFrom(w, ops[k..], g, q))
    {
      assert ops[k..][0] == ops[k] && ops[k..][1..] == ops[k + 1..];
      var part, g', q' := WalkOp(w, ops[k], g, q);
      if part.Err? {
        return Err(part.error);
      }
      ThenThen(acc, part.value, CigarFrom(w, ops[k + 1..], g', q'));
      acc := acc + part.value;
      g, q := g', q';
      k := k + 1;
    }
    assert acc + [] == acc;
    r := Ok(acc);
  }

  /** Every mismatch glyph lies inside the window and names a base that
      differs from the reference there. */
  ghost predicate SoundMismatches(w: Walk, gs: seq<Glyph>) {
    forall k :: 0 <= k < |gs| && gs[k].Mismatch? ==>
      w.start <= gs[k].pos < w.end && w.window.Ok? && RefAt(w.window.value, w.start, gs[k].pos) != [gs[k].base]
  }

  lemma SoundAppend(w: Walk, a: seq<Glyph>, b: seq<Glyph>)
    requires SoundMismatches(w, a) && SoundMismatches(w, b)
    ensures SoundMismatches(w, a + b)
  {
    forall k | 0 <= k < |a + b| && (a + b)[k].Mismatch?
      ensures w.start <= (a + b)[k].pos < w.end
    {
      if k >= |a| {
        assert (a + b)[k] == b[k - |a|];
      }
    }
  }

  lemma {:induction false} MatchFromSound(w: Walk, g: int, q: nat, i: nat, len: nat)
    requires WalkValid(w)
    requires MatchFrom(w, g, q, i, len).Ok?
    ensures SoundMismatches(w, MatchFrom(w, g, q, i, len).value)
    decreases len - i
  {
    if i < len && w.start <= g + i < w.end {
      var gl := BaseGlyph(w, g + i, q + i).value;
      MatchFromSound(w, g, q, i + 1, len);
      SoundAppend(w, gl, MatchFrom(w, g, q, i + 1, len).value);
    } else if i < len && g + i < w.start {
      MatchFromSound(w, g, q, i + 1, len);
    }
  }

  /** The walk only ever draws a mismatch inside the window, where the read
      really differs from the reference. */
  lemma {:induction false} CigarFromSound(w: Walk, ops: seq<(int, nat)>, g: int, q: nat)
    requires WalkValid(w)
    requires CigarFrom(w, ops, g, q).Ok?
    ensures SoundMismatches(w, CigarFrom(w, ops, g, q).value)
    decreases |ops|
  {
    if ops != [] {
      var a := OpGlyphs(w, g, q, ops[0]).value;
      if ops[0].0 == MatchOp {
        MatchFromSound(w, g, q, 0, ops[0].1);
      }
      var (g', q') := Advance(ops[0], g, q);
      CigarFromSound(w, ops[1..], g', q');
      SoundAppend(w, a, CigarFrom(w, ops[1..], g', q').value);
    }
  }

  /** Only clips and N bases are drawn against a table that has seen no
      reads: every other glyph needs consensus support. */
  ghost predicate OnlyUnconditional(gs: seq<Glyph>) {
    forall k :: 0 <= k < |gs| ==> gs[k].Clip? || (gs[k].Mismatch? && gs[k].base == 'N')
  }

  lemma OnlyUnconditionalAppend(a: seq<Glyph>, b: seq<Glyph>)
    requires OnlyUnconditional(a) && OnlyUnconditional(b)
    ensures OnlyUnconditional(a + b)
  {
    forall k | 0 <= k < |a + b|
      ensures (a + b)[k].Clip? || ((a + b)[k].Mismatch? && (a + b)[k].base == 'N')
    {
      if k >= |a| {
        assert (a + b)[k] == b[k - |a|];
      }
    }
  }

  /** Against an empty table a base draws only when it is an N. */
  lemma BaseGlyphEmptyTable(w: Walk, p: int, qi: nat)
    requires w.start <= p < w.end && w.counts == Some(QuickConsensus.EmptyTally(w.start, w.end))
    requires BaseGlyph(w, p, qi).Ok?
    ensures OnlyUnconditional(BaseGlyph(w, p, qi).value)
  {
    var gl := BaseGlyph(w, p, qi).value;
    if gl != [] && w.bases[qi] != 'N' {
      QuickConsensus.EmptyTallySupportsNothing(w.start, w.end, [w.bases[qi]], p, None);
    }
  }

  lemma {:induction false} MatchFromEmptyTable(w: Walk, g: int, q: nat, i: nat, len: nat)
    requires w.start <= w.end && w.counts == Some(QuickConsensus.EmptyTally(w.start, w.end))
    requires MatchFrom(w, g, q, i, len).Ok?
    ensures OnlyUnconditional(MatchFrom(w, g, q, i, len).value)
    decreases len - i
  {
    if i < len && w.start <= g + i < w.end {
      BaseGlyphEmptyTable(w, g + i, q + i);
      MatchFromEmptyTable(w, g, q, i + 1, len);
      OnlyUnconditionalAppend(BaseGlyph(w, g + i, q + i).value, MatchFrom(w, g, q, i + 1, len).value);
    } else if i < len && g + i < w.start {
      MatchFromEmptyTable(w, g, q, i + 1, len);
    }
  }

  /** With a freshly built table (no reads tallied) the walk draws only the
      long clips and the N bases. */
  lemma {:induction false} CigarFromEmptyTable(w: Walk, ops: seq<(int, nat)>, g: int, q: nat)
    requires w.start <= w.end && w.counts == Some(QuickConsensus.EmptyTally(w.start, w.end))
    requires CigarFrom(w, ops, g, q).Ok?
    ensures OnlyUnconditional(CigarFrom(w, ops, g, q).value)
    decreases |ops|
  {
    if ops != [] {
      var (code, len) := ops[0];
      var a := OpGlyphs(w, g, q, ops[0]).value;
      if code == MatchOp {
        MatchFromEmptyTable(w, g, q, 0, len);
        assert OnlyUnconditional(a);
      } else if code == DelOp {
        QuickConsensus.EmptyTallySupportsNothing(w.start, w.end, "DEL", g, Some(g + len + 1));
        assert a == [];
      } else if code == InsOp {
        QuickConsensus.EmptyTallySupportsNothing(w.start, w.end, "INS", g - 2, Some(g + 2));
        assert a == [];
      } else {
        assert OnlyUnconditional(a);
      }
      var (g', q') := Advance(ops[0], g, q);
      var rest := CigarFrom(w, ops[1..], g', q');
      assert CigarFrom(w, ops, g, q) == Then(a, rest) && rest.Ok?;
      CigarFromEmptyTable(w, ops[1..], g', q');
      OnlyUnconditionalAppend(a, rest.value);
    }
  }

  // Cursor accounting against the SAM specification (section 1.4): which
  // operations consume the reference and which consume the query.

  predicate ConsumesReference(code: int) {
    code in {MatchOp, DelOp, RefSkipOp, SeqMatchOp, SeqMismatchOp}
  }

  predicate ConsumesQuery(code: int) {
    code in {MatchOp, InsOp, SoftClipOp, SeqMatchOp, SeqMismatchOp}
  }

  /** Where the cursors end after the operations. */
  function Cursors(ops: seq<(int, nat)>, g: int, q: nat): (int, nat)
    decreases |ops|
  {
    if ops == [] then (g, q) else var (g', q') := Advance(ops[0], g, q); Cursors(ops[1..], g', q')
  }

  function ReferenceLength(ops: seq<(int, nat)>): nat {
    if ops == [] then 0 else (if ConsumesReference(ops[0].0) then ops[0].1 else 0) + ReferenceLength(ops[1..])
  }

  function QueryLength(ops: seq<(int, nat)>): nat {
    if ops == [] then 0 else (if ConsumesQuery(ops[0].0) then ops[0].1 else 0) + QueryLength(ops[1..])
  }

  /** For the operations M, I, D, S, H and P the cursors move exactly as the
      SAM specification says: the genome cursor by the reference length, the
      query cursor by the query length. */
  lemma {:induction false} CursorsFollowSam(ops: seq<(int, nat)>, g: int, q: nat)
    requires forall k :: 0 <= k < |ops| ==> ops[k].0 in {MatchOp, InsOp, DelOp, SoftClipOp, HardClipOp, PadOp}
    ensures Cursors(ops, g, q) == (g + ReferenceLength(ops), q + QueryLength(ops))
    decreases |ops|
  {
    if ops != [] {
      assert ops[0].0 in {MatchOp, InsOp, DelOp, SoftClipOp, HardClipOp, PadOp};
      var (g', q') := Advance(ops[0], g, q);
      CursorsFollowSam(ops[1..], g', q');
    }
  }

  /** The codes N (3), = (7) and X (8) move neither cursor in the source,
      although all three consume the reference: what follows them is
      compared at a shifted position. */
  lemma SkippedReferenceNotAdvanced(code: int, len: nat, g: int, q: nat)
    requires code in {RefSkipOp, SeqMatchOp, SeqMismatchOp} && len > 0
    ensures Cursors([(code, len)], g, q) == (g, q)
    ensures ReferenceLength([(code, len)]) == len
  {
    assert [(code, len)][1..] == [];
  }

  // ---------------------------------------------------------------------
  // Paired-end layout: reads grouped by name, as coordinate lists

  /** `(reference_start, reference_end, next_reference_start, is_proper_pair)`,
      the boolean as 0 or 1 (Python compares `True` equal to 1). */
  function ReadCoord(r: AlignedRead): (c: seq<int>)
    ensures |c| == 4
  {
    [r.refStart, r.refEnd, r.nextRefStart, if r.isProperPair then 1 else 0]
  }

  /** Python's ordering of tuples of integers: the first difference decides,
      and a proper prefix comes first. */
  predicate Lt(a: seq<int>, b: seq<int>)
    decreases |a|
  {
    if a == [] then b != []
    else if b == [] then false
    else if a[0] != b[0] then a[0] < b[0]
    else Lt(a[1..], b[1..])
  }

  /** Python's ordering of lists of such tuples. */
  predicate ListLt(a: seq<seq<int>>, b: seq<seq<int>>)
    decreases |a|
  {
    if a == [] then b != []
    else if b == [] then false
    else if a[0] != b[0] then Lt(a[0], b[0])
    else ListLt(a[1..], b[1..])
  }

  lemma {:induction false} LtTransitive(a: seq<int>, b: seq<int>, c: seq<int>)
    ensures Lt(a, b) && Lt(b, c) ==> Lt(a, c)
    decreases |a|
  {
    if a != [] && b != [] && c != [] && a[0] == b[0] && b[0] == c[0] {
      LtTransitive(a[1..], b[1..], c[1..]);
    }
  }

  lemma {:induction false} LtAsymmetric(a: seq<int>, b: seq<int>)
    ensures !(Lt(a, b) && Lt(b, a))
    decreases |a|
  {
    if a != [] && b != [] && a[0] == b[0] {
      LtAsymmetric(a[1..], b[1..]);
    }
  }

  lemma {:induction false} ListLtTransitive(a: seq<seq<int>>, b: seq<seq<int>>, c: seq<seq<int>>)
    ensures ListLt(a, b) && ListLt(b, c) ==> ListLt(a, c)
    decreases |a|
  {
    if a != [] && b != [] && c != [] {
      if a[0] == b[0] && b[0] == c[0] {
        ListLtTransitive(a[1..], b[1..], c[1..]);
      } else {
        LtTransitive(a[0], b[0], c[0]);
        LtAsymmetric(b[0], c[0]);
      }
    }
  }

  lemma {:induction false} ListLtAsymmetric(a: seq<seq<int>>, b: seq<seq<int>>)
    ensures !(ListLt(a, b) && ListLt(b, a))
    decreases |a|
  {
    if a != [] && b != [] {
      if a[0] == b[0] {
        ListLtAsymmetric(a[1..], b[1..]);
      } else {
        LtAsymmetric(a[0], b[0]);
      }
    }
  }

  /** The `defaultdict(list)` of coordinate lists, with its keys in
      insertion order. */
  datatype Groups = Groups(names: seq<string>, coords: map<string, seq<seq<int>>>)

  ghost predicate GroupsValid(g: Groups) {
    && (forall i, j :: 0 <= i < j < |g.names| ==> g.names[i] != g.names[j])
    && (forall n :: n in g.coords <==> n in g.names)
    && (forall n :: n in g.coords ==> |g.coords[n]| >= 1)
    && (forall n, k :: n in g.coords && 0 <= k < |g.coords[n]| ==> |g.coords[n][k]| >= 2)
  }

  /** The coordinates of the mapped reads called `n`, in fetch order. */
  function CoordsOf(fetched: seq<AlignedRead>, n: string): (c: seq<seq<int>>)
    ensures forall k :: 0 <= k < |c| ==> |c[k]| == 4
  {
    if fetched == [] then []
    else
      var r := fetched[|fetched| - 1];
      CoordsOf(fetched[..|fetched| - 1], n) + (if !r.isUnmapped && r.name == n then [ReadCoord(r)] else [])
  }

  /** The grouping loop of the paired-end layout, on values. */
  function Group(fetched: seq<AlignedRead>): (g: Groups)
    ensures GroupsValid(g)
    ensures forall n, k :: n in g.coords && 0 <= k < |g.coords[n]| ==> |g.coords[n][k]| == 4
  {
    if fetched == [] then Groups([], map[])
    else
      var g := Group(fetched[..|fetched| - 1]);
      var r := fetched[|fetched| - 1];
      if r.isUnmapped then g
      else if r.name in g.coords then Groups(g.names, g.coords[r.name := g.coords[r.name] + [ReadCoord(r)]])
      else Groups(g.names + [r.name], g.coords[r.name := [ReadCoord(r)]])
  }

  /** A name is grouped exactly when some mapped read carries it, and its
      list holds the coordinates of those reads in fetch order. */
  lemma {:induction false} GroupCollects(fetched: seq<AlignedRead>, n: string)
    ensures n in Group(fetched).coords <==> CoordsOf(fetched, n) != []
    ensures n in Group(fetched).coords ==> Group(fetched).coords[n] == CoordsOf(fetched, n)
  {
    if fetched != [] {
      GroupCollects(fetched[..|fetched| - 1], n);
    }
  }

  /** The mates of a lone read that is flagged as a proper pair are outside
      the window: a point at its mate's start is added and the two sorted. */
  function FixLone(c: seq<seq<int>>): (r: seq<seq<int>>)
    requires |c| >= 1 && forall k :: 0 <= k < |c| ==> |c[k]| == 4
    ensures |r| >= 1 && (|c| != 1 ==> r == c)
    ensures forall k :: 0 <= k < |r| ==> |r[k]| >= 2 && (r[k] in c || r[k] == [c[0][2], c[0][2]])
  {
    if |c| != 1 || c[0][3] == 0 then c
    else
      var mate := [c[0][2], c[0][2]];
      if Lt(mate, c[0]) then [mate, c[0]] else [c[0], mate]
  }

  type Item = (string, seq<seq<int>>)

  ghost predicate ItemsValid(items: seq<Item>) {
    forall k :: 0 <= k < |items| ==> |items[k].1| >= 1 && forall e :: 0 <= e < |items[k].1| ==> |items[k].1[e]| >= 2
  }

  /** The items of the grouping once every lone proper mate is fixed up. */
  function FixedItems(g: Groups): (items: seq<Item>)
    requires GroupsValid(g)
    requires forall n, k :: n in g.coords && 0 <= k < |g.coords[n]| ==> |g.coords[n][k]| == 4
    ensures |items| == |g.names| && ItemsValid(items)
    ensures forall k :: 0 <= k < |items| ==> items[k].0 == g.names[k] && items[k].1 == FixLone(g.coords[g.names[k]])
  {
    seq(|g.names|, k requires 0 <= k < |g.names| => (g.names[k], FixLone(g.coords[g.names[k]])))
  }

  /** Insertion before the first strictly greater key keeps equal keys in
      their original order, as Python's `sorted` does. */
  function InsertItem(s: seq<Item>, x: Item): (r: seq<Item>)
    ensures multiset(r) == multiset(s) + multiset{x}
    decreases |s|
  {
    if s == [] then [x]
    else if ListLt(x.1, s[0].1) then [x] + s
    else
      assert s == [s[0]] + s[1..];
      [s[0]] + InsertItem(s[1..], x)
  }

  /** `sorted(items, key=lambda x: x[1])`. */
  function SortItems(items: seq<Item>): (r: seq<Item>)
    ensures multiset(r) == multiset(items)
  {
    if items == [] then []
    else
      assert items == items[..|items| - 1] + [items[|items| - 1]];
      InsertItem(SortItems(items[..|items| - 1]), items[|items| - 1])
  }

  ghost predicate SortedByCoords(s: seq<Item>) {
    forall i, j :: 0 <= i < j < |s| ==> !ListLt(s[j].1, s[i].1)
  }

  /** An item no later item is less than can go in front of a sorted list. */
  lemma ConsSorted(x: Item, t: seq<Item>)
    requires SortedByCoords(t) && forall j :: 0 <= j < |t| ==> !ListLt(t[j].1, x.1)
    ensures SortedByCoords([x] + t)
  {
    var r := [x] + t;
    forall i, j | 0 <= i < j < |r|
      ensures !ListLt(r[j].1, r[i].1)
    {
      assert r[j] == t[j - 1];
      if i > 0 {
        assert r[i] == t[i - 1];
      }
    }
  }

  lemma {:induction false} InsertItemSorted(s: seq<Item>, x: Item)
    requires SortedByCoords(s)
    ensures SortedByCoords(InsertItem(s, x))
    decreases |s|
  {
    if s != [] {
      if ListLt(x.1, s[0].1) {
        forall j | 0 <= j < |s|
          ensures !ListLt(s[j].1, x.1)
        {
          ListLtTransitive(s[j].1, x.1, s[0].1);
          ListLtAsymmetric(s[0].1, x.1);
        }
        ConsSorted(x, s);
      } else {
        var tail := s[1..];
        assert SortedByCoords(tail) by {
          assert forall k :: 0 <= k < |tail| ==> tail[k] == s[k + 1];
        }
        InsertItemSorted(tail, x);
        var t := InsertItem(tail, x);
        forall j | 0 <= j < |t|
          ensures !ListLt(t[j].1, s[0].1)
        {
          assert t[j] in multiset(t);
          if t[j] != x {
            assert t[j] in multiset(tail);
            var m :| 0 <= m < |tail| && tail[m] == t[j];
            assert s[m + 1] == t[j];
          }
        }
        ConsSorted(s[0], t);
      }
    }
  }

  /** The sort orders the items by their coordinate lists and keeps every
      item, each as often as before. */
  lemma {:induction false} SortItemsSorted(items: seq<Item>)
    ensures SortedByCoords(SortItems(items))
    ensures multiset(SortItems(items)) == multiset(items)
  {
    if items != [] {
      SortItemsSorted(items[..|items| - 1]);
      InsertItemSorted(SortItems(items[..|items| - 1]), items[|items| - 1]);
    }
  }

  lemma ItemsValidPermuted(items: seq<Item>, r: seq<Item>)
    requires ItemsValid(items) && multiset(r) == multiset(items)
    ensures ItemsValid(r)
  {
    forall k | 0 <= k < |r|
      ensures |r[k].1| >= 1 && forall e :: 0 <= e < |r[k].1| ==> |r[k].1[e]| >= 2
    {
      assert r[k] in multiset(items);
      var m :| 0 <= m < |items| && items[m] == r[k];
    }
  }

  function NameSet(s: seq<Item>): set<string> {
    set k | 0 <= k < |s| :: s[k].0
  }

  ghost predicate DistinctNames(s: seq<Item>) {
    forall i, j :: 0 <= i < j < |s| ==> s[i].0 != s[j].0
  }

  lemma NameSetCons(x: Item, t: seq<Item>)
    ensures NameSet([x] + t) == {x.0} + NameSet(t)
  {
    var r := [x] + t;
    forall nm | nm in NameSet(r)
      ensures nm in {x.0} + NameSet(t)
    {
      var k :| 0 <= k < |r| && r[k].0 == nm;
      if k > 0 {
        assert t[k - 1] == r[k];
      }
    }
    forall nm | nm in NameSet(t)
      ensures nm in NameSet(r)
    {
      var k :| 0 <= k < |t| && t[k].0 == nm;
      assert r[k + 1] == t[k];
    }
    assert r[0] == x;
  }

  lemma NameSetSnoc(t: seq<Item>, x: Item)
    ensures NameSet(t + [x]) == NameSet(t) + {x.0}
  {
    var r := t + [x];
    forall nm | nm in NameSet(r)
      ensures nm in NameSet(t) + {x.0}
    {
      var k :| 0 <= k < |r| && r[k].0 == nm;
      if k < |t| {
        assert t[k] == r[k];
      }
    }
    forall nm | nm in NameSet(t)
      ensures nm in NameSet(r)
    {
      var k :| 0 <= k < |t| && t[k].0 == nm;
      assert r[k] == t[k];
    }
    assert r[|t|] == x;
  }

  /** Putting a new name in front keeps the names distinct. */
  lemma ConsDistinct(x: Item, t: seq<Item>)
    requires DistinctNames(t) && x.0 !in NameSet(t)
    ensures DistinctNames([x] + t) && NameSet([x] + t) == {x.0} + NameSet(t)
  {
    var r := [x] + t;
    NameSetCons(x, t);
    forall i, j | 0 <= i < j < |r|
      ensures r[i].0 != r[j].0
    {
      assert r[j] == t[j - 1];
      if i > 0 {
        assert r[i] == t[i - 1];
      } else {
        assert t[j - 1].0 in NameSet(t);
      }
    }
  }

  /** The head's name is not among the tail's, and the tail is distinct. */
  lemma UnconsDistinct(s: seq<Item>)
    requires s != [] && DistinctNames(s)
    ensures DistinctNames(s[1..]) && s[0].0 !in NameSet(s[1..]) && NameSet(s) == {s[0].0} + NameSet(s[1..])
  {
    var tail := s[1..];
    assert s == [s[0]] + tail;
    NameSetCons(s[0], tail);
    forall i, j | 0 <= i < j < |tail|
      ensures tail[i].0 != tail[j].0
    {
      assert tail[i] == s[i + 1] && tail[j] == s[j + 1];
    }
    forall k | 0 <= k < |tail|
      ensures tail[k].0 != s[0].0
    {
      assert tail[k] == s[k + 1];
    }
  }

  lemma {:induction false} InsertItemNames(s: seq<Item>, x: Item)
    requires DistinctNames(s) && x.0 !in NameSet(s)
    ensures DistinctNames(InsertItem(s, x)) && NameSet(InsertItem(s, x)) == NameSet(s) + {x.0}
    decreases |s|
  {
    if s == [] {
      assert InsertItem(s, x) == [x];
      NameSetCons(x, []);
    } else if ListLt(x.1, s[0].1) {
      ConsDistinct(x, s);
    } else {
      UnconsDistinct(s);
      InsertItemNames(s[1..], x);
      ConsDistinct(s[0], InsertItem(s[1..], x));
    }
  }

  /** Sorting keeps the names distinct and keeps the same names. */
  lemma {:induction false} SortItemsNames(items: seq<Item>)
    requires DistinctNames(items)
    ensures DistinctNames(SortItems(items)) && NameSet(SortItems(items)) == NameSet(items)
  {
    if items != [] {
      var n := |items|;
      var init := items[..n - 1];
      var x := items[n - 1];
      assert items == init + [x];
      NameSetSnoc(init, x);
      assert DistinctNames(init) by {
        forall i, j | 0 <= i < j < |init|
          ensures init[i].0 != init[j].0
        {
          assert init[i] == items[i] && init[j] == items[j];
        }
      }
      assert x.0 !in NameSet(init) by {
        forall k | 0 <= k < |init|
          ensures init[k].0 != x.0
        {
          assert init[k] == items[k];
        }
      }
      SortItemsNames(init);
      InsertItemNames(SortItems(init), x);
    }
  }

  /** The span of a coordinate list: the first start to the last entry's
      second field (an end, or the mate point). */
  function PairSpan(c: seq<seq<int>>): (int, int)
    requires |c| >= 1 && |c[0]| >= 1 && |c[|c| - 1]| >= 2
  {
    (c[0][0], c[|c| - 1][1])
  }

  /** One interval per sorted item, named after the read, on the plus
      strand, labelled with the name when read labels are drawn. */
  function PairIntervalsOf(items: seq<Item>, chrom: string, drawReadLabels: bool): (ivs: seq<IntervalTracks.Interval>)
    requires ItemsValid(items)
    ensures |ivs| == |items|
    ensures forall k :: 0 <= k < |items| ==>
      && ivs[k].id == items[k].0 && ivs[k].chrom == chrom && ivs[k].strand == "+"
      && (ivs[k].start, ivs[k].end) == PairSpan(items[k].1)
      && ivs[k].caption == (if drawReadLabels then Some(items[k].0) else None)
  {
    seq(|items|, k requires 0 <= k < |items| =>
      IntervalTracks.Interval(items[k].0, chrom, PairSpan(items[k].1).0, PairSpan(items[k].1).1, "+",
                              if drawReadLabels then Some(items[k].0) else None))
  }

  /** The intervals the paired-end layout places, in order. */
  function PairIntervals(fetched: seq<AlignedRead>, chrom: string, drawReadLabels: bool): seq<IntervalTracks.Interval> {
    var items := FixedItems(Group(fetched));
    var sorted := SortItems(items);
    ItemsValidPermuted(items, sorted);
    PairIntervalsOf(sorted, chrom, drawReadLabels)
  }

  /** One interval per read name, on the view's chromosome and the forward
      strand, captioned with its name when labels are drawn. */
  lemma PairIntervalsShape(fetched: seq<AlignedRead>, chrom: string, drawReadLabels: bool)
    ensures var ivs := PairIntervals(fetched, chrom, drawReadLabels);
      && |ivs| == |Group(fetched).names|
      && forall k :: 0 <= k < |ivs| ==>
           && ivs[k].chrom == chrom && ivs[k].strand == "+"
           && ivs[k].caption == (if drawReadLabels then Some(ivs[k].id) else None)
  {
    var items := FixedItems(Group(fetched));
    var sorted := SortItems(items);
    assert |sorted| == |multiset(sorted)| == |multiset(items)| == |items|;
  }

  /** Each read name gets one interval, so placing them from an empty map
      never trips the duplicate-id assertion. */
  lemma PairIntervalsFresh(fetched: seq<AlignedRead>, chrom: string, drawReadLabels: bool)
    ensures IntervalTracks.Fresh({}, PairIntervals(fetched, chrom, drawReadLabels))
  {
    var g := Group(fetched);
    var items := FixedItems(g);
    SortItemsNames(items);
    SortItemsSorted(items);
    ItemsValidPermuted(items, SortItems(items));
  }

  /** An item of the list is still there, at some index, once sorted. */
  lemma SortedHas(items: seq<Item>, m: nat)
    requires m < |items|
    ensures exists k :: 0 <= k < |SortItems(items)| && SortItems(items)[k] == items[m]
  {
    assert items[m] in multiset(SortItems(items));
  }

  /** Every mapped read name is placed, and the interval of a name spans
      its fixed-up coordinate list. */
  lemma PairIntervalsSpan(fetched: seq<AlignedRead>, chrom: string, drawReadLabels: bool, n: string)
    requires CoordsOf(fetched, n) != []
    ensures var ivs := PairIntervals(fetched, chrom, drawReadLabels);
      exists k :: 0 <= k < |ivs| && ivs[k].id == n && (ivs[k].start, ivs[k].end) == PairSpan(FixLone(CoordsOf(fetched, n)))
  {
    var g := Group(fetched);
    GroupCollects(fetched, n);
    var items := FixedItems(g);
    var sorted := SortItems(items);
    SortItemsSorted(items);
    ItemsValidPermuted(items, sorted);
    var ivs := PairIntervalsOf(sorted, chrom, drawReadLabels);
    assert ivs == PairIntervals(fetched, chrom, drawReadLabels);
    var m :| 0 <= m < |g.names| && g.names[m] == n;
    assert items[m] == (n, FixLone(CoordsOf(fetched, n)));
    SortedHas(items, m);
    var k :| 0 <= k < |sorted| && sorted[k] == items[m];
    assert ivs[k].id == n && (ivs[k].start, ivs[k].end) == PairSpan(sorted[k].1);
  }

  // ---------------------------------------------------------------------
  // Render: mates paired through a buffer

  /** The index of the buffered read called `n`, or the buffer's length. */
  function IndexOfName(buffer: seq<AlignedRead>, n: string): (k: nat)
    ensures k <= |buffer| && (k < |buffer| ==> buffer[k].name == n)
    ensures forall j :: 0 <= j < k ==> buffer[j].name != n
  {
    if buffer == [] then 0 else if buffer[0].name == n then 0 else 1 + IndexOfName(buffer[1..], n)
  }

  /** The pairs drawn so far and what is left in `read_buffer`, in its
      insertion order. */
  datatype Pairing = Pairing(pairs: seq<seq<AlignedRead>>, buffer: seq<AlignedRead>)

  /** The buffering loop of `render` on values: a read whose name is
      buffered pops it and is drawn with it; any other mapped read is
      buffered. */
  function PairUp(fetched: seq<AlignedRead>): Pairing {
    if fetched == [] then Pairing([], [])
    else
      var p := PairUp(fetched[..|fetched| - 1]);
      var r := fetched[|fetched| - 1];
      if r.isUnmapped then p
      else
        var k := IndexOfName(p.buffer, r.name);
        if k < |p.buffer| then Pairing(p.pairs + [[p.buffer[k], r]], p.buffer[..k] + p.buffer[k + 1..])
        else Pairing(p.pairs, p.buffer + [r])
  }

  /** The read lists handed to `draw_read_pair`: each pair twice, since
      `render` draws the pair once for each of its two reads, then each read
      left in the buffer on its own. */
  function DrawnGroups(fetched: seq<AlignedRead>): seq<seq<AlignedRead>> {
    GroupsOf(PairUp(fetched))
  }

  function GroupsOf(p: Pairing): seq<seq<AlignedRead>> {
    seq(2 * |p.pairs|, j requires 0 <= j < 2 * |p.pairs| => p.pairs[j / 2])
      + seq(|p.buffer|, k requires 0 <= k < |p.buffer| => [p.buffer[k]])
  }

  /** Where each pair and each lone read sits in `GroupsOf`. */
  lemma GroupsOfLayout(p: Pairing)
    ensures var d := GroupsOf(p);
      && |d| == 2 * |p.pairs| + |p.buffer|
      && (forall i :: 0 <= i < |p.pairs| ==> d[2 * i] == p.pairs[i] && d[2 * i + 1] == p.pairs[i])
      && (forall k :: 0 <= k < |p.buffer| ==> d[2 * |p.pairs| + k] == [p.buffer[k]])
  {
    var d := GroupsOf(p);
    var twice := seq(2 * |p.pairs|, j requires 0 <= j < 2 * |p.pairs| => p.pairs[j / 2]);
    var lone := seq(|p.buffer|, k requires 0 <= k < |p.buffer| => [p.buffer[k]]);
    assert d == twice + lone;
    forall i | 0 <= i < |p.pairs|
      ensures d[2 * i] == p.pairs[i] && d[2 * i + 1] == p.pairs[i]
    {
      assert (2 * i) / 2 == i && (2 * i + 1) / 2 == i;
      assert d[2 * i] == twice[2 * i] && d[2 * i + 1] == twice[2 * i + 1];
    }
    forall k | 0 <= k < |p.buffer|
      ensures d[2 * |p.pairs| + k] == [p.buffer[k]]
    {
      assert d[2 * |p.pairs| + k] == lone[k];
    }
  }

  /** How many mapped reads are called `n`. */
  function MappedCount(fetched: seq<AlignedRead>, n: string): nat {
    if fetched == [] then 0
    else
      var r := fetched[|fetched| - 1];
      MappedCount(fetched[..|fetched| - 1], n) + (if !r.isUnmapped && r.name == n then 1 else 0)
  }

  function BufferNames(buffer: seq<AlignedRead>): set<string> {
    set k | 0 <= k < |buffer| :: buffer[k].name
  }

  /** Each name at most once, and only mapped reads. */
  ghost predicate BufferOk(buffer: seq<AlignedRead>) {
    && (forall i, j :: 0 <= i < j < |buffer| ==> buffer[i].name != buffer[j].name)
    && (forall k :: 0 <= k < |buffer| ==> !buffer[k].isUnmapped)
  }

  /** Two mapped reads of one name. */
  ghost predicate PairsOk(pairs: seq<seq<AlignedRead>>) {
    forall k :: 0 <= k < |pairs| ==>
      (|pairs[k]| == 2 && pairs[k][0].name == pairs[k][1].name && !pairs[k][0].isUnmapped && !pairs[k][1].isUnmapped)
  }

  /** Popping the entry at `k` keeps the buffer sound and forgets its name. */
  lemma PopEntry(buffer: seq<AlignedRead>, k: nat)
    requires BufferOk(buffer) && k < |buffer|
    ensures var b := buffer[..k] + buffer[k + 1..];
      BufferOk(b) && BufferNames(b) == BufferNames(buffer) - {buffer[k].name}
  {
    var b := buffer[..k] + buffer[k + 1..];
    assert forall j :: 0 <= j < |b| ==> b[j] == buffer[if j < k then j else j + 1];
    forall nm | nm in BufferNames(buffer) - {buffer[k].name}
      ensures nm in BufferNames(b)
    {
      var j :| 0 <= j < |buffer| && buffer[j].name == nm;
      assert b[if j < k then j else j - 1] == buffer[j];
    }
    forall nm | nm in BufferNames(b)
      ensures nm in BufferNames(buffer) - {buffer[k].name}
    {
      var j :| 0 <= j < |b| && b[j].name == nm;
      assert b[j] == buffer[if j < k then j else j + 1];
    }
  }

  /** Pushing a mapped read with a new name keeps the buffer sound. */
  lemma PushEntry(buffer: seq<AlignedRead>, r: AlignedRead)
    requires BufferOk(buffer) && !r.isUnmapped && r.name !in BufferNames(buffer)
    ensures BufferOk(buffer + [r]) && BufferNames(buffer + [r]) == BufferNames(buffer) + {r.name}
  {
    var b := buffer + [r];
    assert forall j :: 0 <= j < |buffer| ==> b[j] == buffer[j];
    assert b[|buffer|] == r;
    forall nm | nm in BufferNames(b)
      ensures nm in BufferNames(buffer) + {r.name}
    {
      var j :| 0 <= j < |b| && b[j].name == nm;
    }
  }

  /** What `PairUpInvariant` states about the pairing of `fetched`. */
  ghost predicate PairingOk(fetched: seq<AlignedRead>) {
    && BufferOk(PairUp(fetched).buffer) && PairsOk(PairUp(fetched).pairs)
    && forall n :: n in BufferNames(PairUp(fetched).buffer) <==> MappedCount(fetched, n) % 2 == 1
  }

  /** The buffer holds each name at most once, exactly the names seen an
      odd number of times; every pair is two mapped reads of one name, the
      earlier one first. */
  lemma {:induction false} PairUpInvariant(fetched: seq<AlignedRead>)
    ensures BufferOk(PairUp(fetched).buffer) && PairsOk(PairUp(fetched).pairs)
    ensures forall n :: n in BufferNames(PairUp(fetched).buffer) <==> MappedCount(fetched, n) % 2 == 1
  {
    if fetched != [] {
      var init := fetched[..|fetched| - 1];
      PairUpInvariant(init);
      var q := PairUp(init);
      var r := fetched[|fetched| - 1];
      if r.isUnmapped {
        PairUpSkip(fetched);
      } else if IndexOfName(q.buffer, r.name) < |q.buffer| {
        PairUpMatch(fetched);
      } else {
        PairUpPush(fetched);
      }
    }
  }

  /** An unmapped read changes nothing. */
  lemma PairUpSkip(fetched: seq<AlignedRead>)
    requires fetched != [] && fetched[|fetched| - 1].isUnmapped
    requires PairingOk(fetched[..|fetched| - 1])
    ensures PairingOk(fetched)
  {
    var init := fetched[..|fetched| - 1];
    assert PairUp(fetched) == PairUp(init);
    forall n
      ensures MappedCount(fetched, n) == MappedCount(init, n)
    {
    }
  }

  /** One more read of a name flips whether it has been seen an odd number
      of times. */
  lemma FlipParity(c: nat)
    ensures (c + 1) % 2 == 1 <==> c % 2 != 1
  {
  }

  /** The last read of `fetched`, mapped, toggles its name in the set of
      names seen an odd number of times. */
  lemma ParityStep(fetched: seq<AlignedRead>, before: set<string>, after: set<string>)
    requires fetched != [] && !fetched[|fetched| - 1].isUnmapped
    requires forall n :: n in before <==> MappedCount(fetched[..|fetched| - 1], n) % 2 == 1
    requires var x := fetched[|fetched| - 1].name;
      after == if x in before then before - {x} else before + {x}
    ensures forall n :: n in after <==> MappedCount(fetched, n) % 2 == 1
  {
    var init := fetched[..|fetched| - 1];
    var x := fetched[|fetched| - 1].name;
    forall n
      ensures n in after <==> MappedCount(fetched, n) % 2 == 1
    {
      var c := MappedCount(init, n);
      if n == x {
        assert MappedCount(fetched, n) == c + 1;
        FlipParity(c);
      } else {
        assert MappedCount(fetched, n) == c;
      }
    }
  }

  /** A read whose mate is buffered completes a pair. */
  lemma PairUpMatch(fetched: seq<AlignedRead>)
    requires fetched != [] && !fetched[|fetched| - 1].isUnmapped
    requires PairingOk(fetched[..|fetched| - 1])
    requires var q := PairUp(fetched[..|fetched| - 1]);
      IndexOfName(q.buffer, fetched[|fetched| - 1].name) < |q.buffer|
    ensures PairingOk(fetched)
  {
    var init := fetched[..|fetched| - 1];
    var q := PairUp(init);
    var r := fetched[|fetched| - 1];
    var k := IndexOfName(q.buffer, r.name);
    PopEntry(q.buffer, k);
    var p := PairUp(fetched);
    assert p == Pairing(q.pairs + [[q.buffer[k], r]], q.buffer[..k] + q.buffer[k + 1..]);
    assert forall j :: 0 <= j < |q.pairs| ==> p.pairs[j] == q.pairs[j];
    assert p.pairs[|q.pairs|] == [q.buffer[k], r];
    assert r.name in BufferNames(q.buffer) by { assert q.buffer[k].name == r.name; }
    ParityStep(fetched, BufferNames(q.buffer), BufferNames(p.buffer));
  }

  /** A read whose mate is not buffered waits at the end of the buffer. */
  lemma PairUpPush(fetched: seq<AlignedRead>)
    requires fetched != [] && !fetched[|fetched| - 1].isUnmapped
    requires PairingOk(fetched[..|fetched| - 1])
    requires var q := PairUp(fetched[..|fetched| - 1]);
      IndexOfName(q.buffer, fetched[|fetched| - 1].name) == |q.buffer|
    ensures PairingOk(fetched)
  {
    var init := fetched[..|fetched| - 1];
    var q := PairUp(init);
    var r := fetched[|fetched| - 1];
    assert r.name !in BufferNames(q.buffer);
    PushEntry(q.buffer, r);
    var p := PairUp(fetched);
    assert p == Pairing(q.pairs, q.buffer + [r]);
    ParityStep(fetched, BufferNames(q.buffer), BufferNames(p.buffer));
  }

  /** Every mapped read ends up either in a pair or in the buffer, and in
      only one of them. */
  lemma {:induction false} PairUpCount(fetched: seq<AlignedRead>)
    ensures 2 * |PairUp(fetched).pairs| + |PairUp(fetched).buffer| == |Mapped(fetched)|
  {
    if fetched != [] {
      var init := fetched[..|fetched| - 1];
      PairUpCount(init);
      var q := PairUp(init);
      var r := fetched[|fetched| - 1];
      if !r.isUnmapped {
        var k := IndexOfName(q.buffer, r.name);
        if k < |q.buffer| {
          assert |q.buffer[..k] + q.buffer[k + 1..]| == |q.buffer| - 1;
        }
      }
    }
  }

  /** What `render` hands to `draw_read_pair`: each pair of mates twice in a
      row, then each lone mapped read once; every mapped read is in exactly
      one of the two parts. */
  lemma DrawnGroupsShape(fetched: seq<AlignedRead>)
    ensures var p, d := PairUp(fetched), DrawnGroups(fetched);
      && |d| == 2 * |p.pairs| + |p.buffer| == |Mapped(fetched)|
      && (forall i :: 0 <= i < |p.pairs| ==>
            && d[2 * i] == p.pairs[i] && d[2 * i + 1] == p.pairs[i]
            && |p.pairs[i]| == 2 && p.pairs[i][0].name == p.pairs[i][1].name
            && !p.pairs[i][0].isUnmapped && !p.pairs[i][1].isUnmapped)
      && (forall k :: 0 <= k < |p.buffer| ==> d[2 * |p.pairs| + k] == [p.buffer[k]] && !p.buffer[k].isUnmapped)
  {
    PairUpInvariant(fetched);
    PairUpCount(fetched);
    GroupsOfLayout(PairUp(fetched));
  }

  /** The search of `read_buffer` for a read's mate. */
  method FindMate(buffer: seq<AlignedRead>, name: string) returns (k: nat)
    ensures k == IndexOfName(buffer, name)
  {
    k := 0;
    while k < |buffer| && buffer[k].name != name
      invariant 0 <= k <= |buffer|
      invariant forall j :: 0 <= j < k ==> buffer[j].name != name
      decreases |buffer| - k
    {
      k := k + 1;
    }
  }

  /** The first buffering loop of `render`: a pair is drawn as its second
      mate arrives, and a read whose mate has not come yet waits. */
  method PairReads(fetched: seq<AlignedRead>) returns (pairs: seq<seq<AlignedRead>>, buffer: seq<AlignedRead>)
    ensures PairUp(fetched) == Pairing(pairs, buffer)
  {
    pairs, buffer := [], [];
    var i := 0;
    while i < |fetched|
      invariant 0 <= i <= |fetched|
      invariant PairUp(fetched[..i]) == Pairing(pairs, buffer)
    {
      var prefix := fetched[..i + 1];
      var read := fetched[i];
      assert prefix[..|prefix| - 1] == fetched[..i] && prefix[|prefix| - 1] == read;
      if !read.isUnmapped {
        var k := FindMate(buffer, read.name);
        if k < |buffer| {
          pairs := pairs + [[buffer[k], read]];
          buffer := buffer[..k] + buffer[k + 1..];
        } else {
          buffer := buffer + [read];
        }
      }
      assert PairUp(prefix) == Pairing(pairs, buffer);
      i := i + 1;
    }
    assert fetched[..i] == fetched;
  }

  /** The buffering loops of `render`: the pairs as their second mate
      arrives, then the reads still buffered. */
  method BufferReads(fetched: seq<AlignedRead>) returns (groups: seq<seq<AlignedRead>>)
    ensures groups == DrawnGroups(fetched)
  {
    var pairs, buffer := PairReads(fetched);
    groups := [];
    var i := 0;
    while i < |pairs|
      invariant 0 <= i <= |pairs|
      invariant groups == seq(2 * i, j requires 0 <= j < 2 * i => pairs[j / 2])
    {
      groups := groups + [pairs[i], pairs[i]];
      i := i + 1;
    }
    ghost var drawn := groups;
    var k := 0;
    while k < |buffer|
      invariant 0 <= k <= |buffer|
      invariant groups == drawn + seq(k, j requires 0 <= j < k => [buffer[j]])
    {
      groups := groups + [[buffer[k]]];
      k := k + 1;
    }
  }

  /** The connector line of `draw_read_pair`, from the first read's end to
      the last read's start; a lone proper-pair read is joined to its mate's
      start, whichever side that lies on. */
  function ConnectorSpan(mapped: seq<AlignedRead>): (s: Option<(int, int)>)
    requires mapped != []
    ensures |mapped| > 1 ==> s == Some((mapped[0].refEnd, mapped[|mapped| - 1].refStart))
    ensures |mapped| == 1 && s.Some? ==>
      && s.value.0 <= s.value.1
      && {s.value.0, s.value.1} == {mapped[0].refStart, mapped[0].nextRefStart}
    ensures |mapped| == 1 ==> (s.Some? <==> mapped[0].isProperPair)
  {
    var r := mapped[0];
    if |mapped| > 1 then Some((r.refEnd, mapped[|mapped| - 1].refStart))
    else if r.isProperPair then
      if r.nextRefStart < r.refStart then Some((r.nextRefStart, r.refStart)) else Some((r.refStart, r.nextRefStart))
    else None
  }

  function Mapped(fetched: seq<AlignedRead>): (m: seq<AlignedRead>)
    ensures |m| <= |fetched| && forall k :: 0 <= k < |m| ==> !m[k].isUnmapped && m[k] in fetched
  {
    if fetched == [] then []
    else Mapped(fetched[..|fetched| - 1]) + (if fetched[|fetched| - 1].isUnmapped then [] else [fetched[|fetched| - 1]])
  }

  /** The row a pair is drawn in and its connector, if any. */
  datatype PairDrawing = PairDrawing(row: nat, connector: Option<(int, int)>)

  /** `draw_read_pair` up to the per-read drawing: unmapped reads are
      dropped, nothing is drawn for none, and the first read's row must be
      known (KeyError). */
  function DrawReadPair(fetched: seq<AlignedRead>, rowOf: map<string, nat>): (r: Result<Option<PairDrawing>>)
    ensures Mapped(fetched) == [] <==> r == Ok(None)
    ensures r.Err? <==> Mapped(fetched) != [] && Mapped(fetched)[0].name !in rowOf
    ensures r.Ok? && r.value.Some? ==> r.value.value.row == rowOf[Mapped(fetched)[0].name]
  {
    var m := Mapped(fetched);
    if m == [] then Ok(None)
    else if m[0].name !in rowOf then Err(KeyError)
    else Ok(Some(PairDrawing(rowOf[m[0].name], ConnectorSpan(m))))
  }

  /** The connector of two mates starts no earlier, and ends no later, than
      the interval the layout gave the pair. */
  lemma MatesConnectorWithinSpan(r0: AlignedRead, r1: AlignedRead)
    requires r0.refStart <= r0.refEnd && r1.refStart <= r1.refEnd
    ensures var s := PairSpan(FixLone([ReadCoord(r0), ReadCoord(r1)]));
      var c := ConnectorSpan([r0, r1]).value;
      s.0 <= c.0 && c.1 <= s.1
  {
  }

  /** For a lone proper-pair read the connector starts where the layout's
      interval starts and ends inside it. */
  lemma LoneMateConnectorWithinSpan(r: AlignedRead)
    requires r.isProperPair && r.refStart <= r.refEnd
    ensures var s := PairSpan(FixLone([ReadCoord(r)]));
      var c := ConnectorSpan([r]).value;
      s.0 == c.0 && c.1 <= s.1
  {
    var c := ReadCoord(r);
    var mate := [r.nextRefStart, r.nextRefStart];
    if r.nextRefStart == r.refStart && r.refEnd == r.refStart {
      assert Lt(mate[1..], c[1..]) by {
        assert mate[1..][1..] == [] && c[1..][1..] != [];
      }
    }
  }

  // ---------------------------------------------------------------------
  // The track

  /** `SingleEndBAMTrack` and `PairedEndBAMTrack`: the interval-track state
      they extend, the quick-consensus table, and the drawing switches. */
  class BamTrack {
    const track: IntervalTracks.IntervalTrack
    var mismatchCounts: QuickConsensus.MismatchCounts?
    const quickConsensus: bool
    const drawMismatches: bool
    const includeSecondary: bool
    const drawReadLabels: bool

    ghost predicate Valid()
      reads this, track, mismatchCounts
    {
      track.Valid() && (mismatchCounts != null ==> mismatchCounts.Valid())
    }

    constructor (name: Option<string>, quickConsensus: bool, drawMismatches: bool, includeSecondary: bool, drawReadLabels: bool)
      ensures Valid() && fresh(track)
      ensures track.rows == [] && track.intervalsToRows == map[] && track.scale == null
      ensures track.rowHeight == IntervalTracks.DefaultRowHeight
      ensures mismatchCounts == null
      ensures this.quickConsensus == quickConsensus && this.drawMismatches == drawMismatches
      ensures this.includeSecondary == includeSecondary && this.drawReadLabels == drawReadLabels
    {
      track := new IntervalTracks.IntervalTrack([], name, IntervalTracks.DefaultRowHeight);
      mismatchCounts := null;
      this.quickConsensus, this.drawMismatches := quickConsensus, drawMismatches;
      this.includeSecondary, this.drawReadLabels := includeSecondary, drawReadLabels;
    }

    /** The table as a value, if there is one. */
    function Counts(): (t: Option<QuickConsensus.Tally>)
      reads this, mismatchCounts
      reads if mismatchCounts == null then {} else {mismatchCounts.counts, mismatchCounts.insertions}
      requires mismatchCounts != null ==> mismatchCounts.Valid()
      ensures t.Some? ==> QuickConsensus.Shaped(t.value)
    {
      if mismatchCounts == null then None else Some(mismatchCounts.Table())
    }

    /** What `reset_mismatch_counts` leaves: a new table over the scale's
        window with the pileup tallied into it when both switches are on,
        otherwise the table there was. */
    ghost predicate ResetDone(s: GenomeViews.Scale, prev: QuickConsensus.MismatchCounts?, columns: seq<QuickConsensus.PileupColumn>, o: Outcome)
      reads this, mismatchCounts
      reads if mismatchCounts == null then {} else {mismatchCounts.counts, mismatchCounts.insertions}
      requires s.start <= s.end
    {
      if quickConsensus && drawMismatches then
        && mismatchCounts != null && mismatchCounts.Valid()
        && mismatchCounts.chrom == s.chrom && mismatchCounts.start == s.start && mismatchCounts.end == s.end
        && var tallied := QuickConsensus.TallyColumns(QuickConsensus.EmptyTally(s.start, s.end), columns);
        && (o.Pass? <==> tallied.Ok?)
        && (o.Pass? ==> mismatchCounts.Table() == tallied.value)
      else mismatchCounts == prev && o == Pass
    }

    /** `reset_mismatch_counts`, over the pileup columns of the window. */
    method ResetMismatchCounts(columns: seq<QuickConsensus.PileupColumn>) returns (o: Outcome)
      requires Valid() && track.scale != null && track.scale.Valid()
      modifies this
      ensures Valid()
      ensures ResetDone(track.scale, old(mismatchCounts), columns, o)
      ensures mismatchCounts != old(mismatchCounts) ==> fresh(mismatchCounts)
    {
      o := Pass;
      if quickConsensus && drawMismatches {
        var s := track.scale;
        var mc := new QuickConsensus.MismatchCounts(s.chrom, s.start, s.end);
        mismatchCounts := mc;
        o := mc.TallyReads(columns);
      }
    }

    /** `_draw_cigar` for one read, given the scale's reference window. */
    method DrawCigar(read: AlignedRead, window: Result<string>) returns (r: Result<seq<Glyph>>)
      requires Valid() && track.scale != null
      ensures r == CigarGlyphs(read, Walk(track.scale.start, track.scale.end, window, Counts(), read.bases),
                               track.intervalsToRows)
    {
      if read.isSecondary {
        return Ok([]);
      }
      if read.name !in track.intervalsToRows {
        return Err(KeyError);
      }
      var w := Walk(track.scale.start, track.scale.end, window, Counts(), read.bases);
      r := WalkCigar(w, read.cigar, read.refStart);
    }

    /** `SingleEndBAMTrack.layout`: the fetched reads become the intervals,
        the interval layout runs over them, then the table is reset. */
    method LayoutSingleEnd(s: GenomeViews.Scale, fetched: seq<AlignedRead>, columns: seq<QuickConsensus.PileupColumn>)
      returns (o: Outcome)
      requires Valid() && s.Valid() && s.HasWidth()
      modifies this, track, s
      ensures Valid() && track.Projecting() && track.scale == s
      ensures track.intervals == ReadIntervals(fetched, s.chrom, includeSecondary, drawReadLabels)
      ensures var k := IntervalTracks.FirstClash({}, track.intervals);
        && (k < |track.intervals| ==> o == Fail(AssertionError) && mismatchCounts == old(mismatchCounts)
                                      && track.Placed([], map[], track.intervals, o))
        && (k == |track.intervals| ==> track.Placed([], map[], track.intervals, Pass)
                                       && track.height == IntervalTracks.TrackHeight(|track.rows|, track.rowHeight, track.marginY)
                                       && ResetDone(s, old(mismatchCounts), columns, o))
    {
      ghost var none: map<string, nat> := map[];
      assert none.Keys == {};
      track.intervals := ReadIntervals(fetched, s.chrom, includeSecondary, drawReadLabels);
      o := track.Layout(s);
      if o.Fail? {
        return;
      }
      o := ResetMismatchCounts(columns);
    }

    /** `PairedEndBAMTrack.layout`. The same scale object again changes
        nothing. Otherwise the table is reset, the mapped reads are grouped
        by name, lone proper mates fixed up, the groups sorted by their
        coordinate lists and placed in that order. The rows and the id map
        are not cleared first. */
    method LayoutPairedEnd(s: GenomeViews.Scale, fetched: seq<AlignedRead>, columns: seq<QuickConsensus.PileupColumn>)
      returns (o: Outcome)
      requires Valid() && s.Valid() && s.HasWidth()
      modifies this, track, s
      ensures Valid()
      ensures s == old(track.scale) ==>
        (o == Pass && mismatchCounts == old(mismatchCounts)
         && track.rows == old(track.rows) && track.intervalsToRows == old(track.intervalsToRows)
         && track.height == old(track.height))
      ensures s != old(track.scale) ==> track.scale == s && track.Projecting()
      ensures s != old(track.scale) && (quickConsensus && drawMismatches) && o.Fail? && o.error != AssertionError ==>
        ResetDone(s, old(mismatchCounts), columns, o)
      ensures s != old(track.scale) && o.Pass? ==>
        && ResetDone(s, old(mismatchCounts), columns, Pass)
        && track.Placed(old(track.rows), old(track.intervalsToRows), PairIntervals(fetched, s.chrom, drawReadLabels), Pass)
        && track.height == IntervalTracks.TrackHeight(|track.rows|, track.rowHeight, track.marginY)
      ensures s != old(track.scale) && o.Fail? ==>
        && track.height == old(track.height)
        && ((ResetDone(s, old(mismatchCounts), columns, o)
             && track.rows == old(track.rows) && track.intervalsToRows == old(track.intervalsToRows))
            || (ResetDone(s, old(mismatchCounts), columns, Pass)
                && track.Placed(old(track.rows), old(track.intervalsToRows), PairIntervals(fetched, s.chrom, drawReadLabels), o)))
    {
      if s == track.scale {
        return Pass;
      }
      track.scale := s;
      o := ResetAndPlace(fetched, columns);
    }

    /** The paired-end layout once the new scale is recorded: the table is
        reset, and only when that succeeds are the pairs placed. */
    method ResetAndPlace(fetched: seq<AlignedRead>, columns: seq<QuickConsensus.PileupColumn>) returns (o: Outcome)
      requires Valid() && track.Projecting()
      modifies this, track, track.scale
      ensures Valid() && track.Projecting() && track.scale == old(track.scale)
      ensures (quickConsensus && drawMismatches) && o.Fail? && o.error != AssertionError ==>
        ResetDone(track.scale, old(mismatchCounts), columns, o)
      ensures o.Pass? ==>
        && ResetDone(track.scale, old(mismatchCounts), columns, Pass)
        && track.Placed(old(track.rows), old(track.intervalsToRows), PairIntervals(fetched, track.scale.chrom, drawReadLabels), Pass)
        && track.height == IntervalTracks.TrackHeight(|track.rows|, track.rowHeight, track.marginY)
      ensures o.Fail? ==>
        && track.height == old(track.height)
        && ((ResetDone(track.scale, old(mismatchCounts), columns, o)
             && track.rows == old(track.rows) && track.intervalsToRows == old(track.intervalsToRows))
            || (ResetDone(track.scale, old(mismatchCounts), columns, Pass)
                && track.Placed(old(track.rows), old(track.intervalsToRows),
                                PairIntervals(fetched, track.scale.chrom, drawReadLabels), o)))
    {
      ghost var rows0, m0, h0 := track.rows, track.intervalsToRows, track.height;
      o := ResetMismatchCounts(columns);
      if o.Fail? {
        assert track.rows == rows0 && track.intervalsToRows == m0 && track.height == h0;
        return;
      }
      assert ResetDone(track.scale, old(mismatchCounts), columns, Pass);
      label reset:
      o := PlacePairs(fetched);
      assert unchanged@reset(this);
      if mismatchCounts != null {
        assert unchanged@reset(mismatchCounts, mismatchCounts.counts, mismatchCounts.insertions);
      }
      assert ResetDone(track.scale, old(mismatchCounts), columns, Pass);
    }

    /** The grouping, fix-up, sorting and placing steps of the paired-end
        layout, on a track that is projecting; the height is set only when
        every pair was placed. */
    method PlacePairs(fetched: seq<AlignedRead>) returns (o: Outcome)
      requires track.Valid() && track.Projecting()
      modifies track, track.scale
      ensures track.Valid() && track.Projecting() && track.scale == old(track.scale)
      ensures track.Placed(old(track.rows), old(track.intervalsToRows), PairIntervals(fetched, track.scale.chrom, drawReadLabels), o)
      ensures o.Pass? ==> track.height == IntervalTracks.TrackHeight(|track.rows|, track.rowHeight, track.marginY)
      ensures o.Fail? ==> track.height == old(track.height)
    {
      var g := GroupReads(fetched);
      var items := FixLoneMates(g);
      SortItemsSorted(items);
      ItemsValidPermuted(items, SortItems(items));
      var ivs := PairIntervalsOf(SortItems(items), track.scale.chrom, drawReadLabels);
      assert ivs == PairIntervals(fetched, track.scale.chrom, drawReadLabels);
      o := track.LayoutEach(ivs);
      if o.Pass? {
        track.height := IntervalTracks.TrackHeight(|track.rows|, track.rowHeight, track.marginY);
      }
    }
  }

  /** The grouping loop of the paired-end layout. */
  method GroupReads(fetched: seq<AlignedRead>) returns (g: Groups)
    ensures g == Group(fetched)
  {
    var names: seq<string> := [];
    var coords: map<string, seq<seq<int>>> := map[];
    var i := 0;
    while i < |fetched|
      invariant 0 <= i <= |fetched|
      invariant Group(fetched[..i]) == Groups(names, coords)
    {
      assert fetched[..i + 1][..i] == fetched[..i];
      var r := fetched[i];
      if !r.isUnmapped {
        if r.name in coords {
          coords := coords[r.name := coords[r.name] + [ReadCoord(r)]];
        } else {
          names := names + [r.name];
          coords := coords[r.name := [ReadCoord(r)]];
        }
      }
      i := i + 1;
    }
    assert fetched[..i] == fetched;
    g := Groups(names, coords);
  }

  /** The fix-up loop of the paired-end layout: every group's lone proper
      mate gets its mate's start as its second field. */
  method FixLoneMates(g: Groups) returns (items: seq<Item>)
    requires GroupsValid(g)
    requires forall n, k :: n in g.coords && 0 <= k < |g.coords[n]| ==> |g.coords[n][k]| == 4
    ensures items == FixedItems(g)
  {
    var names, coords := g.names, g.coords;
    var k := 0;
    while k < |names|
      invariant 0 <= k <= |names|
      invariant forall n :: n in coords <==> n in g.coords
      invariant forall j :: 0 <= j < k ==> coords[names[j]] == FixLone(g.coords[names[j]])
      invariant forall j :: k <= j < |names| ==> coords[names[j]] == g.coords[names[j]]
    {
      coords := coords[names[k] := FixLone(coords[names[k]])];
      k := k + 1;
    }
    items := seq(|names|, j requires 0 <= j < |names| => (names[j], coords[names[j]]));
  }

  /** Laid out from an empty track, the paired-end layout never fails its
      duplicate-id assertion. */
  lemma PairedLayoutFromEmptyPasses(fetched: seq<AlignedRead>, chrom: string, drawReadLabels: bool)
    ensures var ivs := PairIntervals(fetched, chrom, drawReadLabels);
      IntervalTracks.FirstClash({}, ivs) == |ivs|
  {
    PairIntervalsFresh(fetched, chrom, drawReadLabels);
  }
}

=== FILE: bedtrack.dfy ===
/** BED annotation tracks: transcripts read from BED fields, the plain-BED
    line filter, the intervals a BED track lays out, and the thin/thick
    exon drawing of one transcript. */
module BedTracks {
  import opened Wrappers
  import opened PyText
  import IntervalTracks
  import GenomeViews
  import Sequences

  // ---------------------------------------------------------------------
  // Transcripts

  /** A transcript: its span, strand, optional name, optional coding
      (thick) bounds and its exons as absolute `(start, end)` pairs. */
  datatype Transcript = Transcript(chrom: string, start: int, end: int, strand: string, name: Option<string>,
                                   codingStart: Option<int>, codingEnd: Option<int>,
                                   exons: seq<(int, int)>, color: Option<string>)

  /** `int(x)` applied to a value that may be None. */
  function ParseOptional(s: Option<string>): (r: Result<Option<int>>)
    ensures s.None? ==> r == Ok(None)
    ensures s.Some? && r.Ok? ==> r.value.Some? && ParseInt(s.value) == Ok(r.value.value)
    ensures s.Some? && r.Err? ==> ParseInt(s.value).Err? && r.error == ValueError
  {
    match s
    case None => Ok(None)
    case Some(t) =>
      match ParseInt(t)
      case Ok(v) => Ok(Some(v))
      case Err(e) => Err(e)
  }

  /** `Transcript.__init__`: start, end and the coding bounds go through
      `int()` (ValueError on a malformed number); without exons the
      transcript is one exon over its whole span. */
  function MakeTranscript(chrom: string, start: string, end: string, strand: string, name: Option<string>,
                          codingStart: Option<string>, codingEnd: Option<string>,
                          exons: Option<seq<(int, int)>>, color: Option<string>): (r: Result<Transcript>)
    ensures r.Ok? <==> ParseInt(start).Ok? && ParseInt(end).Ok?
                       && (codingStart.Some? ==> ParseInt(codingStart.value).Ok?)
                       && (codingEnd.Some? ==> ParseInt(codingEnd.value).Ok?)
    ensures r.Err? ==> r.error == ValueError
    ensures r.Ok? ==>
      && r.value.chrom == chrom && r.value.strand == strand && r.value.name == name && r.value.color == color
      && ParseInt(start) == Ok(r.value.start) && ParseInt(end) == Ok(r.value.end)
      && (r.value.codingStart.Some? <==> codingStart.Some?)
      && (r.value.codingEnd.Some? <==> codingEnd.Some?)
      && (codingStart.Some? ==> ParseInt(codingStart.value) == Ok(r.value.codingStart.value))
      && (codingEnd.Some? ==> ParseInt(codingEnd.value) == Ok(r.value.codingEnd.value))
      && r.value.exons == (if exons.None? then [(r.value.start, r.value.end)] else exons.value)
  {
    var s :- ParseInt(start);
    var e :- ParseInt(end);
    var cs :- ParseOptional(codingStart);
    var ce :- ParseOptional(codingEnd);
    Ok(Transcript(chrom, s, e, strand, name, cs, ce, if exons.None? then [(s, e)] else exons.value, color))
  }

  /** `[int(x) for x in items]`: the first malformed item raises. */
  function ParseAll(items: seq<string>): (r: Result<seq<int>>)
    ensures r.Ok? <==> forall k :: 0 <= k < |items| ==> ParseInt(items[k]).Ok?
    ensures r.Ok? ==> |r.value| == |items| && forall k :: 0 <= k < |items| ==> ParseInt(items[k]) == Ok(r.value[k])
    ensures r.Err? ==> r.error == ValueError
  {
    if items == [] then Ok([])
    else
      match ParseInt(items[0])
      case Err(e) => Err(e)
      case Ok(v) =>
        match ParseAll(items[1..])
        case Err(e) => Err(e)
        case Ok(vs) => Ok([v] + vs)
  }

  /** The exons of the block columns: `zip(starts, lengths)`, so the shorter
      list decides the count, each block placed relative to the start. */
  function BlockExons(start: int, starts: seq<int>, lengths: seq<int>): (r: seq<(int, int)>)
    ensures |r| == (if |starts| < |lengths| then |starts| else |lengths|)
    ensures forall k :: 0 <= k < |r| ==> r[k].0 - start == starts[k] && r[k].1 - r[k].0 == lengths[k]
  {
    var n := if |starts| < |lengths| then |starts| else |lengths|;
    seq(n, k requires 0 <= k < n => (start + starts[k], start + starts[k] + lengths[k]))
  }

  /** The exons of fields 10 to 12 when there are at least twelve fields and
      the block count is positive; otherwise none. The count itself only
      gates: the lists are zipped whatever it says. Empty items of the
      comma lists are dropped. A malformed number raises ValueError (the
      start is parsed here too, as the comprehension does; the transcript
      would raise the same error on it). */
  function BlockColumns(fields: seq<string>): (r: Result<Option<seq<(int, int)>>>)
    requires |fields| >= 3
    ensures |fields| < 12 ==> r == Ok(None)
    ensures r.Err? ==> r.error == ValueError
    ensures r.Ok? && r.value.None? ==> |fields| < 12 || (ParseInt(fields[9]).Ok? && ParseInt(fields[9]).value <= 0)
    ensures r.Ok? && r.value.Some? ==>
      && |fields| >= 12 && ParseInt(fields[9]).Ok? && ParseInt(fields[9]).value > 0
      && ParseAll(SplitNonEmpty(fields[10], ',')).Ok? && ParseAll(SplitNonEmpty(fields[11], ',')).Ok?
      && ParseInt(fields[1]).Ok?
      && r.value.value == BlockExons(ParseInt(fields[1]).value, ParseAll(SplitNonEmpty(fields[11], ',')).value,
                                     ParseAll(SplitNonEmpty(fields[10], ',')).value)
  {
    if |fields| < 12 then Ok(None)
    else
      var count :- ParseInt(fields[9]);
      if count <= 0 then Ok(None)
      else
        var lengths :- ParseAll(SplitNonEmpty(fields[10], ','));
        var starts :- ParseAll(SplitNonEmpty(fields[11], ','));
        var s :- ParseInt(fields[1]);
        Ok(Some(BlockExons(s, starts, lengths)))
  }

  /** `tx_from_bedfields`: chrom, start and end from the first three fields
      (fewer cannot be unpacked: ValueError), the name from the fourth, the
      strand from the sixth (default "+"), the coding bounds from the
      seventh and eighth once there are at least seven fields (so exactly
      seven raise IndexError), and the blocks; the score and colour fields
      are not read. */
  function TxFromBedFields(fields: seq<string>): (r: Result<Transcript>)
    ensures |fields| < 3 ==> r == Err(ValueError)
    ensures |fields| == 7 ==> r == Err(IndexError)
    ensures r.Err? && |fields| != 7 ==> r.error == ValueError
    ensures r.Ok? ==>
      && r.value.chrom == fields[0]
      && ParseInt(fields[1]) == Ok(r.value.start) && ParseInt(fields[2]) == Ok(r.value.end)
      && r.value.name == (if |fields| >= 4 then Some(fields[3]) else None)
      && r.value.strand == (if |fields| >= 6 then fields[5] else "+")
      && r.value.color == None
      && (r.value.codingStart.Some? <==> |fields| >= 8) && (r.value.codingEnd.Some? <==> |fields| >= 8)
      && (|fields| < 12 ==> r.value.exons == [(r.value.start, r.value.end)])
    ensures r.Ok? && |fields| >= 8 ==>
      && ParseInt(fields[6]) == Ok(r.value.codingStart.value) && ParseInt(fields[7]) == Ok(r.value.codingEnd.value)
    ensures r.Ok? ==> (BlockColumns(fields).Ok? &&
      r.value.exons == (if BlockColumns(fields).value.None? then [(r.value.start, r.value.end)]
                        else BlockColumns(fields).value.value))
  {
    if |fields| < 3 then Err(ValueError)
    else
      var name := if |fields| >= 4 then Some(fields[3]) else None;
      var strand := if |fields| >= 6 then fields[5] else "+";
      if |fields| == 7 then Err(IndexError)
      else
        var codingStart := if |fields| >= 8 then Some(fields[6]) else None;
        var codingEnd := if |fields| >= 8 then Some(fields[7]) else None;
        var exons :- BlockColumns(fields);
        MakeTranscript(fields[0], fields[1], fields[2], strand, name, codingStart, codingEnd, exons, None)
  }

  /** The score (field 5) and the item colour (field 9) never change the
      transcript. */
  lemma IgnoresScoreAndItemRgb(fields: seq<string>, score: string, rgb: string)
    requires |fields| >= 9
    ensures TxFromBedFields(fields[4 := score][8 := rgb]) == TxFromBedFields(fields)
  {
    var f := fields[4 := score][8 := rgb];
    assert forall k :: 0 <= k < |f| && k != 4 && k != 8 ==> f[k] == fields[k];
    assert BlockColumns(f) == BlockColumns(fields);
  }

  // ---------------------------------------------------------------------
  // Writing BED fields back

  /** A comma-terminated list of decimal numbers, as BED block columns are
      written. */
  function JoinComma(xs: seq<nat>): string {
    if xs == [] then "" else NatToString(xs[0]) + "," + JoinComma(xs[1..])
  }

  /** A decimal number holds no character other than digits. */
  lemma NoSeparatorInDigits(n: nat, c: char)
    requires !IsDigit(c)
    ensures c !in NatToString(n)
  {
    var s := NatToString(n);
    assert forall k :: 0 <= k < |s| ==> s[k] != c;
  }

  /** A run without the separator is read into the current item. */
  lemma {:induction false} SplitRun(d: string, rest: string, sep: char, cur: string)
    requires sep !in d
    ensures SplitNonEmptyFrom(d + rest, sep, cur) == SplitNonEmptyFrom(rest, sep, cur + d)
    decreases |d|
  {
    if d != [] {
      assert (d + rest)[0] == d[0];
      assert (d + rest)[1..] == d[1..] + rest;
      assert sep !in d[1..];
      SplitRun(d[1..], rest, sep, cur + [d[0]]);
      assert cur + [d[0]] + d[1..] == cur + d;
    } else {
      assert d + rest == rest && cur + d == cur;
    }
  }

  /** Splitting the written list on commas gives back the decimal items. */
  lemma {:induction false} SplitJoinComma(xs: seq<nat>)
    ensures SplitNonEmpty(JoinComma(xs), ',') == seq(|xs|, k requires 0 <= k < |xs| => NatToString(xs[k]))
  {
    if xs != [] {
      var d := NatToString(xs[0]);
      var tail := JoinComma(xs[1..]);
      NoSeparatorInDigits(xs[0], ',');
      assert JoinComma(xs) == d + ("," + tail);
      SplitRun(d, "," + tail, ',', []);
      assert [] + d == d;
      assert ("," + tail)[1..] == tail;
      SplitJoinComma(xs[1..]);
      assert SplitNonEmpty(JoinComma(xs), ',') == [d] + SplitNonEmpty(tail, ',');
    }
  }

  /** Reading the decimal items gives back the numbers. */
  lemma ParseAllShows(xs: seq<nat>)
    ensures ParseAll(seq(|xs|, k requires 0 <= k < |xs| => NatToString(xs[k]))) == Ok(xs)
  {
    var items := seq(|xs|, k requires 0 <= k < |xs| => NatToString(xs[k]));
    forall k | 0 <= k < |xs|
      ensures ParseInt(items[k]) == Ok(xs[k] as int)
    {
      ParseShowsNat(xs[k]);
    }
    var r := ParseAll(items);
    assert r.value == xs;
  }

  /** A transcript a BED6 line can hold: one exon over its span, no coding
      bounds, a name and non-negative coordinates. */
  ghost predicate Bed6Shaped(tx: Transcript) {
    && tx.start >= 0 && tx.end >= 0 && tx.name.Some? && tx.color == None
    && tx.codingStart == None && tx.codingEnd == None && tx.exons == [(tx.start, tx.end)]
  }

  function Bed6Fields(tx: Transcript): seq<string>
    requires tx.start >= 0 && tx.end >= 0 && tx.name.Some?
  {
    [tx.chrom, NatToString(tx.start), NatToString(tx.end), tx.name.value, "0", tx.strand]
  }

  /** Writing a BED6 line and reading it back gives the transcript. */
  lemma Bed6RoundTrip(tx: Transcript)
    requires Bed6Shaped(tx)
    ensures TxFromBedFields(Bed6Fields(tx)) == Ok(tx)
  {
    ParseShowsNat(tx.start);
    ParseShowsNat(tx.end);
  }

  /** A transcript a BED12 line can hold: a name, non-negative coordinates
      and coding bounds, and at least one exon, none starting before the
      transcript or ending before it starts. */
  ghost predicate Bed12Shaped(tx: Transcript) {
    && tx.start >= 0 && tx.end >= 0 && tx.name.Some? && tx.color == None
    && tx.codingStart.Some? && tx.codingStart.value >= 0 && tx.codingEnd.Some? && tx.codingEnd.value >= 0
    && |tx.exons| > 0
    && forall k :: 0 <= k < |tx.exons| ==> tx.start <= tx.exons[k].0 <= tx.exons[k].1
  }

  function BlockSizes(tx: Transcript): (r: seq<nat>)
    requires forall k :: 0 <= k < |tx.exons| ==> tx.exons[k].0 <= tx.exons[k].1
    ensures |r| == |tx.exons|
  {
    seq(|tx.exons|, k requires 0 <= k < |tx.exons| => tx.exons[k].1 - tx.exons[k].0)
  }

  function BlockStarts(tx: Transcript): (r: seq<nat>)
    requires forall k :: 0 <= k < |tx.exons| ==> tx.start <= tx.exons[k].0
    ensures |r| == |tx.exons|
  {
    seq(|tx.exons|, k requires 0 <= k < |tx.exons| => tx.exons[k].0 - tx.start)
  }

  function Bed12Fields(tx: Transcript): (f: seq<string>)
    requires Bed12Shaped(tx)
    ensures |f| == 12
  {
    [tx.chrom, NatToString(tx.start), NatToString(tx.end), tx.name.value, "0", tx.strand,
     NatToString(tx.codingStart.value), NatToString(tx.codingEnd.value), "0",
     NatToString(|tx.exons|), JoinComma(BlockSizes(tx)), JoinComma(BlockStarts(tx))]
  }

  /** Writing a BED12 line and reading it back gives the transcript,
      exons included. */
  lemma Bed12RoundTrip(tx: Transcript)
    requires Bed12Shaped(tx)
    ensures TxFromBedFields(Bed12Fields(tx)) == Ok(tx)
  {
    var f := Bed12Fields(tx);
    ParseShowsNat(tx.start);
    ParseShowsNat(tx.end);
    ParseShowsNat(tx.codingStart.value);
    ParseShowsNat(tx.codingEnd.value);
    ParseShowsNat(|tx.exons|);
    Bed12Blocks(tx);
  }

  /** The block columns of a written BED12 line read back as the exons. */
  lemma Bed12Blocks(tx: Transcript)
    requires Bed12Shaped(tx)
    ensures BlockColumns(Bed12Fields(tx)) == Ok(Some(tx.exons))
  {
    var f := Bed12Fields(tx);
    ParseShowsNat(tx.start);
    ParseShowsNat(|tx.exons|);
    var sizes, starts := BlockSizes(tx), BlockStarts(tx);
    BlockListRoundTrip(sizes);
    BlockListRoundTrip(starts);
    assert f[10] == JoinComma(sizes) && f[11] == JoinComma(starts);
    BlockColumnsRead(f, |tx.exons|, sizes, starts, tx.start);
    BlocksGiveExons(tx);
  }

  /** The block columns once each of their numbers reads. */
  lemma BlockColumnsRead(fields: seq<string>, count: int, sizes: seq<int>, starts: seq<int>, start: int)
    requires |fields| >= 12 && ParseInt(fields[9]) == Ok(count) && count > 0
    requires ParseAll(SplitNonEmpty(fields[10], ',')) == Ok(sizes)
    requires ParseAll(SplitNonEmpty(fields[11], ',')) == Ok(starts)
    requires ParseInt(fields[1]) == Ok(start)
    ensures BlockColumns(fields) == Ok(Some(BlockExons(start, starts, sizes)))
  {
  }

  lemma BlocksGiveExons(tx: Transcript)
    requires Bed12Shaped(tx)
    ensures BlockExons(tx.start, BlockStarts(tx), BlockSizes(tx)) == tx.exons
  {
  }

  /** A written block list reads back as its numbers. */
  lemma BlockListRoundTrip(xs: seq<nat>)
    ensures ParseAll(SplitNonEmpty(JoinComma(xs), ',')) == Ok(xs)
  {
    SplitJoinComma(xs);
    ParseAllShows(xs);
  }

  // ---------------------------------------------------------------------
  // Plain BED files

  /** What `fetch_from_plainbed` makes of one line's fields. */
  datatype Verdict = OtherChrom | Outside | Inside

  /** An empty line cannot be indexed (IndexError) and a line of the
      chromosome with fewer than three fields cannot be unpacked
      (ValueError). The end is read first: a line ending before the window
      is skipped without reading its start. */
  function LineVerdict(fields: seq<string>, chrom: string, start: int, end: int): (r: Result<Verdict>)
    ensures |fields| == 0 ==> r == Err(IndexError)
    ensures r == Ok(OtherChrom) <==> |fields| > 0 && fields[0] != chrom
    ensures r.Ok? && r.value != OtherChrom ==> |fields| >= 3
  {
    if |fields| == 0 then Err(IndexError)
    else if fields[0] != chrom then Ok(OtherChrom)
    else if |fields| < 3 then Err(ValueError)
    else
      var e :- ParseInt(fields[2]);
      if e < start then Ok(Outside)
      else
        var s :- ParseInt(fields[1]);
        if s > end then Ok(Outside) else Ok(Inside)
  }

  /** The filter is an inclusive overlap test: for a line of the chromosome
      with well-formed coordinates it keeps the line exactly when the line,
      as an interval, overlaps the window in `Interval.overlaps`' sense. */
  lemma VerdictIsOverlap(fields: seq<string>, chrom: string, start: int, end: int, s: int, e: int)
    requires |fields| >= 3 && fields[0] == chrom && ParseInt(fields[1]) == Ok(s) && ParseInt(fields[2]) == Ok(e)
    ensures LineVerdict(fields, chrom, start, end) == Ok(Inside) <==> s <= end && e >= start
    ensures LineVerdict(fields, chrom, start, end) == Ok(Inside) <==>
      IntervalTracks.Overlaps(IntervalTracks.Interval("", chrom, s, e, "+", None),
                              IntervalTracks.Interval("", chrom, start, end, "+", None), true)
    ensures LineVerdict(fields, chrom, start, end).Ok?
  {
  }

  /** The transcripts `fetch_from_plainbed` yields, and whether the
      chromosome was never seen (the case that logs a warning). */
  datatype PlainBed = PlainBed(transcripts: seq<Transcript>, warned: bool)

  /** The lines read so far: a raise from the filter or from
      `tx_from_bedfields` ends the read. */
  function ReadPlainBed(lines: seq<seq<string>>, chrom: string, start: int, end: int): (r: Result<PlainBed>)
    ensures r.Ok? ==> |r.value.transcripts| <= |lines|
  {
    if lines == [] then Ok(PlainBed([], true))
    else
      var prev :- ReadPlainBed(lines[..|lines| - 1], chrom, start, end);
      var fields := lines[|lines| - 1];
      var v :- LineVerdict(fields, chrom, start, end);
      if v == OtherChrom then Ok(prev)
      else if v == Outside then Ok(PlainBed(prev.transcripts, false))
      else
        var tx :- TxFromBedFields(fields);
        Ok(PlainBed(prev.transcripts + [tx], false))
  }

  /** A line that names the chromosome. */
  ghost predicate Names(lines: seq<seq<string>>, chrom: string) {
    exists k :: 0 <= k < |lines| && |lines[k]| > 0 && lines[k][0] == chrom
  }

  /** Every transcript read is on the chromosome and overlaps the window
      (closed ends), and the warning is given exactly when no line names the
      chromosome. */
  lemma {:induction false} ReadPlainBedSound(lines: seq<seq<string>>, chrom: string, start: int, end: int)
    requires ReadPlainBed(lines, chrom, start, end).Ok?
    ensures var r := ReadPlainBed(lines, chrom, start, end).value;
      && (forall k :: 0 <= k < |r.transcripts| ==>
            r.transcripts[k].chrom == chrom && r.transcripts[k].start <= end && r.transcripts[k].end >= start)
      && (r.warned <==> !Names(lines, chrom))
  {
    if lines != [] {
      var init := lines[..|lines| - 1];
      var fields := lines[|lines| - 1];
      ReadPlainBedSound(init, chrom, start, end);
      var prev := ReadPlainBed(init, chrom, start, end).value;
      var v := LineVerdict(fields, chrom, start, end).value;
      if v == Inside {
        var tx := TxFromBedFields(fields).value;
        VerdictIsOverlap(fields, chrom, start, end, tx.start, tx.end);
        var r := ReadPlainBed(lines, chrom, start, end).value;
        assert r.transcripts == prev.transcripts + [tx];
      }
      if Names(init, chrom) {
        var k :| 0 <= k < |init| && |init[k]| > 0 && init[k][0] == chrom;
        assert lines[k] == init[k];
      }
      if Names(lines, chrom) && !Names(init, chrom) {
        var k :| 0 <= k < |lines| && |lines[k]| > 0 && lines[k][0] == chrom;
        if k < |init| {
          assert init[k] == lines[k];
        }
      }
      if v != OtherChrom {
        assert Names(lines, chrom) by {
          assert lines[|lines| - 1] == fields;
        }
      }
    }
  }

  /** A raise on some line is the outcome of the whole read. */
  lemma {:induction false} ReadErrorSticks(lines: seq<seq<string>>, chrom: string, start: int, end: int, n: nat)
    requires n <= |lines| && ReadPlainBed(lines[..n], chrom, start, end).Err?
    ensures ReadPlainBed(lines, chrom, start, end) == ReadPlainBed(lines[..n], chrom, start, end)
    decreases |lines| - n
  {
    if n < |lines| {
      assert lines[..n + 1][..n] == lines[..n];
      ReadErrorSticks(lines, chrom, start, end, n + 1);
    } else {
      assert lines[..n] == lines;
    }
  }

  /** The line loop of `fetch_from_plainbed`, with its `found_chrom` flag. */
  method FetchPlainBed(lines: seq<seq<string>>, chrom: string, start: int, end: int) returns (r: Result<PlainBed>)
    ensures r == ReadPlainBed(lines, chrom, start, end)
  {
    var found := false;
    var out: seq<Transcript> := [];
    var i := 0;
    while i < |lines|
      invariant 0 <= i <= |lines|
      invariant ReadPlainBed(lines[..i], chrom, start, end) == Ok(PlainBed(out, !found))
    {
      assert lines[..i + 1][..i] == lines[..i];
      var fields := lines[i];
      var v := LineVerdict(fields, chrom, start, end);
      if v.Err? {
        assert lines[..i + 1][i] == fields;
        ReadErrorSticks(lines, chrom, start, end, i + 1);
        return Err(v.error);
      }
      if v.value != OtherChrom {
        found := true;
        if v.value == Inside {
          var tx := TxFromBedFields(fields);
          if tx.Err? {
            assert lines[..i + 1][i] == fields;
            ReadErrorSticks(lines, chrom, start, end, i + 1);
            return Err(tx.error);
          }
          out := out + [tx.value];
        }
      }
      i := i + 1;
    }
    assert lines[..i] == lines;
    r := Ok(PlainBed(out, !found));
  }

  // ---------------------------------------------------------------------
  // The intervals of a BED track

  /** `BEDTrack.fetch`: without a filter every transcript, otherwise those
      it accepts, in order. */
  function Included(txs: seq<Transcript>, accept: Option<Transcript -> bool>): (r: seq<Transcript>)
    ensures accept.None? ==> r == txs
    ensures forall k :: 0 <= k < |r| ==> r[k] in txs && (accept.Some? ==> accept.value(r[k]))
    ensures forall k :: 0 <= k < |txs| && (accept.None? || accept.value(txs[k])) ==> txs[k] in r
  {
    if txs == [] then []
    else
      var prev := Included(txs[..|txs| - 1], accept);
      var tx := txs[|txs| - 1];
      assert forall k :: 0 <= k < |txs| - 1 ==> txs[k] == txs[..|txs| - 1][k];
      if accept.None? || accept.value(tx) then prev + [tx] else prev
  }

  /** With a filter, the track is `[tx for tx in txs if accept(tx)]`: the
      accepted transcripts in file order, each once. */
  lemma {:induction false} IncludedInOrder(txs: seq<Transcript>, accept: Transcript -> bool)
    ensures Included(txs, Some(accept)) == Sequences.Filter(txs, accept)
  {
    if txs != [] {
      var init := txs[..|txs| - 1];
      IncludedInOrder(init, accept);
      assert txs == init + [txs[|txs| - 1]];
      Sequences.FilterSnoc(init, txs[|txs| - 1], accept);
      if !accept(txs[|txs| - 1]) {
        assert Sequences.Filter(txs, accept) == Sequences.Filter(init, accept) + [];
      }
    }
  }

  /** An interval of the track with the transcript it came from. */
  datatype Locus = Locus(interval: IntervalTracks.Interval, tx: Transcript)

  /** A name is used only when it is truthy: present and not empty. */
  predicate HasName(tx: Transcript) {
    tx.name.Some? && tx.name.value != ""
  }

  /** The id of the `i`-th transcript: its name, or "feature", then an
      underscore and the index. */
  function LocusId(tx: Transcript, i: nat): string {
    (if HasName(tx) then tx.name.value else "feature") + "_" + NatToString(i)
  }

  /** The `i`-th interval of `__iter__`: the transcript's span and strand,
      labelled with its name when locus labels are drawn and it has one. */
  function LocusOf(tx: Transcript, i: nat, drawLocusLabels: bool): (l: Locus)
    ensures l.tx == tx && l.interval.id == LocusId(tx, i)
    ensures l.interval.chrom == tx.chrom && l.interval.start == tx.start && l.interval.end == tx.end
    ensures l.interval.strand == tx.strand
    ensures l.interval.caption.Some? <==> drawLocusLabels && HasName(tx)
    ensures l.interval.caption.Some? ==> l.interval.caption == tx.name
  {
    var caption := if drawLocusLabels && HasName(tx) then tx.name else None;
    Locus(IntervalTracks.MakeInterval(LocusId(tx, i), tx.chrom, tx.start, tx.end,
                                      IntervalTracks.TextStrand(tx.strand), caption), tx)
  }

  function Loci(txs: seq<Transcript>, drawLocusLabels: bool): (ls: seq<Locus>)
    ensures |ls| == |txs| && forall i :: 0 <= i < |txs| ==> ls[i] == LocusOf(txs[i], i, drawLocusLabels)
  {
    seq(|txs|, i requires 0 <= i < |txs| => LocusOf(txs[i], i, drawLocusLabels))
  }

  function IntervalsOf(ls: seq<Locus>): (ivs: seq<IntervalTracks.Interval>)
    ensures |ivs| == |ls| && forall i :: 0 <= i < |ls| ==> ivs[i] == ls[i].interval
  {
    seq(|ls|, i requires 0 <= i < |ls| => ls[i].interval)
  }

  /** The enumerating loop of `__iter__`. */
  method IterLoci(txs: seq<Transcript>, drawLocusLabels: bool) returns (ls: seq<Locus>)
    ensures ls == Loci(txs, drawLocusLabels)
  {
    ls := [];
    var i := 0;
    while i < |txs|
      invariant 0 <= i <= |txs|
      invariant ls == Loci(txs[..i], drawLocusLabels)
    {
      ls := ls + [LocusOf(txs[i], i, drawLocusLabels)];
      i := i + 1;
    }
    assert txs[..i] == txs;
  }

  /** Different indices give different ids, whatever the names: the index
      is what follows the last underscore. */
  lemma LocusIdsDiffer(a: Transcript, i: nat, b: Transcript, j: nat)
    requires i != j
    ensures LocusId(a, i) != LocusId(b, j)
  {
    var p := if HasName(a) then a.name.value else "feature";
    var q := if HasName(b) then b.name.value else "feature";
    NoSeparatorInDigits(i, '_');
    NoSeparatorInDigits(j, '_');
    if LocusId(a, i) == LocusId(b, j) {
      SuffixAfterUnderscore(p, NatToString(i), q, NatToString(j));
      NatToStringInjective(i, j);
    }
  }

  /** The ids of one pass are pairwise distinct, so a layout that starts
      from an empty map never fails its duplicate-id assertion. */
  lemma LociFresh(txs: seq<Transcript>, drawLocusLabels: bool)
    ensures IntervalTracks.Fresh({}, IntervalsOf(Loci(txs, drawLocusLabels)))
    ensures var ivs := IntervalsOf(Loci(txs, drawLocusLabels)); IntervalTracks.FirstClash({}, ivs) == |ivs|
  {
    var ivs := IntervalsOf(Loci(txs, drawLocusLabels));
    forall i, j | 0 <= i < j < |ivs|
      ensures ivs[i].id != ivs[j].id
    {
      LocusIdsDiffer(txs[i], i, txs[j], j);
    }
  }

  // ---------------------------------------------------------------------
  // Exons, thin and thick

  /** A drawn piece of an exon, in genome coordinates. */
  datatype Segment = Segment(thick: bool, start: int, end: int)

  /** The thick part of an exon: none without a coding start, for an exon
      ending before it or starting after the coding end; otherwise the exon
      clipped to the coding bounds. Comparing with a missing coding end
      raises TypeError. */
  function ThickSegment(tx: Transcript, e: (int, int)): (r: Result<Option<(int, int)>>)
    ensures r.Err? ==> r.error == TypeError && tx.codingStart.Some? && tx.codingEnd.None?
    ensures r.Ok? && r.value.Some? ==> e.0 <= r.value.value.0 && r.value.value.1 <= e.1
  {
    if tx.codingStart.None? then Ok(None)
    else if e.1 < tx.codingStart.value then Ok(None)
    else if tx.codingEnd.None? then Err(TypeError)
    else if e.0 > tx.codingEnd.value then Ok(None)
    else
      var s := if tx.codingStart.value > e.0 then tx.codingStart.value else e.0;
      var t := if tx.codingEnd.value < e.1 then tx.codingEnd.value else e.1;
      Ok(Some((s, t)))
  }

  /** The thin part of an exon: the whole exon, unless the coding start is
      truthy (present and not 0) and the exon lies strictly inside the
      coding bounds. */
  function ThinSegment(tx: Transcript, e: (int, int)): (r: Result<Option<(int, int)>>)
    ensures r.Err? ==> r.error == TypeError && tx.codingStart.Some? && tx.codingEnd.None?
    ensures r.Ok? && r.value.Some? ==> r.value.value == e
  {
    if tx.codingStart.Some? && tx.codingStart.value != 0 && e.0 > tx.codingStart.value then
      if tx.codingEnd.None? then Err(TypeError)
      else if e.1 < tx.codingEnd.value then Ok(None)
      else Ok(Some(e))
    else Ok(Some(e))
  }

  /** The thick part lies inside both the exon and the coding bounds, and
      for a well-formed exon it exists exactly when the exon meets the
      closed coding range. */
  lemma ThickClipped(tx: Transcript, e: (int, int))
    requires tx.codingStart.Some? && tx.codingEnd.Some?
    ensures ThickSegment(tx, e).Ok?
    ensures ThickSegment(tx, e).value.Some? <==> e.1 >= tx.codingStart.value && e.0 <= tx.codingEnd.value
    ensures ThickSegment(tx, e).value.Some? ==>
      var seg := ThickSegment(tx, e).value.value;
      && tx.codingStart.value <= seg.0 && seg.1 <= tx.codingEnd.value
      && e.0 <= seg.0 && seg.1 <= e.1
      && (e.0 <= e.1 && tx.codingStart.value <= tx.codingEnd.value ==> seg.0 <= seg.1)
  {
  }

  /** With coding bounds (or none at all), every well-formed exon is drawn
      whole: as its thin segment, or else as a thick segment equal to it. */
  lemma ExonDrawnWhole(tx: Transcript, e: (int, int))
    requires e.0 <= e.1
    requires tx.codingStart.None? || tx.codingEnd.Some?
    ensures ThinSegment(tx, e).Ok? && ThickSegment(tx, e).Ok?
    ensures ThinSegment(tx, e) == Ok(Some(e)) || ThickSegment(tx, e) == Ok(Some(e))
  {
  }

  /** The segments of one pass over the exons, in exon order; the first
      TypeError ends the pass. */
  function PassSegments(tx: Transcript, thick: bool, exons: seq<(int, int)>): (r: Result<seq<Segment>>)
    ensures r.Ok? ==> |r.value| <= |exons| && forall k :: 0 <= k < |r.value| ==> r.value[k].thick == thick
    ensures r.Err? ==> r.error == TypeError
  {
    if exons == [] then Ok([])
    else
      var prev :- PassSegments(tx, thick, exons[..|exons| - 1]);
      var seg :- if thick then ThickSegment(tx, exons[|exons| - 1]) else ThinSegment(tx, exons[|exons| - 1]);
      if seg.None? then Ok(prev) else Ok(prev + [Segment(thick, seg.value.0, seg.value.1)])
  }

  /** Both passes of `draw_interval`: every thin segment, then every thick
      one. */
  function ExonPlan(tx: Transcript): (r: Result<seq<Segment>>)
    ensures r.Err? ==> r.error == TypeError
    ensures r.Ok? ==> |r.value| <= 2 * |tx.exons|
  {
    var thin :- PassSegments(tx, false, tx.exons);
    var thick :- PassSegments(tx, true, tx.exons);
    Ok(thin + thick)
  }

  /** Thin segments come first, then thick ones; without coding bounds
      every exon is one thin segment. */
  lemma {:induction false} ExonPlanOrder(tx: Transcript)
    requires ExonPlan(tx).Ok?
    ensures var segs := ExonPlan(tx).value;
      forall i, j :: 0 <= i < j < |segs| && segs[i].thick ==> segs[j].thick
  {
    var thin := PassSegments(tx, false, tx.exons).value;
    var thick := PassSegments(tx, true, tx.exons).value;
    var segs := ExonPlan(tx).value;
    assert segs == thin + thick;
    assert forall k :: 0 <= k < |thin| ==> segs[k] == thin[k];
    assert forall k :: |thin| <= k < |segs| ==> segs[k] == thick[k - |thin|];
  }

  /** Without a coding start each exon is drawn thin, whole, and nothing is
      drawn thick. */
  lemma {:induction false} NonCodingAllThin(tx: Transcript, exons: seq<(int, int)>)
    requires tx.codingStart.None?
    ensures PassSegments(tx, false, exons).Ok?
    ensures var segs := PassSegments(tx, false, exons).value;
      |segs| == |exons| && forall k :: 0 <= k < |exons| ==> segs[k] == Segment(false, exons[k].0, exons[k].1)
    ensures PassSegments(tx, true, exons) == Ok([])
  {
    if exons != [] {
      var init := exons[..|exons| - 1];
      NonCodingAllThin(tx, init);
      var prev := PassSegments(tx, false, init).value;
      var last := exons[|exons| - 1];
      assert PassSegments(tx, false, exons).value == prev + [Segment(false, last.0, last.1)];
      assert forall k :: 0 <= k < |init| ==> init[k] == exons[k];
    }
  }

  /** The two loops of `draw_interval` over the passes and the exons. */
  method ExonSegments(tx: Transcript) returns (r: Result<seq<Segment>>)
    ensures r == ExonPlan(tx)
  {
    var acc: seq<Segment> := [];
    var p := 0;
    while p < 2
      invariant 0 <= p <= 2
      invariant p == 0 ==> acc == []
      invariant p == 1 ==> PassSegments(tx, false, tx.exons) == Ok(acc)
      invariant p == 2 ==> ExonPlan(tx) == Ok(acc)
    {
      // the thin pass first, then the thick one
      var thick := p == 1;
      var done: seq<Segment> := [];
      var k := 0;
      while k < |tx.exons|
        invariant 0 <= k <= |tx.exons|
        invariant PassSegments(tx, thick, tx.exons[..k]) == Ok(done)
      {
        assert tx.exons[..k + 1][..k] == tx.exons[..k];
        assert tx.exons[..k + 1][k] == tx.exons[k];
        var seg := if thick then ThickSegment(tx, tx.exons[k]) else ThinSegment(tx, tx.exons[k]);
        if seg.Err? {
          if p == 1 {
            assert PassSegments(tx, true, tx.exons[..k + 1]).Err?;
            PassErrorSticks(tx, true, tx.exons, k + 1);
          } else {
            PassErrorSticks(tx, false, tx.exons, k + 1);
          }
          return Err(seg.error);
        }
        if seg.value.Some? {
          done := done + [Segment(thick, seg.value.value.0, seg.value.value.1)];
        }
        k := k + 1;
      }
      assert tx.exons[..k] == tx.exons;
      assert PassSegments(tx, thick, tx.exons) == Ok(done);
      assert p == 0 ==> acc + done == done;
      acc := acc + done;
      p := p + 1;
    }
    r := Ok(acc);
  }

  /** A pass that fails on a prefix fails on the whole list. */
  lemma {:induction false} PassErrorSticks(tx: Transcript, thick: bool, exons: seq<(int, int)>, n: nat)
    requires n <= |exons| && PassSegments(tx, thick, exons[..n]).Err?
    ensures PassSegments(tx, thick, exons).Err?
    decreases |exons| - n
  {
    if n < |exons| {
      assert exons[..n + 1][..n] == exons[..n];
      PassErrorSticks(tx, thick, exons, n + 1);
    } else {
      assert exons[..n] == exons;
    }
  }

  // ---------------------------------------------------------------------
  // Drawing one transcript

  const BedRowHeight: real := 12.0
  const ThickWidth: real := 12.0
  const ThinWidth: real := 5.0
  const ThinnestWidth: real := 1.0
  const MinExonWidth: real := 1.0
  /** Below this many pixels the generic interval drawing is used. */
  const DetailedFromPx: real := 12.0

  /** Fewer than twelve pixels: drawn as a plain interval. */
  predicate IsNarrow(bpp: real, tx: Transcript)
    requires bpp != 0.0
  {
    GenomeViews.RelPx(bpp, (tx.end - tx.start) as real) < DetailedFromPx
  }

  /** On a positive scale the fallback happens exactly for transcripts
      shorter than twelve pixels' worth of bases. */
  lemma NarrowInBases(bpp: real, tx: Transcript)
    requires bpp > 0.0
    ensures IsNarrow(bpp, tx) <==> (tx.end - tx.start) as real < DetailedFromPx * bpp
  {
    var size := (tx.end - tx.start) as real;
    var px := GenomeViews.RelPx(bpp, size);
    assert px * bpp == size;
    if px < DetailedFromPx {
      assert px * bpp < DetailedFromPx * bpp;
    } else {
      assert px * bpp >= DetailedFromPx * bpp;
    }
  }

  /** An exon rectangle's horizontal extent: the projected segment, or, when
      that is narrower than the minimum, the minimum width centred on the
      projected start. */
  function ExonSpan(s0: int, bpp: real, seg: Segment): (r: (real, real))
    requires bpp != 0.0
    ensures r.1 >= MinExonWidth
    ensures var x0, x1 := GenomeViews.ToPx(s0, bpp, seg.start as real), GenomeViews.ToPx(s0, bpp, seg.end as real);
      if x1 - x0 >= MinExonWidth then r == (x0, x1 - x0)
      else r.0 + r.1 / 2.0 == x0 && r.1 == MinExonWidth
  {
    var x0 := GenomeViews.ToPx(s0, bpp, seg.start as real);
    var x1 := GenomeViews.ToPx(s0, bpp, seg.end as real);
    if x1 - x0 < MinExonWidth then (x0 - MinExonWidth / 2.0, MinExonWidth) else (x0, x1 - x0)
  }

  datatype Rect = Rect(x: real, y: real, width: real, height: real, fill: string, id: string)
  datatype Connector = Connector(x1: real, x2: real, y: real, direction: string, color: string)
  datatype Label = Label(x: real, y: real, text: string)

  /** A plain interval (the generic drawing), or the connectors between
      exons, the exon rectangles and the label. */
  datatype BedDrawing =
    | Generic
    | Detailed(connectors: seq<Connector>, rects: seq<Rect>, caption: Option<Label>)

  /** The row's top, and the tops of the thin rectangles and the midline. */
  function RowTop(row: nat, marginY: real): real {
    row as real * (BedRowHeight + marginY)
  }

  function SegmentRect(s0: int, bpp: real, top: real, seg: Segment, color: string, id: string): (r: Rect)
    requires bpp != 0.0
    ensures r.width >= MinExonWidth && r.fill == color && r.id == id
    ensures r.height == (if seg.thick then ThickWidth else ThinWidth)
    ensures r.y + r.height / 2.0 == top + BedRowHeight / 2.0
  {
    var span := ExonSpan(s0, bpp, seg);
    if seg.thick then Rect(span.0, top, span.1, ThickWidth, color, id)
    else Rect(span.0, top + BedRowHeight / 2.0 - ThinWidth / 2.0, span.1, ThinWidth, color, id)
  }

  /** The lines between consecutive exons, on the midline, pointing right
      on the plus strand and left otherwise. */
  function Connectors(s0: int, bpp: real, midline: real, exons: seq<(int, int)>, strand: string, color: string): (cs: seq<Connector>)
    requires bpp != 0.0
    ensures |cs| == (if |exons| == 0 then 0 else |exons| - 1)
    ensures forall i :: 0 <= i < |cs| ==>
      && cs[i].x1 == GenomeViews.ToPx(s0, bpp, exons[i].1 as real)
      && cs[i].x2 == GenomeViews.ToPx(s0, bpp, exons[i + 1].0 as real)
      && cs[i].y == midline && cs[i].color == color
      && cs[i].direction == (if strand == "+" then "right" else "left")
  {
    var n := if |exons| == 0 then 0 else |exons| - 1;
    seq(n, i requires 0 <= i < n =>
      Connector(GenomeViews.ToPx(s0, bpp, exons[i].1 as real), GenomeViews.ToPx(s0, bpp, exons[i + 1].0 as real),
                midline, if strand == "+" then "right" else "left", color))
  }

  /** `BEDTrack.draw_interval`, given the scale's start and bases per pixel
      and the id-to-row map: a narrow transcript falls back to the generic
      drawing; otherwise the row must be known (KeyError), and the exon
      passes may raise TypeError. Rectangles carry the label, or the id
      when there is none. */
  function DrawLocus(s0: int, bpp: real, rowOf: map<string, nat>, marginY: real, labelDistance: real,
                     l: Locus): (r: Result<BedDrawing>)
    requires bpp != 0.0
    ensures IsNarrow(bpp, l.tx) ==> r == Ok(Generic)
    ensures !IsNarrow(bpp, l.tx) && l.interval.id !in rowOf ==> r == Err(KeyError)
    ensures !IsNarrow(bpp, l.tx) && l.interval.id in rowOf ==> (r.Ok? <==> ExonPlan(l.tx).Ok?)
    ensures r.Ok? && r.value.Detailed? ==>
      && |r.value.rects| == |ExonPlan(l.tx).value|
      && |r.value.connectors| == (if |l.tx.exons| == 0 then 0 else |l.tx.exons| - 1)
      && (forall k :: 0 <= k < |r.value.rects| ==>
            r.value.rects[k].width >= MinExonWidth
            && r.value.rects[k].fill == IntervalTracks.ColorByStrand(l.interval)
            && r.value.rects[k].id == l.interval.caption.GetOr(l.interval.id))
      && (r.value.caption.Some? <==> l.interval.caption.Some?)
    ensures r.Ok? && r.value.Detailed? ==>
      && l.interval.id in rowOf && ExonPlan(l.tx).Ok?
      && var top := RowTop(rowOf[l.interval.id], marginY);
         var color := IntervalTracks.ColorByStrand(l.interval);
         && (forall k :: 0 <= k < |r.value.rects| ==>
               r.value.rects[k] == SegmentRect(s0, bpp, top, ExonPlan(l.tx).value[k], color,
                                               l.interval.caption.GetOr(l.interval.id)))
         && r.value.connectors == Connectors(s0, bpp, top + BedRowHeight / 2.0 - ThinnestWidth / 2.0,
                                             l.tx.exons, l.interval.strand, color)
         && (r.value.caption.Some? ==>
               r.value.caption.value == Label(GenomeViews.ToPx(s0, bpp, l.interval.end as real) + labelDistance,
                                              top + BedRowHeight - 2.0, l.interval.caption.value))
  {
    if IsNarrow(bpp, l.tx) then Ok(Generic)
    else if l.interval.id !in rowOf then Err(KeyError)
    else
      var top := RowTop(rowOf[l.interval.id], marginY);
      var midline := top + BedRowHeight / 2.0 - ThinnestWidth / 2.0;
      var color := IntervalTracks.ColorByStrand(l.interval);
      var id := l.interval.caption.GetOr(l.interval.id);
      var connectors := Connectors(s0, bpp, midline, l.tx.exons, l.interval.strand, color);
      var segs :- ExonPlan(l.tx);
      var rects := seq(|segs|, k requires 0 <= k < |segs| => SegmentRect(s0, bpp, top, segs[k], color, id));
      var caption := if l.interval.caption.Some?
        then Some(Label(GenomeViews.ToPx(s0, bpp, l.interval.end as real) + labelDistance,
                        top + BedRowHeight - 2.0, l.interval.caption.value))
        else None;
      Ok(Detailed(connectors, rects, caption))
  }

  // ---------------------------------------------------------------------
  // The track

  /** `BEDTrack`: an interval track with 12-pixel rows whose intervals are
      the transcripts fetched for the scale's window. */
  class BedTrack {
    const track: IntervalTracks.IntervalTrack
    var drawLocusLabels: bool
    var includeLocus: Option<Transcript -> bool>
    /** What `__iter__` yields for the current window. */
    var loci: seq<Locus>

    ghost predicate Valid()
      reads this, track
    {
      track.Valid() && track.rowHeight == BedRowHeight
    }

    constructor (name: Option<string>)
      ensures Valid() && fresh(track)
      ensures track.rows == [] && track.intervalsToRows == map[] && track.scale == null
      ensures drawLocusLabels && includeLocus == None && loci == []
    {
      track := new IntervalTracks.IntervalTrack([], name, BedRowHeight);
      drawLocusLabels := true;
      includeLocus := None;
      loci := [];
    }

    /** `layout(scale)` over `fetched`, the transcripts the file yields for
        the scale's window: the filtered transcripts become the loci, and
        the interval layout places them. Their ids are distinct, so the
        layout always completes. */
    method Layout(s: GenomeViews.Scale, fetched: seq<Transcript>) returns (o: Outcome)
      requires Valid() && s.Valid() && s.HasWidth()
      modifies this, track, s
      ensures Valid() && track.Projecting() && track.scale == s
      ensures loci == Loci(Included(fetched, includeLocus), drawLocusLabels)
      ensures track.intervals == IntervalsOf(loci)
      ensures o == Pass
      ensures track.Placed([], map[], track.intervals, Pass)
      ensures track.height == IntervalTracks.TrackHeight(|track.rows|, track.rowHeight, track.marginY)
    {
      var txs := Included(fetched, includeLocus);
      LociFresh(txs, drawLocusLabels);
      loci := IterLoci(txs, drawLocusLabels);
      track.intervals := IntervalsOf(loci);
      ghost var none: map<string, nat> := map[];
      assert none.Keys == {};
      assert IntervalTracks.FirstClash(none.Keys, track.intervals) == |track.intervals|;
      o := track.Layout(s);
    }

    /** `draw_interval` on the laid-out track. */
    function Draw(l: Locus): (r: Result<BedDrawing>)
      reads this, track, track.scale
      requires Valid() && track.Projecting()
      ensures r == DrawLocus(track.scale.start, GenomeViews.BasesPerPixel(track.scale.end - track.scale.start, track.scale.pixelWidth.value),
                             track.intervalsToRows, track.marginY, track.labelDistance, l)
    {
      var sc := track.scale;
      DrawLocus(sc.start, GenomeViews.BasesPerPixel(sc.end - sc.start, sc.pixelWidth.value),
                track.intervalsToRows, track.marginY, track.labelDistance, l)
    }
  }

  /** After a layout every locus has a row, so drawing it never raises
      KeyError. */
  lemma LaidOutLociHaveRows(t: BedTrack, k: nat)
    requires t.Valid() && t.track.Projecting()
    requires t.track.intervals == IntervalsOf(t.loci) && t.track.Placed([], map[], t.track.intervals, Pass)
    requires k < |t.loci|
    ensures t.loci[k].interval.id in t.track.intervalsToRows
  {
    var ivs := t.track.intervals;
    assert ivs[k] == t.loci[k].interval;
    assert ivs[k].id in IntervalTracks.Ids(ivs);
  }
}

=== FILE: genomesource.dfy ===
/** Reference-genome lookup: the in-memory genome source and the reverse
    complement it applies to minus-strand requests. */
module GenomeSources {
  import opened Wrappers
  import opened PyText
  import Utilities

  /** The translation table `ATCGNatcgn -> TAGCNtagcn`; any other character
      is left as it is. */
  function Comp(c: char): char {
    match c
    case 'A' => 'T'
    case 'T' => 'A'
    case 'C' => 'G'
    case 'G' => 'C'
    case 'a' => 't'
    case 't' => 'a'
    case 'c' => 'g'
    case 'g' => 'c'
    case _ => c
  }

  lemma CompInvolution(c: char)
    ensures Comp(Comp(c)) == c
  {
  }

  function Reverse<T>(s: seq<T>): (r: seq<T>)
    ensures |r| == |s|
    ensures forall k :: 0 <= k < |s| ==> r[k] == s[|s| - 1 - k]
  {
    seq(|s|, k requires 0 <= k < |s| => s[|s| - 1 - k])
  }

  /** `reverse_comp`: the string reversed, then every character translated. */
  function ReverseComp(s: string): (r: string)
    ensures |r| == |s|
  {
    var rev := Reverse(s);
    seq(|rev|, k requires 0 <= k < |rev| => Comp(rev[k]))
  }

  /** Position `k` of the reverse complement is the complement of position
      `|s| - 1 - k` of the input. */
  lemma ReverseCompAt(s: string, k: int)
    requires 0 <= k < |s|
    ensures ReverseComp(s)[k] == Comp(s[|s| - 1 - k])
  {
  }

  /** Taking the reverse complement twice gives the input back. */
  lemma ReverseCompInvolution(s: string)
    ensures ReverseComp(ReverseComp(s)) == s
  {
    var r := ReverseComp(s);
    forall k | 0 <= k < |s|
      ensures ReverseComp(r)[k] == s[k]
    {
      ReverseCompAt(r, k);
      ReverseCompAt(s, |s| - 1 - k);
      CompInvolution(s[k]);
    }
  }

  /** An in-memory genome: contig names in insertion order, and their sequences. */
  datatype GenomeSource = GenomeSource(names: seq<string>, contigs: map<string, string>) {
    /** The ordered-dictionary shape: every name once, and exactly the keys. */
    ghost predicate Valid() {
      && (forall i, j :: 0 <= i < j < |names| ==> names[i] != names[j])
      && (forall n :: n in contigs <==> n in names)
    }

    /** `keys()`: the contig names in insertion order, each once. */
    function Keys(): (ks: seq<string>)
      requires Valid()
      ensures forall n :: n in ks <==> n in contigs
      ensures forall i, j :: 0 <= i < j < |ks| ==> ks[i] != ks[j]
    {
      names
    }

    /** `get_seq`: the name is reconciled with the keys, the contig is sliced
        with an inclusive end, and a minus-strand request is reverse
        complemented. An unknown contig raises KeyError. */
    function GetSeq(chrom: string, start: int, end: int, strand: string): (r: Result<string>)
      requires Valid()
      ensures r.Err? <==> Utilities.MatchChromFormat(chrom, names) !in contigs
      ensures r.Ok? ==> |r.value| <= |contigs[Utilities.MatchChromFormat(chrom, names)]|
    {
      var name := Utilities.MatchChromFormat(chrom, Keys());
      if name !in contigs then Err(KeyError)
      else
        var plus := Slice(contigs[name], start, end + 1);
        Ok(if strand == "-" then ReverseComp(plus) else plus)
    }
  }

  function FirstOfEach<A, B>(pairs: seq<(A, B)>): (r: seq<A>)
    ensures |r| == |pairs|
  {
    seq(|pairs|, i requires 0 <= i < |pairs| => pairs[i].0)
  }

  /** `OrderedDict(pairs)`: a later pair replaces the value of an earlier one
      with the same name but keeps its position. */
  function FromPairs(pairs: seq<(string, string)>): (g: GenomeSource)
    ensures g.Valid()
    ensures forall n :: n in g.contigs <==> n in FirstOfEach(pairs)
    ensures forall i :: 0 <= i < |g.names| ==> g.names[i] in FirstOfEach(pairs)
    ensures pairs != [] ==> pairs[|pairs| - 1].0 in g.contigs && g.contigs[pairs[|pairs| - 1].0] == pairs[|pairs| - 1].1
  {
    if pairs == [] then GenomeSource([], map[])
    else
      var g := FromPairs(pairs[..|pairs| - 1]);
      var (n, s) := pairs[|pairs| - 1];
      assert FirstOfEach(pairs) == FirstOfEach(pairs[..|pairs| - 1]) + [n];
      if n in g.contigs then GenomeSource(g.names, g.contigs[n := s])
      else GenomeSource(g.names + [n], g.contigs[n := s])
  }

  /** Where `x` first occurs in `s`. */
  function FirstIndex<A(==)>(s: seq<A>, x: A): (i: nat)
    requires x in s
    ensures i < |s| && s[i] == x && forall k :: 0 <= k < i ==> s[k] != x
  {
    if s[0] == x then 0 else 1 + FirstIndex(s[1..], x)
  }

  lemma FirstIndexSnoc<A>(s: seq<A>, x: A, y: A)
    requires x in s + [y]
    ensures x in s ==> FirstIndex(s + [y], x) == FirstIndex(s, x)
    ensures x !in s ==> FirstIndex(s + [y], x) == |s|
  {
    if x in s {
      var j := FirstIndex(s, x);
      assert (s + [y])[j] == x;
      var i := FirstIndex(s + [y], x);
      assert s[i] == (s + [y])[i];
    }
  }

  /** `names` are all among `ks`, listed in the order of their first
      occurrences there. */
  ghost predicate InFirstOccurrenceOrder(names: seq<string>, ks: seq<string>) {
    && (forall i :: 0 <= i < |names| ==> names[i] in ks)
    && (forall i, j :: 0 <= i < j < |names| ==> FirstIndex(ks, names[i]) < FirstIndex(ks, names[j]))
  }

  lemma OrderExtended(names: seq<string>, ks: seq<string>, n: string)
    requires InFirstOccurrenceOrder(names, ks)
    ensures InFirstOccurrenceOrder(names, ks + [n])
    ensures n !in ks ==> InFirstOccurrenceOrder(names + [n], ks + [n])
  {
    forall i | 0 <= i < |names|
      ensures FirstIndex(ks + [n], names[i]) == FirstIndex(ks, names[i]) < |ks|
    {
      FirstIndexSnoc(ks, names[i], n);
    }
    if n !in ks {
      FirstIndexSnoc(ks, n, n);
      var m := names + [n];
      forall i, j | 0 <= i < j < |m|
        ensures FirstIndex(ks + [n], m[i]) < FirstIndex(ks + [n], m[j])
      {
        assert m[i] == names[i];
        if j < |names| { assert m[j] == names[j]; }
      }
    }
  }

  /** `keys()` of `OrderedDict(pairs)` lists each name at the place of its
      first pair: two names come in the order of their first occurrences. */
  lemma {:induction false} FromPairsKeyOrder(pairs: seq<(string, string)>)
    ensures InFirstOccurrenceOrder(FromPairs(pairs).Keys(), FirstOfEach(pairs))
  {
    if pairs != [] {
      var init := pairs[..|pairs| - 1];
      var n := pairs[|pairs| - 1].0;
      FromPairsKeyOrder(init);
      assert FirstOfEach(pairs) == FirstOfEach(init) + [n];
      OrderExtended(FromPairs(init).names, FirstOfEach(init), n);
    }
  }

  /** Every name holds the sequence of its last pair. */
  lemma {:induction false} FromPairsLastWins(pairs: seq<(string, string)>, k: nat)
    requires k < |pairs| && forall l :: k < l < |pairs| ==> pairs[l].0 != pairs[k].0
    ensures pairs[k].0 in FromPairs(pairs).contigs && FromPairs(pairs).contigs[pairs[k].0] == pairs[k].1
  {
    if k < |pairs| - 1 {
      var init := pairs[..|pairs| - 1];
      assert pairs[k] == init[k];
      assert forall l :: k < l < |init| ==> init[l].0 != init[k].0 by {
        forall l | k < l < |init|
          ensures init[l].0 != init[k].0
        {
          assert init[l] == pairs[l];
        }
      }
      FromPairsLastWins(init, k);
      assert pairs[|pairs| - 1].0 != pairs[k].0;
    }
  }

  /** Within the contig, the plus strand is exactly the inclusive range
      `[start, end]`. */
  lemma {:induction false} GetSeqInclusive(g: GenomeSource, chrom: string, start: int, end: int, strand: string)
    requires g.Valid()
    requires chrom in g.contigs
    requires 0 <= start <= end < |g.contigs[chrom]|
    requires strand != "-"
    ensures g.GetSeq(chrom, start, end, strand) == Ok(g.contigs[chrom][start..end + 1])
    ensures |g.GetSeq(chrom, start, end, strand).value| == end - start + 1
  {
  }

  /** Past the end of the contig the slice is truncated. */
  lemma {:induction false} GetSeqTruncated(g: GenomeSource, chrom: string, start: int, end: int)
    requires g.Valid()
    requires chrom in g.contigs
    requires 0 <= start <= |g.contigs[chrom]| <= end
    ensures g.GetSeq(chrom, start, end, "+") == Ok(g.contigs[chrom][start..])
  {
    var c := g.contigs[chrom];
    assert SliceBound(end + 1, |c|) == |c|;
    assert Slice(c, start, end + 1) == c[start..];
  }

  /** The minus strand is the reverse complement of the plus strand. */
  lemma {:induction false} GetSeqMinusStrand(g: GenomeSource, chrom: string, start: int, end: int)
    requires g.Valid()
    ensures g.GetSeq(chrom, start, end, "-").Ok? <==> g.GetSeq(chrom, start, end, "+").Ok?
    ensures g.GetSeq(chrom, start, end, "-").Ok? ==>
      g.GetSeq(chrom, start, end, "-").value == ReverseComp(g.GetSeq(chrom, start, end, "+").value)
      && ReverseComp(g.GetSeq(chrom, start, end, "-").value) == g.GetSeq(chrom, start, end, "+").value
  {
    if g.GetSeq(chrom, start, end, "+").Ok? {
      ReverseCompInvolution(g.GetSeq(chrom, start, end, "+").value);
    }
  }
}

=== FILE: genomeview.dfy ===
/** The coordinate scale of one genome view and the layout arithmetic of the
    views, view rows and the document that stack them on the page. */
module GenomeViews {
  import opened Wrappers
  import opened PyText
  import GenomeSources
  import Svg
  import Sequences

  // ---------------------------------------------------------------------
  // The scale's caches, as a value

  /** The attributes `_setup` and `get_seq` read and write: the width the
      view last set, the width `_setup` last accepted (`_param`), the derived
      `bases_per_pixel` (None while the attribute does not exist yet) and the
      cached window sequence. */
  datatype ScaleCache = ScaleCache(pixelWidth: Option<real>, param: Option<real>,
                                   basesPerPixel: Option<real>, window: Option<string>)

  function BasesPerPixel(ntWidth: int, w: real): (bpp: real)
    requires w != 0.0
    ensures bpp * w == ntWidth as real
    ensures ntWidth > 0 && w > 0.0 ==> bpp > 0.0
  {
    ntWidth as real / w
  }

  /** Whenever `_param` holds a usable width, `bases_per_pixel` was derived
      from it. */
  ghost predicate CacheConsistent(c: ScaleCache, ntWidth: int) {
    c.param.Some? && c.param.value != 0.0 ==> c.basesPerPixel == Some(BasesPerPixel(ntWidth, c.param.value))
  }

  /** `_setup`: nothing happens while the width is the one last seen.
      Otherwise the width is recorded and the sequence cache dropped before
      the division, so a missing width (TypeError) or a zero width
      (ZeroDivisionError) leaves `bases_per_pixel` as it was. */
  function AfterSetup(c: ScaleCache, ntWidth: int): (r: (Outcome, ScaleCache))
    ensures r.1.pixelWidth == c.pixelWidth && r.1.param == c.pixelWidth
    ensures CacheConsistent(c, ntWidth) ==> CacheConsistent(r.1, ntWidth)
    ensures r.0.Fail? ==> r.1.basesPerPixel == c.basesPerPixel
  {
    if c.param == c.pixelWidth then (Pass, c)
    else
      var c1 := c.(param := c.pixelWidth, window := None);
      match c.pixelWidth
      case None => (Fail(TypeError), c1)
      case Some(w) =>
        if w == 0.0 then (Fail(ZeroDivisionError), c1)
        else (Pass, c1.(basesPerPixel := Some(BasesPerPixel(ntWidth, w))))
  }

  /** `_setup` twice is `_setup` once: the second call always passes and
      changes nothing. */
  lemma SetupIdempotent(c: ScaleCache, ntWidth: int)
    ensures AfterSetup(AfterSetup(c, ntWidth).1, ntWidth) == (Pass, AfterSetup(c, ntWidth).1)
  {
  }

  /** The cached sequence survives `_setup` exactly when the width is the
      one last seen. */
  lemma SetupInvalidation(c: ScaleCache, ntWidth: int)
    ensures c.param == c.pixelWidth ==> AfterSetup(c, ntWidth) == (Pass, c)
    ensures c.param != c.pixelWidth ==> AfterSetup(c, ntWidth).1.window == None
  {
  }

  /** A failed `_setup` still records the width, so the next call skips the
      division and keeps whatever `bases_per_pixel` was there before. */
  lemma SetupFailureIsNotRetried(c: ScaleCache, ntWidth: int)
    requires c.param != c.pixelWidth
    requires c.pixelWidth.None? || c.pixelWidth == Some(0.0)
    ensures AfterSetup(c, ntWidth).0.Fail?
    ensures var c1 := AfterSetup(c, ntWidth).1;
      AfterSetup(c1, ntWidth) == (Pass, c1) && c1.basesPerPixel == c.basesPerPixel
  {
  }

  // ---------------------------------------------------------------------
  // The projection

  /** `topixels` once `bases_per_pixel` is known. */
  function ToPx(start: int, bpp: real, pos: real): (px: real)
    requires bpp != 0.0
    ensures px * bpp == pos - start as real
    ensures pos == start as real ==> px == 0.0
  {
    (pos - start as real) / bpp
  }

  /** `relpixels` once `bases_per_pixel` is known. */
  function RelPx(bpp: real, size: real): (px: real)
    requires bpp != 0.0
    ensures px * bpp == size
  {
    size / bpp
  }

  lemma {:induction false} DivCancel(d: real, w: real)
    requires d != 0.0 && w != 0.0
    ensures d / (d / w) == w
  {
    var b := d / w;
    assert b * w == d;
    assert b != 0.0;
    assert (w * b) / b == w;
  }

  /** The window's first base sits at pixel 0 and its end at the full width. */
  lemma {:induction false} ProjectionEnds(start: int, end: int, w: real)
    requires start < end && w != 0.0
    ensures ToPx(start, BasesPerPixel(end - start, w), start as real) == 0.0
    ensures ToPx(start, BasesPerPixel(end - start, w), end as real) == w
  {
    DivCancel((end - start) as real, w);
  }

  /** On a positive width the projection is strictly increasing. */
  lemma {:induction false} ProjectionIncreasing(start: int, end: int, w: real, a: real, b: real)
    requires start < end && w > 0.0 && a < b
    ensures ToPx(start, BasesPerPixel(end - start, w), a) < ToPx(start, BasesPerPixel(end - start, w), b)
  {
    var bpp := BasesPerPixel(end - start, w);
    assert bpp > 0.0;
    var pa, pb := ToPx(start, bpp, a), ToPx(start, bpp, b);
    assert pa * bpp == a - start as real;
    assert pb * bpp == b - start as real;
    assert (pb - pa) * bpp == b - a;
  }

  /** The distance between two projected positions is the projected length. */
  lemma {:induction false} ProjectionDifference(start: int, bpp: real, a: real, b: real)
    requires bpp != 0.0
    ensures ToPx(start, bpp, b) - ToPx(start, bpp, a) == RelPx(bpp, b - a)
  {
    var pa, pb := ToPx(start, bpp, a), ToPx(start, bpp, b);
    assert pa * bpp == a - start as real;
    assert pb * bpp == b - start as real;
    assert (pb - pa) * bpp == b - a;
    assert RelPx(bpp, b - a) * bpp == b - a;
  }

  /** `topixels`: `_setup`, then the division by `bases_per_pixel`, which
      raises AttributeError while that attribute does not exist. */
  function AfterToPixels(c: ScaleCache, start: int, end: int, pos: real): (r: (Result<real>, ScaleCache))
    ensures r.1 == AfterSetup(c, end - start).1
  {
    var (o, c1) := AfterSetup(c, end - start);
    if o.Fail? then (Err(o.error), c1)
    else match c1.basesPerPixel
      case None => (Err(AttributeError), c1)
      case Some(b) => if b == 0.0 then (Err(ZeroDivisionError), c1) else (Ok(ToPx(start, b, pos)), c1)
  }

  /** `relpixels`: as `topixels`, for a length. */
  function AfterRelPixels(c: ScaleCache, start: int, end: int, size: real): (r: (Result<real>, ScaleCache))
    ensures r.1 == AfterSetup(c, end - start).1
  {
    var (o, c1) := AfterSetup(c, end - start);
    if o.Fail? then (Err(o.error), c1)
    else match c1.basesPerPixel
      case None => (Err(AttributeError), c1)
      case Some(b) => if b == 0.0 then (Err(ZeroDivisionError), c1) else (Ok(RelPx(b, size)), c1)
  }

  /** On a scale whose view has set a non-zero width, `topixels` and
      `relpixels` are the linear map for that width, whatever `_setup` had
      seen before. */
  lemma {:induction false} PixelsOnWidth(c: ScaleCache, start: int, end: int, w: real, pos: real)
    requires start < end && CacheConsistent(c, end - start)
    requires c.pixelWidth == Some(w) && w != 0.0
    ensures AfterToPixels(c, start, end, pos).0 == Ok(ToPx(start, BasesPerPixel(end - start, w), pos))
    ensures AfterRelPixels(c, start, end, pos).0 == Ok(RelPx(BasesPerPixel(end - start, w), pos))
    ensures AfterSetup(c, end - start).1.param == Some(w)
  {
    assert BasesPerPixel(end - start, w) != 0.0;
  }

  // ---------------------------------------------------------------------
  // The sequence cache

  /** `get_seq`: `_setup`, the source and bounds assertions (the bounds
      default to the window), the window fetched on the scale's own strand
      and upper-cased once, then sliced; a requested strand other than the
      scale's raises, after the cache is filled. */
  function AfterGetSeq(c: ScaleCache, chrom: string, start: int, end: int, strand: string,
                       source: Option<GenomeSources.GenomeSource>,
                       qstart: Option<int>, qend: Option<int>, qstrand: string): (r: (Result<string>, ScaleCache))
    requires source.Some? ==> source.value.Valid()
    ensures r.1.pixelWidth == c.pixelWidth && r.1.param == c.pixelWidth
    ensures r.0.Ok? ==> r.1.window.Some? && qstrand == strand
  {
    var (o, c1) := AfterSetup(c, end - start);
    if o.Fail? then (Err(o.error), c1)
    else AfterFetch(c1, chrom, start, end, strand, source, qstart, qend, qstrand)
  }

  /** The window `get_seq` works on: the cached one, or else the source's
      sequence for the whole window, upper-cased. */
  function CachedWindow(c1: ScaleCache, chrom: string, start: int, end: int, strand: string,
                        source: GenomeSources.GenomeSource): (r: Result<string>)
    requires source.Valid()
  {
    if c1.window.Some? then Ok(c1.window.value)
    else match source.GetSeq(chrom, start, end, strand)
      case Ok(v) => Ok(Upper(v))
      case Err(err) => Err(err)
  }

  /** The part of `get_seq` after `_setup` has passed. */
  function AfterFetch(c1: ScaleCache, chrom: string, start: int, end: int, strand: string,
                      source: Option<GenomeSources.GenomeSource>,
                      qstart: Option<int>, qend: Option<int>, qstrand: string): (r: (Result<string>, ScaleCache))
    requires source.Some? ==> source.value.Valid()
    ensures r.1 == c1 || r.1 == c1.(window := r.1.window)
    ensures c1.window.Some? ==> r.1 == c1
    ensures r.0.Ok? ==> r.1.window.Some? && qstrand == strand
  {
    if source.None? then (Err(AssertionError), c1)
    else
      var s := qstart.GetOr(start);
      var e := qend.GetOr(end);
      if !(s >= start) || !(e <= end) then (Err(AssertionError), c1)
      else
        var fetched := CachedWindow(c1, chrom, start, end, strand, source.value);
        if fetched.Err? then (Err(fetched.error), c1)
        else
          var c2 := c1.(window := Some(fetched.value));
          if qstrand != strand then (Err(Failed), c2)
          else (Ok(Slice(fetched.value, s - start, e - start)), c2)
  }

  /** The assertions of `get_seq` after `_setup`: AssertionError exactly
      when there is no source or the requested range, which defaults to the
      whole window, leaves the window, and then the cache is untouched. A
      success is the requested range of the cached window. */
  lemma FetchChecks(c1: ScaleCache, chrom: string, start: int, end: int, strand: string,
                    source: Option<GenomeSources.GenomeSource>,
                    qstart: Option<int>, qend: Option<int>, qstrand: string)
    requires source.Some? ==> source.value.Valid()
    ensures var r := AfterFetch(c1, chrom, start, end, strand, source, qstart, qend, qstrand);
      && (r.0 == Err(AssertionError) <==> (source.None? || qstart.GetOr(start) < start || qend.GetOr(end) > end))
      && (r.0 == Err(AssertionError) ==> r.1 == c1)
      && (r.0.Ok? ==> source.Some? && r.1.window.Some?
                      && r.0.value == Slice(r.1.window.value, qstart.GetOr(start) - start, qend.GetOr(end) - start))
  {
  }

  /** The same for the whole of `get_seq`, once `_setup` has passed; a
      `_setup` failure is never an AssertionError. */
  lemma GetSeqChecks(c: ScaleCache, chrom: string, start: int, end: int, strand: string,
                     source: Option<GenomeSources.GenomeSource>,
                     qstart: Option<int>, qend: Option<int>, qstrand: string)
    requires source.Some? ==> source.value.Valid()
    ensures var r := AfterGetSeq(c, chrom, start, end, strand, source, qstart, qend, qstrand);
      && (r.0 == Err(AssertionError) <==>
            (AfterSetup(c, end - start).0.Pass? && (source.None? || qstart.GetOr(start) < start || qend.GetOr(end) > end)))
      && (r.0.Ok? ==> AfterSetup(c, end - start).0.Pass? && source.Some? && r.1.window.Some?
                      && r.0.value == Slice(r.1.window.value, qstart.GetOr(start) - start, qend.GetOr(end) - start))
  {
    FetchChecks(AfterSetup(c, end - start).1, chrom, start, end, strand, source, qstart, qend, qstrand);
  }

  /** Once the window is cached and the width has not changed, the source is
      not consulted again: any two sources give the same answer, a slice of
      the cache. */
  lemma {:induction false} GetSeqUsesCache(c: ScaleCache, chrom: string, start: int, end: int, strand: string,
                                           g1: GenomeSources.GenomeSource, g2: GenomeSources.GenomeSource,
                                           qstart: Option<int>, qend: Option<int>, qstrand: string)
    requires g1.Valid() && g2.Valid()
    requires c.param == c.pixelWidth && c.window.Some?
    ensures AfterGetSeq(c, chrom, start, end, strand, Some(g1), qstart, qend, qstrand)
         == AfterGetSeq(c, chrom, start, end, strand, Some(g2), qstart, qend, qstrand)
    ensures var r := AfterGetSeq(c, chrom, start, end, strand, Some(g1), qstart, qend, qstrand);
      r.1 == c && (r.0.Ok? ==> r.0.value == Slice(c.window.value, qstart.GetOr(start) - start, qend.GetOr(end) - start))
  {
  }

  /** On a fresh cache and a contig that holds the window, the sequence of a
      sub-range is that range of the contig, upper-cased; the cache keeps the
      window with its extra base past `end` (the source's inclusive end). */
  lemma {:induction false} GetSeqWindow(c: ScaleCache, start: int, end: int, strand: string,
                                        g: GenomeSources.GenomeSource, chrom: string, s: int, e: int)
    requires g.Valid() && chrom in g.contigs
    requires c.window.None? && AfterSetup(c, end - start).0.Pass?
    requires 0 <= start <= s <= e <= end < |g.contigs[chrom]|
    requires strand != "-"
    ensures var r := AfterGetSeq(c, chrom, start, end, strand, Some(g), Some(s), Some(e), strand);
      && r.0 == Ok(Upper(g.contigs[chrom][s..e]))
      && r.1.window == Some(Upper(g.contigs[chrom][start..end + 1]))
  {
    GenomeSources.GetSeqInclusive(g, chrom, start, end, strand);
    var contig := g.contigs[chrom];
    var window := Upper(contig[start..end + 1]);
    var c1 := AfterSetup(c, end - start).1;
    assert c1.window.None?;
    assert AfterGetSeq(c, chrom, start, end, strand, Some(g), Some(s), Some(e), strand)
        == AfterFetch(c1, chrom, start, end, strand, Some(g), Some(s), Some(e), strand);
    assert Slice(window, s - start, e - start) == window[s - start..e - start];
    assert window[s - start..e - start] == Upper(contig[s..e]) by {
      assert forall k :: 0 <= k < e - s ==> contig[start..end + 1][s - start + k] == contig[s..e][k];
    }
  }

  /** Asking for the other strand raises, but the window is cached first. */
  lemma {:induction false} GetSeqStrandMismatch(c: ScaleCache, start: int, end: int, strand: string,
                                                g: GenomeSources.GenomeSource, chrom: string, qstrand: string)
    requires g.Valid() && chrom in g.contigs && qstrand != strand
    requires c.window.None? && AfterSetup(c, end - start).0.Pass?
    ensures var r := AfterGetSeq(c, chrom, start, end, strand, Some(g), None, None, qstrand);
      r.0 == Err(Failed) && r.1.window.Some?
  {
  }

  /** `Scale`: a genomic window `chrom:start-end` and the caches that map it
      onto the width its view gives it. */
  class Scale {
    const chrom: string
    const start: int
    const end: int
    const strand: string
    const source: Option<GenomeSources.GenomeSource>
    var pixelWidth: Option<real>
    var param: Option<real>
    var basesPerPixel: Option<real>
    var seqCache: Option<string>

    function Cache(): ScaleCache
      reads this
    {
      ScaleCache(pixelWidth, param, basesPerPixel, seqCache)
    }

    ghost predicate Valid()
      reads this
    {
      && start < end
      && (source.Some? ==> source.value.Valid())
      && CacheConsistent(Cache(), end - start)
    }

    /** A width the projection can divide by has been set. */
    predicate HasWidth()
      reads this
    {
      pixelWidth.Some? && pixelWidth.value != 0.0
    }

    /** The linear map for the width the view has set. */
    function Px(pos: real): real
      reads this
      requires Valid() && HasWidth()
    {
      ToPx(start, BasesPerPixel(end - start, pixelWidth.value), pos)
    }

    /** `Scale(chrom, start, end, strand, source)` once the window check has
        passed; see `Create` for the check itself. */
    constructor (chrom: string, start: int, end: int, strand: string, source: Option<GenomeSources.GenomeSource>)
      requires start < end
      requires source.Some? ==> source.value.Valid()
      ensures Valid()
      ensures this.chrom == chrom && this.start == start && this.end == end
      ensures this.strand == strand && this.source == source
      ensures Cache() == ScaleCache(None, None, None, None)
    {
      this.chrom, this.start, this.end, this.strand, this.source := chrom, start, end, strand, source;
      pixelWidth, param, basesPerPixel, seqCache := None, None, None, None;
    }

    /** The constructor raises ValueError unless `start < end`. */
    static method Create(chrom: string, start: int, end: int, strand: string, source: Option<GenomeSources.GenomeSource>)
      returns (r: Result<Scale>)
      requires source.Some? ==> source.value.Valid()
      ensures r.Err? <==> start >= end
      ensures r.Err? ==> r.error == ValueError
      ensures r.Ok? ==> fresh(r.value) && r.value.Valid() && r.value.start == start && r.value.end == end
                        && r.value.chrom == chrom && r.value.Cache() == ScaleCache(None, None, None, None)
    {
      if start >= end {
        return Err(ValueError);
      }
      var s := new Scale(chrom, start, end, strand, source);
      r := Ok(s);
    }

    /** The view's write `scale.pixel_width = width`. */
    method SetPixelWidth(w: real)
      requires Valid()
      modifies this
      ensures Valid()
      ensures Cache() == old(Cache()).(pixelWidth := Some(w))
    {
      pixelWidth := Some(w);
    }

    method Setup() returns (o: Outcome)
      requires Valid()
      modifies this
      ensures Valid()
      ensures (o, Cache()) == AfterSetup(old(Cache()), end - start)
    {
      if param == pixelWidth {
        return Pass;
      }
      param := pixelWidth;
      seqCache := None;
      if pixelWidth.None? {
        return Fail(TypeError);
      }
      if pixelWidth.value == 0.0 {
        return Fail(ZeroDivisionError);
      }
      basesPerPixel := Some(BasesPerPixel(end - start, pixelWidth.value));
      o := Pass;
    }

    method ToPixels(pos: real) returns (r: Result<real>)
      requires Valid()
      modifies this
      ensures Valid()
      ensures (r, Cache()) == AfterToPixels(old(Cache()), start, end, pos)
      ensures old(HasWidth()) ==> HasWidth() && pixelWidth == old(pixelWidth) && r == Ok(Px(pos))
    {
      if old(HasWidth()) {
        PixelsOnWidth(Cache(), start, end, pixelWidth.value, pos);
      }
      var o := Setup();
      if o.Fail? {
        return Err(o.error);
      }
      if basesPerPixel.None? {
        return Err(AttributeError);
      }
      if basesPerPixel.value == 0.0 {
        return Err(ZeroDivisionError);
      }
      r := Ok(ToPx(start, basesPerPixel.value, pos));
    }

    method RelPixels(size: real) returns (r: Result<real>)
      requires Valid()
      modifies this
      ensures Valid()
      ensures (r, Cache()) == AfterRelPixels(old(Cache()), start, end, size)
      ensures old(HasWidth()) ==> HasWidth() && pixelWidth == old(pixelWidth)
                                  && r == Ok(RelPx(BasesPerPixel(end - start, pixelWidth.value), size))
    {
      if old(HasWidth()) {
        PixelsOnWidth(Cache(), start, end, pixelWidth.value, size);
      }
      var o := Setup();
      if o.Fail? {
        return Err(o.error);
      }
      if basesPerPixel.None? {
        return Err(AttributeError);
      }
      if basesPerPixel.value == 0.0 {
        return Err(ZeroDivisionError);
      }
      r := Ok(RelPx(basesPerPixel.value, size));
    }

    method GetSeq(qstart: Option<int>, qend: Option<int>, qstrand: string) returns (r: Result<string>)
      requires Valid()
      modifies this
      ensures Valid()
      ensures (r, Cache()) == AfterGetSeq(old(Cache()), chrom, start, end, strand, source, qstart, qend, qstrand)
    {
      var o := Setup();
      if o.Fail? {
        return Err(o.error);
      }
      r := Fetch(qstart, qend, qstrand);
    }

    /** `get_seq` once `_setup` has passed: the cache is filled on first use. */
    method Fetch(qstart: Option<int>, qend: Option<int>, qstrand: string) returns (r: Result<string>)
      requires Valid()
      modifies this
      ensures Valid()
      ensures (r, Cache()) == AfterFetch(old(Cache()), chrom, start, end, strand, source, qstart, qend, qstrand)
    {
      if source.None? {
        return Err(AssertionError);
      }
      var s := qstart.GetOr(start);
      var e := qend.GetOr(end);
      if !(s >= start) || !(e <= end) {
        return Err(AssertionError);
      }
      var w := LoadWindow();
      if w.Err? {
        return Err(w.error);
      }
      var cur := Slice(w.value, s - start, e - start);
      if qstrand != strand {
        return Err(Failed);
      }
      r := Ok(cur);
    }

    /** `self._seq`, read from the source on first use. */
    method LoadWindow() returns (w: Result<string>)
      requires Valid() && source.Some?
      modifies this
      ensures Valid()
      ensures w == CachedWindow(old(Cache()), chrom, start, end, strand, source.value)
      ensures Cache() == if w.Ok? then old(Cache()).(window := Some(w.value)) else old(Cache())
    {
      if seqCache.None? {
        var fetched := source.value.GetSeq(chrom, start, end, strand);
        if fetched.Err? {
          return Err(fetched.error);
        }
        seqCache := Some(Upper(fetched.value));
      }
      w := Ok(seqCache.value);
    }
  }

  // ---------------------------------------------------------------------
  // Stacking and splitting

  /** Σ (h + gap) over the heights. */
  function SumPlus(hs: seq<real>, gap: real): real {
    if hs == [] then 0.0 else SumPlus(hs[..|hs| - 1], gap) + hs[|hs| - 1] + gap
  }

  function Sum(hs: seq<real>): real {
    if hs == [] then 0.0 else hs[0] + Sum(hs[1..])
  }

  lemma {:induction false} SumSnoc(hs: seq<real>, h: real)
    ensures Sum(hs + [h]) == Sum(hs) + h
  {
    if hs != [] {
      assert (hs + [h])[1..] == hs[1..] + [h];
      SumSnoc(hs[1..], h);
    }
  }

  /** Σ (h + gap) is the plain sum plus one gap per height. */
  lemma {:induction false} SumPlusClosedForm(hs: seq<real>, gap: real)
    ensures SumPlus(hs, gap) == Sum(hs) + |hs| as real * gap
  {
    if hs != [] {
      var init := hs[..|hs| - 1];
      SumPlusClosedForm(init, gap);
      SumSnoc(init, hs[|hs| - 1]);
      assert init + [hs[|hs| - 1]] == hs;
    }
  }

  /** The tracks of a view, as `get_tracks` reports them. */
  datatype TrackRef = TrackRef(id: nat, name: Option<string>)

  /** Anything a document or a view row may hold: a genome view, a nested
      row, or an element with no `get_tracks`. */
  datatype Element = ViewElement(tracks: seq<TrackRef>) | RowElement(views: seq<Element>) | OtherElement

  predicate NameMatches(t: TrackRef, name: Option<string>) {
    name.None? || t.name == name
  }

  /** `GenomeView.get_tracks`: the tracks with the given name, all of them
      when no name is given, in order. */
  function MatchingTracks(ts: seq<TrackRef>, name: Option<string>): (r: seq<TrackRef>)
    ensures |r| <= |ts|
    ensures forall t :: t in r <==> t in ts && NameMatches(t, name)
  {
    if ts == [] then []
    else
      var init := ts[..|ts| - 1];
      assert forall t :: t in ts <==> t in init || t == ts[|ts| - 1];
      MatchingTracks(init, name) + (if NameMatches(ts[|ts| - 1], name) then [ts[|ts| - 1]] else [])
  }

  /** The matching tracks are `[t for t in tracks if matches(t)]`: in the
      view's order, each once. */
  lemma {:induction false} MatchingTracksInOrder(ts: seq<TrackRef>, name: Option<string>)
    ensures MatchingTracks(ts, name) == Sequences.Filter(ts, t => NameMatches(t, name))
  {
    if ts != [] {
      var init := ts[..|ts| - 1];
      var matches := t => NameMatches(t, name);
      MatchingTracksInOrder(init, name);
      assert ts == init + [ts[|ts| - 1]];
      Sequences.FilterSnoc(init, ts[|ts| - 1], matches);
      if !NameMatches(ts[|ts| - 1], name) {
        assert Sequences.Filter(ts, matches) == Sequences.Filter(init, matches) + [];
      }
    }
  }

  /** `get_tracks` on one element; AttributeError when it has none. */
  function TracksOf(e: Element, name: Option<string>): (r: Result<seq<TrackRef>>)
    ensures r.Err? <==> e.OtherElement?
    ensures r.Ok? ==> forall t :: t in r.value ==> NameMatches(t, name)
    decreases e, 1
  {
    match e
    case ViewElement(ts) => Ok(MatchingTracks(ts, name))
    case RowElement(vs) => Ok(TracksOfAll(vs, name))
    case OtherElement => Err(AttributeError)
  }

  /** `Document.get_tracks` and `ViewRow.get_tracks`: the elements' tracks
      concatenated, skipping elements without `get_tracks`. */
  function TracksOfAll(es: seq<Element>, name: Option<string>): (r: seq<TrackRef>)
    ensures forall t :: t in r ==> NameMatches(t, name)
    decreases es, 0
  {
    if es == [] then []
    else
      var first := TracksOf(es[0], name);
      (if first.Ok? then first.value else []) + TracksOfAll(es[1..], name)
  }

  /** Every track anywhere under the elements, by a plain walk. */
  ghost predicate Holds(es: seq<Element>, t: TrackRef)
    decreases es
  {
    exists i :: 0 <= i < |es| && match es[i]
      case ViewElement(ts) => t in ts
      case RowElement(vs) => Holds(vs, t)
      case OtherElement => false
  }

  /** `TracksOfAllComplete` for every track at once. */
  lemma TracksOfAllMembers(es: seq<Element>, name: Option<string>)
    ensures forall t :: t in TracksOfAll(es, name) <==> Holds(es, t) && NameMatches(t, name)
  {
    forall t
      ensures t in TracksOfAll(es, name) <==> Holds(es, t) && NameMatches(t, name)
    {
      TracksOfAllComplete(es, name, t);
    }
  }

  /** A track is reported exactly when it sits somewhere under the elements
      and its name matches. */
  lemma {:induction false} TracksOfAllComplete(es: seq<Element>, name: Option<string>, t: TrackRef)
    ensures t in TracksOfAll(es, name) <==> Holds(es, t) && NameMatches(t, name)
    decreases es
  {
    if es != [] {
      TracksOfAllComplete(es[1..], name, t);
      if es[0].RowElement? {
        TracksOfAllComplete(es[0].views, name, t);
      }
      if Holds(es, t) {
        var i :| 0 <= i < |es| && match es[i]
          case ViewElement(ts) => t in ts
          case RowElement(vs) => Holds(vs, t)
          case OtherElement => false;
        if i > 0 {
          assert es[1..][i - 1] == es[i];
        }
      }
      if Holds(es[1..], t) {
        var i :| 0 <= i < |es[1..]| && match es[1..][i]
          case ViewElement(ts) => t in ts
          case RowElement(vs) => Holds(vs, t)
          case OtherElement => false;
        assert es[i + 1] == es[1..][i];
      }
    }
  }

  /** `GenomeView`: its tracks stacked vertically on one scale. */
  class GenomeView {
    const name: Option<string>
    const tracks: seq<TrackRef>
    const scale: Scale
    const marginY: real
    var pixelWidth: Option<real>
    var height: real

    constructor (name: Option<string>, tracks: seq<TrackRef>, scale: Scale)
      ensures this.name == name && this.tracks == tracks && this.scale == scale
      ensures marginY == 10.0 && pixelWidth.None? && height == 0.0
    {
      this.name, this.tracks, this.scale, this.marginY := name, tracks, scale, 10.0;
      pixelWidth, height := None, 0.0;
    }

    function GetTracks(name: Option<string>): (r: seq<TrackRef>)
      ensures forall t :: t in r <==> t in tracks && NameMatches(t, name)
    {
      MatchingTracks(tracks, name)
    }

    /** `layout(width)`: the width goes to the view and its scale; `heights`
        are what the tracks report after laying themselves out on it. */
    method Layout(width: real, heights: seq<real>)
      requires scale.Valid() && |heights| == |tracks|
      modifies this, scale
      ensures scale.Valid()
      ensures pixelWidth == Some(width)
      ensures scale.Cache() == old(scale.Cache()).(pixelWidth := Some(width))
      ensures height == SumPlus(heights, marginY)
      ensures height == Sum(heights) + |tracks| as real * marginY
    {
      pixelWidth := Some(width);
      scale.SetPixelWidth(width);
      height := 0.0;
      var i := 0;
      while i < |heights|
        invariant 0 <= i <= |heights|
        invariant height == SumPlus(heights[..i], marginY)
        invariant pixelWidth == Some(width) && scale.Valid()
        invariant scale.Cache() == old(scale.Cache()).(pixelWidth := Some(width))
      {
        assert heights[..i + 1][..i] == heights[..i];
        height := height + heights[i] + marginY;
        i := i + 1;
      }
      assert heights[..i] == heights;
      SumPlusClosedForm(heights, marginY);
    }

    /** `render(renderer)`: one sub-renderer per track, each as tall as its
        track and `margin_y` below the previous one. `ids` are the values the
        renderer counter hands out. */
    method Render(renderer: Svg.Renderer, heights: seq<real>, ids: seq<nat>) returns (r: Result<seq<Svg.Renderer>>)
      requires |heights| == |tracks| && |ids| == |tracks|
      ensures r.Ok? <==> forall i :: 0 <= i < |heights| ==> heights[i] <= renderer.height
      ensures r.Err? ==> r.error == AssertionError
      ensures r.Ok? ==> |r.value| == |heights| && forall i :: 0 <= i < |heights| ==>
        r.value[i] == Svg.Renderer(renderer.x, renderer.y + SumPlus(heights[..i], marginY), renderer.width, heights[i], ids[i])
    {
      var placed: seq<Svg.Renderer> := [];
      var cury := 0.0;
      var i := 0;
      while i < |heights|
        invariant 0 <= i <= |heights|
        invariant cury == SumPlus(heights[..i], marginY)
        invariant forall j :: 0 <= j < i ==> heights[j] <= renderer.height
        invariant |placed| == i && forall j :: 0 <= j < i ==>
          placed[j] == Svg.Renderer(renderer.x, renderer.y + SumPlus(heights[..j], marginY), renderer.width, heights[j], ids[j])
      {
        var sub := Svg.Subrenderer(renderer, 0.0, cury, None, Some(heights[i]), ids[i]);
        if sub.Err? {
          assert !(heights[i] <= renderer.height);
          return Err(sub.error);
        }
        placed := placed + [sub.value];
        assert heights[..i + 1][..i] == heights[..i];
        cury := cury + heights[i] + marginY;
        i := i + 1;
      }
      r := Ok(placed);
    }
  }

  /** The largest height, and 0 for none. */
  function MaxHeight(hs: seq<real>): (m: real)
    ensures m >= 0.0
    ensures forall i :: 0 <= i < |hs| ==> hs[i] <= m
    ensures m == 0.0 || exists i :: 0 <= i < |hs| && hs[i] == m
  {
    if hs == [] then 0.0
    else
      var m := MaxHeight(hs[..|hs| - 1]);
      if m >= hs[|hs| - 1] then m else hs[|hs| - 1]
  }

  /** `ViewRow`: views side by side, sharing the width equally. */
  class ViewRow {
    const name: Option<string>
    const views: seq<Element>
    const spaceBetween: real
    var width: Option<real>
    var eachWidth: Option<real>
    var height: Option<real>

    constructor (name: Option<string>, views: seq<Element>)
      ensures this.name == name && this.views == views && spaceBetween == 5.0
      ensures width.None? && eachWidth.None? && height.None?
    {
      this.name, this.views, this.spaceBetween := name, views, 5.0;
      width, eachWidth, height := None, None, None;
    }

    function GetTracks(name: Option<string>): (r: seq<TrackRef>)
      ensures forall t :: t in r <==> Holds(views, t) && NameMatches(t, name)
    {
      TracksOfAllMembers(views, name);
      TracksOfAll(views, name)
    }

    /** `layout(width)`: each view gets `(width - space_between*(n-1))/n`
        and the row is as tall as its tallest view (`heights`, as the views
        report them after their own layout). No views: ZeroDivisionError,
        after the width is stored. */
    method Layout(width: real, heights: seq<real>) returns (o: Outcome)
      requires |heights| == |views|
      modifies this
      ensures this.width == Some(width)
      ensures o.Fail? <==> |views| == 0
      ensures o.Fail? ==> o.error == ZeroDivisionError && eachWidth == old(eachWidth) && height == old(height)
      ensures o.Pass? ==> eachWidth == Some((width - spaceBetween * (|views| - 1) as real) / |views| as real)
      ensures o.Pass? ==> height.Some? && height.value >= 0.0
                          && (forall i :: 0 <= i < |heights| ==> heights[i] <= height.value)
                          && (height.value == 0.0 || exists i :: 0 <= i < |heights| && heights[i] == height.value)
    {
      this.width := Some(width);
      var n := |views|;
      if n == 0 {
        return Fail(ZeroDivisionError);
      }
      var ew := (width - spaceBetween * (|views| - 1) as real) / |views| as real;
      eachWidth := Some(ew);
      var h := 0.0;
      var i := 0;
      while i < n
        invariant 0 <= i <= n
        invariant h == MaxHeight(heights[..i])
        invariant this.width == Some(width)
        invariant eachWidth == Some(ew)
      {
        assert heights[..i + 1][..i] == heights[..i];
        h := if h >= heights[i] then h else heights[i];
        i := i + 1;
      }
      assert heights[..i] == heights;
      height := Some(h);
      o := Pass;
    }

    /** `render(renderer)`: one sub-renderer per view, `each_width` wide,
        each `space_between` to the right of the previous one. Before layout
        the row has no `each_width` attribute at all, so a row with views
        fails with AttributeError at its first view. */
    method Render(renderer: Svg.Renderer, heights: seq<real>, ids: seq<nat>) returns (r: Result<seq<Svg.Renderer>>)
      requires |heights| == |views| && |ids| == |views|
      ensures |views| > 0 && eachWidth.None? ==> r == Err(AttributeError)
      ensures r.Ok? <==> (|views| == 0 || (eachWidth.Some? && eachWidth.value <= renderer.width))
                         && forall i :: 0 <= i < |heights| ==> heights[i] <= renderer.height
      ensures r.Ok? ==> |r.value| == |views| && forall i :: 0 <= i < |heights| ==>
        && eachWidth.Some?
        && r.value[i] == Svg.Renderer(renderer.x + i as real * (eachWidth.value + spaceBetween), renderer.y,
                                      eachWidth.value, heights[i], ids[i])
    {
      if |views| > 0 && eachWidth.None? {
        return Err(AttributeError);
      }
      var w := eachWidth.GetOr(renderer.width);
      var placed: seq<Svg.Renderer> := [];
      var curx := 0.0;
      var i := 0;
      while i < |heights|
        invariant 0 <= i <= |heights|
        invariant curx == i as real * (w + spaceBetween)
        invariant i > 0 ==> eachWidth.Some? && w == eachWidth.value && w <= renderer.width
        invariant forall j :: 0 <= j < i ==> heights[j] <= renderer.height
        invariant |placed| == i && forall j :: 0 <= j < i ==>
          placed[j] == Svg.Renderer(renderer.x + j as real * (w + spaceBetween), renderer.y, w, heights[j], ids[j])
      {
        var sub := Svg.Subrenderer(renderer, curx, 0.0, eachWidth, Some(heights[i]), ids[i]);
        if sub.Err? {
          return Err(sub.error);
        }
        placed := placed + [sub.value];
        curx := curx + w + spaceBetween;
        i := i + 1;
      }
      r := Ok(placed);
    }
  }

  /** One piece of the document `render` yields: the header, an element
      rendered through its renderer, or the footer. */
  datatype Piece = Header(width: real, height: real) | Placed(renderer: Svg.Renderer) | Footer

  /** `Document`: elements stacked on one SVG page. */
  class Document {
    const width: real
    const elements: seq<Element>
    const marginX: real
    const marginY: real
    const betweenViews: real
    var viewWidth: Option<real>

    constructor (width: real, elements: seq<Element>)
      ensures this.width == width && this.elements == elements
      ensures marginX == 5.0 && marginY == 5.0 && betweenViews == 5.0 && viewWidth.None?
    {
      this.width, this.elements := width, elements;
      marginX, marginY, betweenViews := 5.0, 5.0, 5.0;
      viewWidth := None;
    }

    function GetTracks(name: Option<string>): (r: seq<TrackRef>)
      ensures forall t :: t in r <==> Holds(elements, t) && NameMatches(t, name)
    {
      TracksOfAllMembers(elements, name);
      TracksOfAll(elements, name)
    }

    /** `layout`: the width left inside the side margins; each element lays
        itself out on it. */
    method Layout()
      modifies this
      ensures viewWidth == Some(width - 2.0 * marginX)
    {
      viewWidth := Some(width - marginX * 2.0);
    }

    /** `render`: the header with the total height Σ(h + between_views) +
        2·margin_y, each element at `margin_y` plus the heights and gaps
        above it, then the footer. `heights` are the elements' heights after
        layout and `ids` the renderer counter's values. */
    method Render(heights: seq<real>, ids: seq<nat>) returns (out: seq<Piece>)
      requires |heights| == |elements| && |ids| == |elements|
      modifies this
      ensures viewWidth == Some(width - 2.0 * marginX)
      ensures |out| == |elements| + 2
      ensures out[0] == Header(width, SumPlus(heights, betweenViews) + 2.0 * marginY)
      ensures out[|out| - 1] == Footer
      ensures forall i :: 0 <= i < |heights| ==>
        out[i + 1] == Placed(Svg.Renderer(marginX, marginY + SumPlus(heights[..i], betweenViews), width - 2.0 * marginX, heights[i], ids[i]))
    {
      Layout();
      var total := SumPlus(heights, betweenViews) + marginY * 2.0;
      out := [Header(width, total)];
      var cury := marginY;
      var i := 0;
      while i < |heights|
        invariant 0 <= i <= |heights|
        invariant viewWidth == Some(width - 2.0 * marginX)
        invariant cury == marginY + SumPlus(heights[..i], betweenViews)
        invariant |out| == i + 1 && out[0] == Header(width, total)
        invariant forall j :: 0 <= j < i ==>
          out[j + 1] == Placed(Svg.Renderer(marginX, marginY + SumPlus(heights[..j], betweenViews), width - 2.0 * marginX, heights[j], ids[j]))
      {
        out := out + [Placed(Svg.Renderer(marginX, cury, viewWidth.value, heights[i], ids[i]))];
        assert heights[..i + 1][..i] == heights[..i];
        cury := cury + heights[i] + betweenViews;
        i := i + 1;
      }
      out := out + [Footer];
    }
  }

  /** The elements `render` places are stacked without overlap and fit the
      page: with heights and gap not negative, element `i`'s bottom plus
      one gap is no lower than the top of any later element `j`, and for
      the last element no lower than one margin above the page's bottom. */
  lemma {:induction false} DocumentStacking(heights: seq<real>, gap: real, margin: real, i: nat, j: nat)
    requires gap >= 0.0 && forall k :: 0 <= k < |heights| ==> heights[k] >= 0.0
    requires i < j <= |heights|
    ensures margin + SumPlus(heights[..i], gap) + heights[i] + gap <= margin + SumPlus(heights[..j], gap)
    ensures j == |heights| ==>
      margin + SumPlus(heights[..i], gap) + heights[i] + gap <= (SumPlus(heights, gap) + 2.0 * margin) - margin
    decreases j - i
  {
    assert heights[..|heights|] == heights;
    assert heights[..j][..j - 1] == heights[..j - 1];
    if j > i + 1 {
      DocumentStacking(heights, gap, margin, i, j - 1);
    }
  }
}

=== FILE: intervaltrack.dfy ===
/** Intervals and the track that stacks them into rows: each interval goes
    to the first row whose right edge lies strictly left of the interval's
    first pixel, or opens a new row. */
module IntervalTracks {
  import opened Wrappers
  import GenomeViews

  /** The strand argument: a boolean (True for forward) or a string. */
  datatype StrandArg = BoolStrand(forward: bool) | TextStrand(text: string)

  function NormaliseStrand(s: StrandArg): (r: string)
    ensures s.BoolStrand? ==> (r == "+" <==> s.forward) && (r == "-" <==> !s.forward)
    ensures s.TextStrand? ==> r == s.text
  {
    match s
    case BoolStrand(f) => if f then "+" else "-"
    case TextStrand(t) => t
  }

  datatype Interval = Interval(id: string, chrom: string, start: int, end: int, strand: string, caption: Option<string>)

  /** `Interval(id_, chrom, start, end, strand, label)`. */
  function MakeInterval(id: string, chrom: string, start: int, end: int, strand: StrandArg, caption: Option<string>): (iv: Interval)
    ensures iv.id == id && iv.chrom == chrom && iv.start == start && iv.end == end && iv.caption == caption
    ensures iv.strand == NormaliseStrand(strand)
  {
    Interval(id, chrom, start, end, NormaliseStrand(strand), caption)
  }

  /** `overlaps`: same chromosome, closed ranges that meet, and, unless the
      strand is ignored, the same strand. */
  predicate Overlaps(a: Interval, b: Interval, ignoreStrand: bool): (r: bool)
    ensures r <==> a.chrom == b.chrom && b.start <= a.end && a.start <= b.end && (ignoreStrand || a.strand == b.strand)
  {
    if a.chrom != b.chrom then false
    else if b.start > a.end || a.start > b.end then false
    else if !ignoreStrand && a.strand != b.strand then false
    else true
  }

  predicate Covers(iv: Interval, x: int) {
    iv.start <= x <= iv.end
  }

  /** Ignoring strand, two well-formed intervals overlap exactly when they
      are on one chromosome and some position lies in both closed ranges. */
  lemma OverlapsSharedPosition(a: Interval, b: Interval)
    requires a.start <= a.end && b.start <= b.end
    ensures Overlaps(a, b, true) <==> a.chrom == b.chrom && exists x :: Covers(a, x) && Covers(b, x)
  {
    if a.chrom == b.chrom && !(b.start > a.end || a.start > b.end) {
      var x := if a.start < b.start then b.start else a.start;
      assert Covers(a, x) && Covers(b, x);
    }
  }

  /** Strand only matters when it is not ignored, and the relation is
      symmetric either way. */
  lemma OverlapsStrandAndSymmetry(a: Interval, b: Interval)
    ensures Overlaps(a, b, false) <==> Overlaps(a, b, true) && a.strand == b.strand
    ensures Overlaps(a, b, true) == Overlaps(b, a, true)
    ensures Overlaps(a, b, false) == Overlaps(b, a, false)
  {
  }

  /** Ranges that only touch still overlap. */
  lemma TouchingIntervalsOverlap(a: Interval, b: Interval)
    requires a.chrom == b.chrom && a.start <= a.end && a.end == b.start && b.start <= b.end
    ensures Overlaps(a, b, true)
  {
  }

  const MinusColor: string := "#8C8FCE"
  const PlusColor: string := "#E89E9D"

  /** `color_by_strand`. */
  function ColorByStrand(iv: Interval): (c: string)
    ensures c == MinusColor <==> iv.strand == "-"
    ensures c == PlusColor <==> iv.strand != "-"
  {
    if iv.strand == "-" then MinusColor else PlusColor
  }

  // ---------------------------------------------------------------------
  // Row packing

  /** The row `layout_interval` picks: the first whose end lies strictly
      left of `x`, or the index of a new row. */
  function FirstFit(rows: seq<real>, x: real): (r: nat)
    ensures r <= |rows|
    ensures r < |rows| ==> x > rows[r]
    ensures forall j :: 0 <= j < r ==> !(x > rows[j])
  {
    if rows == [] then 0 else if x > rows[0] then 0 else 1 + FirstFit(rows[1..], x)
  }

  /** The label-width heuristic: three quarters of a row height per
      character. */
  function LabelWidth(caption: Option<string>, rowHeight: real): (r: real)
    ensures rowHeight >= 0.0 ==> r >= 0.0
  {
    if caption.Some? then |caption.value| as real * rowHeight * 0.75 else 0.0
  }

  /** An interval's first pixel, and the row end it leaves behind: its last
      pixel, the margin and the label. */
  function Extent(s0: int, e0: int, w: real, iv: Interval, marginX: real, rowHeight: real): (real, real)
    requires s0 < e0 && w != 0.0
  {
    var bpp := GenomeViews.BasesPerPixel(e0 - s0, w);
    (GenomeViews.ToPx(s0, bpp, iv.start as real),
     GenomeViews.ToPx(s0, bpp, iv.end as real) + marginX + LabelWidth(iv.caption, rowHeight))
  }

  function Extents(s0: int, e0: int, w: real, ivs: seq<Interval>, marginX: real, rowHeight: real): (r: seq<(real, real)>)
    requires s0 < e0 && w != 0.0
    ensures |r| == |ivs| && forall k :: 0 <= k < |ivs| ==> r[k] == Extent(s0, e0, w, ivs[k], marginX, rowHeight)
  {
    seq(|ivs|, k requires 0 <= k < |ivs| => Extent(s0, e0, w, ivs[k], marginX, rowHeight))
  }

  /** On a positive width, with a non-negative margin and row height, an
      interval's row end is not left of its first pixel. */
  lemma {:induction false} ExtentOrdered(s0: int, e0: int, w: real, iv: Interval, marginX: real, rowHeight: real)
    requires s0 < e0 && w > 0.0 && iv.start <= iv.end && marginX >= 0.0 && rowHeight >= 0.0
    ensures Extent(s0, e0, w, iv, marginX, rowHeight).0 <= Extent(s0, e0, w, iv, marginX, rowHeight).1
  {
    if iv.start < iv.end {
      GenomeViews.ProjectionIncreasing(s0, e0, w, iv.start as real, iv.end as real);
    }
  }

  /** The rows and the row of each interval after placing them in order. */
  datatype Packing = Packing(rows: seq<real>, assign: seq<nat>)

  function Place(rows: seq<real>, x: real, e: real): (seq<real>, nat) {
    var r := FirstFit(rows, x);
    (if r < |rows| then rows[r := e] else rows + [e], r)
  }

  /** Greedy packing of extents, starting from the rows already there. */
  function PackFrom(rows0: seq<real>, ext: seq<(real, real)>): (p: Packing)
    ensures |p.assign| == |ext|
    ensures |rows0| <= |p.rows| <= |rows0| + |ext|
    ensures forall i :: 0 <= i < |ext| ==> p.assign[i] < |p.rows|
  {
    if ext == [] then Packing(rows0, [])
    else
      var p := PackFrom(rows0, ext[..|ext| - 1]);
      var (rows, r) := Place(p.rows, ext[|ext| - 1].0, ext[|ext| - 1].1);
      Packing(rows, p.assign + [r])
  }

  /** The last placement of a packing: the row FirstFit chooses gets the
      new row end, or a new row is opened for it. */
  lemma PackLast(rows0: seq<real>, ext: seq<(real, real)>)
    requires ext != []
    ensures var q := PackFrom(rows0, ext[..|ext| - 1]);
      var p := PackFrom(rows0, ext);
      var r := FirstFit(q.rows, ext[|ext| - 1].0);
      && p.assign == q.assign + [r]
      && p.rows == (if r < |q.rows| then q.rows[r := ext[|ext| - 1].1] else q.rows + [ext[|ext| - 1].1])
  {
  }

  /** One placement keeps a packing sound: every placed extent's row ends no
      earlier than the extent, and extents sharing a row do not collide. */
  lemma PlaceStep(rows: seq<real>, assign: seq<nat>, ext: seq<(real, real)>)
    requires |ext| == |assign| + 1
    requires forall k :: 0 <= k < |ext| ==> ext[k].0 <= ext[k].1
    requires forall i :: 0 <= i < |assign| ==> assign[i] < |rows| && rows[assign[i]] >= ext[i].1
    requires forall i, j :: 0 <= i < j < |assign| && assign[i] == assign[j] ==> ext[j].0 > ext[i].1
    ensures var (rows', r) := Place(rows, ext[|assign|].0, ext[|assign|].1);
      var assign' := assign + [r];
      && (forall i :: 0 <= i < |ext| ==> assign'[i] < |rows'| && rows'[assign'[i]] >= ext[i].1)
      && (forall i, j :: 0 <= i < j < |ext| && assign'[i] == assign'[j] ==> ext[j].0 > ext[i].1)
  {
    var n := |assign|;
    var (rows', r) := Place(rows, ext[n].0, ext[n].1);
    var assign' := assign + [r];
    forall i | 0 <= i < |ext|
      ensures assign'[i] < |rows'| && rows'[assign'[i]] >= ext[i].1
    {
      if i < n && assign[i] == r {
        assert ext[n].0 > rows[r];
      }
    }
    forall i, j | 0 <= i < j < |ext| && assign'[i] == assign'[j]
      ensures ext[j].0 > ext[i].1
    {
      if j == n {
        assert rows[assign[i]] >= ext[i].1;
      }
    }
  }

  /** Two extents packed into the same row never collide: the later one
      starts strictly right of where the earlier one's row end was left. */
  lemma {:induction false} PackSeparates(rows0: seq<real>, ext: seq<(real, real)>)
    requires forall k :: 0 <= k < |ext| ==> ext[k].0 <= ext[k].1
    ensures var p := PackFrom(rows0, ext);
      && (forall i :: 0 <= i < |ext| ==> p.rows[p.assign[i]] >= ext[i].1)
      && (forall i, j :: 0 <= i < j < |ext| && p.assign[i] == p.assign[j] ==> ext[j].0 > ext[i].1)
  {
    if ext != [] {
      var init := ext[..|ext| - 1];
      PackSeparates(rows0, init);
      var q := PackFrom(rows0, init);
      PlaceStep(q.rows, q.assign, ext);
    }
  }

  /** Packing one more extent is one more placement. */
  lemma PackStep(rows0: seq<real>, ext: seq<(real, real)>, i: nat)
    requires i < |ext|
    ensures var p := PackFrom(rows0, ext[..i]);
      && PackFrom(rows0, ext[..i + 1]).rows == Place(p.rows, ext[i].0, ext[i].1).0
      && PackFrom(rows0, ext[..i + 1]).assign == p.assign + [FirstFit(p.rows, ext[i].0)]
  {
    assert ext[..i + 1][..i] == ext[..i];
  }

  /** The ids of a run of intervals. */
  function Ids(ivs: seq<Interval>): set<string> {
    set k | 0 <= k < |ivs| :: ivs[k].id
  }

  /** No id repeats, and none is already taken. */
  ghost predicate Fresh(taken: set<string>, ivs: seq<Interval>) {
    && (forall k :: 0 <= k < |ivs| ==> ivs[k].id !in taken)
    && (forall i, j :: 0 <= i < j < |ivs| ==> ivs[i].id != ivs[j].id)
  }

  /** The index of the first interval whose id is taken or repeats an
      earlier one; the length when there is none. */
  function FirstClash(taken: set<string>, ivs: seq<Interval>): (k: nat)
    ensures k <= |ivs|
    ensures Fresh(taken, ivs[..k])
    ensures k < |ivs| ==> ivs[k].id in taken + Ids(ivs[..k])
    ensures k == |ivs| <==> Fresh(taken, ivs)
  {
    if ivs == [] then 0
    else
      var init := ivs[..|ivs| - 1];
      var k := FirstClash(taken, init);
      assert ivs[..k] == init[..k];
      if k < |init| then k
      else if ivs[|ivs| - 1].id in taken + Ids(init) then |init|
      else
        assert ivs[..|ivs|] == ivs;
        |ivs|
  }

  /** The id-to-row map after recording each interval's row in order. */
  function RecordRows(m0: map<string, nat>, ivs: seq<Interval>, assign: seq<nat>): (m: map<string, nat>)
    requires |assign| == |ivs|
    ensures m.Keys == m0.Keys + Ids(ivs)
  {
    if ivs == [] then m0
    else
      var n := |ivs|;
      assert Ids(ivs) == Ids(ivs[..n - 1]) + {ivs[n - 1].id};
      RecordRows(m0, ivs[..n - 1], assign[..n - 1])[ivs[n - 1].id := assign[n - 1]]
  }

  /** Recording one more interval adds its id with its row. */
  lemma RecordStep(m0: map<string, nat>, ivs: seq<Interval>, assign: seq<nat>, r: nat, i: nat)
    requires i < |ivs| && |assign| == i
    ensures RecordRows(m0, ivs[..i + 1], assign + [r]) == RecordRows(m0, ivs[..i], assign)[ivs[i].id := r]
  {
    assert ivs[..i + 1][..i] == ivs[..i];
    assert (assign + [r])[..i] == assign;
  }

  /** An interval whose id no later interval repeats leads to its own row. */
  lemma {:induction false} RecordRowsAt(m0: map<string, nat>, ivs: seq<Interval>, assign: seq<nat>, k: nat)
    requires |assign| == |ivs| && k < |ivs|
    requires forall j :: k < j < |ivs| ==> ivs[j].id != ivs[k].id
    ensures ivs[k].id in RecordRows(m0, ivs, assign) && RecordRows(m0, ivs, assign)[ivs[k].id] == assign[k]
  {
    var n := |ivs|;
    if k < n - 1 {
      var init := ivs[..n - 1];
      assert forall j :: k < j < n - 1 ==> init[j] == ivs[j];
      RecordRowsAt(m0, init, assign[..n - 1], k);
      assert ivs[n - 1].id != ivs[k].id;
    }
  }

  /** An id no interval uses keeps the row it had. */
  lemma {:induction false} RecordRowsKeeps(m0: map<string, nat>, ivs: seq<Interval>, assign: seq<nat>, id: string)
    requires |assign| == |ivs| && id in m0
    requires forall j :: 0 <= j < |ivs| ==> ivs[j].id != id
    ensures id in RecordRows(m0, ivs, assign) && RecordRows(m0, ivs, assign)[id] == m0[id]
  {
    var n := |ivs|;
    if n > 0 {
      var init := ivs[..n - 1];
      assert forall j :: 0 <= j < n - 1 ==> init[j] == ivs[j];
      RecordRowsKeeps(m0, init, assign[..n - 1], id);
      assert ivs[n - 1].id != id;
    }
  }

  /** With fresh ids every interval's id leads to its own row, and the ids
      already there keep theirs. */
  lemma RecordRowsLookup(m0: map<string, nat>, ivs: seq<Interval>, assign: seq<nat>)
    requires |assign| == |ivs| && Fresh(m0.Keys, ivs)
    ensures forall k :: 0 <= k < |ivs| ==> ivs[k].id in RecordRows(m0, ivs, assign) && RecordRows(m0, ivs, assign)[ivs[k].id] == assign[k]
    ensures forall id :: id in m0 ==> id in RecordRows(m0, ivs, assign) && RecordRows(m0, ivs, assign)[id] == m0[id]
  {
    forall k | 0 <= k < |ivs|
      ensures ivs[k].id in RecordRows(m0, ivs, assign) && RecordRows(m0, ivs, assign)[ivs[k].id] == assign[k]
    {
      RecordRowsAt(m0, ivs, assign, k);
    }
    forall id | id in m0
      ensures id in RecordRows(m0, ivs, assign) && RecordRows(m0, ivs, assign)[id] == m0[id]
    {
      RecordRowsKeeps(m0, ivs, assign, id);
    }
  }

  const DefaultRowHeight: real := 8.0

  /** The laid-out height: one row more than there are rows, each a row
      height plus the vertical margin. */
  function TrackHeight(rowCount: nat, rowHeight: real, marginY: real): (h: real)
    ensures rowHeight + marginY >= 0.0 ==> h >= rowHeight + marginY
  {
    (rowCount + 1) as real * (rowHeight + marginY)
  }

  /** `IntervalTrack`: the row ends, the id-to-row map, and the spacing
      constants. `rowHeight` is 8, or 12 for a BED track. */
  class IntervalTrack {
    const name: Option<string>
    var intervals: seq<Interval>
    const rowHeight: real
    const marginX: real
    const marginY: real
    const labelDistance: real
    var rows: seq<real>
    var intervalsToRows: map<string, nat>
    var height: real
    var scale: GenomeViews.Scale?

    /** Every recorded row exists. */
    ghost predicate Valid()
      reads this
    {
      forall id :: id in intervalsToRows ==> intervalsToRows[id] < |rows|
    }

    constructor (intervals: seq<Interval>, name: Option<string>, rowHeight: real)
      ensures Valid()
      ensures this.intervals == intervals && this.name == name && this.rowHeight == rowHeight
      ensures marginX == 15.0 && marginY == 2.0 && labelDistance == 3.0
      ensures rows == [] && intervalsToRows == map[] && height == 100.0 && scale == null
    {
      this.intervals, this.name, this.rowHeight := intervals, name, rowHeight;
      marginX, marginY, labelDistance := 15.0, 2.0, 3.0;
      rows, intervalsToRows, height, scale := [], map[], 100.0, null;
    }

    /** The scale is set and has a width to divide by. */
    ghost predicate Projecting()
      reads this, scale
    {
      scale != null && scale.Valid() && scale.HasWidth()
    }

    function ExtentOf(iv: Interval): (real, real)
      reads this, scale
      requires Projecting()
    {
      Extent(scale.start, scale.end, scale.pixelWidth.value, iv, marginX, rowHeight)
    }

    /** The loop over the rows in `layout_interval`. */
    method FindRow(x: real) returns (row: nat)
      ensures row == FirstFit(rows, x)
    {
      row := 0;
      while row < |rows| && !(x > rows[row])
        invariant 0 <= row <= |rows|
        invariant forall j :: 0 <= j < row ==> !(x > rows[j])
        decreases |rows| - row
      {
        row := row + 1;
      }
    }

    /** `layout_interval`: the row is chosen and its end written before the
        duplicate-id assertion, so a repeated id fails after moving the row
        end; otherwise the id is recorded. */
    method LayoutInterval(iv: Interval) returns (o: Outcome)
      requires Valid() && Projecting()
      modifies this, scale
      ensures Valid() && Projecting()
      ensures scale == old(scale) && height == old(height) && intervals == old(intervals)
      ensures scale.pixelWidth == old(scale.pixelWidth)
      ensures rows == Place(old(rows), ExtentOf(iv).0, ExtentOf(iv).1).0
      ensures o.Fail? <==> iv.id in old(intervalsToRows)
      ensures o.Fail? ==> o.error == AssertionError && intervalsToRows == old(intervalsToRows)
      ensures o.Pass? ==> intervalsToRows == old(intervalsToRows)[iv.id := FirstFit(old(rows), ExtentOf(iv).0)]
    {
      ghost var rows0 := rows;
      var startPx := scale.ToPixels(iv.start as real);
      var x := startPx.value;
      var row := FindRow(x);
      if row == |rows| {
        rows := rows + [0.0];
      }
      assert |rows| == if row < |rows0| then |rows0| else |rows0| + 1;
      var endPx := scale.ToPixels(iv.end as real);
      var newEnd := endPx.value + marginX;
      if iv.caption.Some? {
        newEnd := newEnd + |iv.caption.value| as real * rowHeight * 0.75;
      }
      assert x == ExtentOf(iv).0 && newEnd == ExtentOf(iv).1;
      rows := rows[row := newEnd];
      assert rows == Place(rows0, x, newEnd).0;
      if iv.id in intervalsToRows {
        return Fail(AssertionError);
      }
      intervalsToRows := intervalsToRows[iv.id := row];
      o := Pass;
    }

    /** After placing `ivs` from rows `rows0` and map `m0`: on success the
        rows and map of the greedy packing; on the first taken or repeated id
        an AssertionError, with that interval's row end already written and
        its id not recorded. */
    ghost predicate Placed(rows0: seq<real>, m0: map<string, nat>, ivs: seq<Interval>, o: Outcome)
      reads this, scale
      requires Projecting()
    {
      var ext := Extents(scale.start, scale.end, scale.pixelWidth.value, ivs, marginX, rowHeight);
      var k := FirstClash(m0.Keys, ivs);
      && (o.Pass? <==> k == |ivs|)
      && (o.Pass? ==> rows == PackFrom(rows0, ext).rows
                      && intervalsToRows == RecordRows(m0, ivs, PackFrom(rows0, ext).assign))
      && (o.Fail? ==> o.error == AssertionError
                      && rows == PackFrom(rows0, ext[..k + 1]).rows
                      && intervalsToRows == RecordRows(m0, ivs[..k], PackFrom(rows0, ext[..k]).assign))
    }

    /** The placement loop shared by `layout` and the paired-end layout: the
        intervals in order, stopping at the first failed assertion. */
    method LayoutEach(ivs: seq<Interval>) returns (o: Outcome)
      requires Valid() && Projecting()
      modifies this, scale
      ensures Valid() && Projecting()
      ensures scale == old(scale) && height == old(height) && intervals == old(intervals)
      ensures scale.pixelWidth == old(scale.pixelWidth)
      ensures Placed(old(rows), old(intervalsToRows), ivs, o)
    {
      ghost var rows0, m0 := rows, intervalsToRows;
      ghost var s0, e0, w := scale.start, scale.end, scale.pixelWidth.value;
      ghost var ext := Extents(s0, e0, w, ivs, marginX, rowHeight);
      var i := 0;
      while i < |ivs|
        invariant 0 <= i <= |ivs|
        invariant Valid() && Projecting()
        invariant scale == old(scale) && height == old(height) && intervals == old(intervals)
        invariant scale.pixelWidth == old(scale.pixelWidth)
        invariant Fresh(m0.Keys, ivs[..i])
        invariant rows == PackFrom(rows0, ext[..i]).rows
        invariant intervalsToRows == RecordRows(m0, ivs[..i], PackFrom(rows0, ext[..i]).assign)
      {
        PackStep(rows0, ext, i);
        ghost var p := PackFrom(rows0, ext[..i]);
        RecordStep(m0, ivs, p.assign, FirstFit(p.rows, ext[i].0), i);
        assert ExtentOf(ivs[i]) == ext[i];
        o := LayoutInterval(ivs[i]);
        if o.Fail? {
          FirstClashAt(m0.Keys, ivs, i);
          return;
        }
        FreshSnoc(m0.Keys, ivs, i);
        i := i + 1;
      }
      assert ext[..i] == ext;
      assert ivs[..i] == ivs;
      o := Pass;
    }

    /** `layout(scale)`: the scale is recorded, the rows and the map reset,
        the intervals placed in order, and the height set to one row more
        than there are rows. */
    method Layout(s: GenomeViews.Scale) returns (o: Outcome)
      requires s.Valid() && s.HasWidth()
      modifies this, s
      ensures Valid() && Projecting() && scale == s && s.pixelWidth == old(s.pixelWidth)
      ensures intervals == old(intervals)
      ensures Placed([], map[], intervals, o)
      ensures o.Pass? ==> height == TrackHeight(|rows|, rowHeight, marginY)
      ensures o.Fail? ==> height == old(height)
    {
      scale := s;
      rows := [];
      intervalsToRows := map[];
      o := LayoutEach(intervals);
      if o.Fail? {
        return;
      }
      height := TrackHeight(|rows|, rowHeight, marginY);
    }
  }

  /** An interval whose id is neither taken nor earlier keeps a run fresh. */
  lemma FreshSnoc(taken: set<string>, ivs: seq<Interval>, i: nat)
    requires i < |ivs| && Fresh(taken, ivs[..i]) && ivs[i].id !in taken + Ids(ivs[..i])
    ensures Fresh(taken, ivs[..i + 1])
  {
    var a, b := ivs[..i + 1], ivs[..i];
    forall k | 0 <= k < i
      ensures a[k].id != a[i].id && a[k].id !in taken
    {
      assert a[k] == b[k];
    }
  }

  /** The first clash is the first interval whose id is taken or repeats
      an earlier one. */
  lemma {:induction false} FirstClashAt(taken: set<string>, ivs: seq<Interval>, i: nat)
    requires i < |ivs| && Fresh(taken, ivs[..i]) && ivs[i].id in taken + Ids(ivs[..i])
    ensures FirstClash(taken, ivs) == i
  {
    var init := ivs[..|ivs| - 1];
    if i < |init| {
      assert init[..i] == ivs[..i];
      FirstClashAt(taken, init, i);
    } else {
      assert init == ivs[..i];
    }
  }

  /** The placement rule itself: the row given is the lowest one whose end
      lies strictly left of the interval's first pixel; only when none does
      is exactly one row added. Every other row keeps its end. */
  lemma PlaceRule(rows: seq<real>, x: real, e: real)
    ensures var (rows', r) := Place(rows, x, e);
      && r <= |rows| && (r < |rows| ==> x > rows[r])
      && (forall j :: 0 <= j < r ==> !(x > rows[j]))
      && |rows'| == (if r < |rows| then |rows| else |rows| + 1)
      && rows'[r] == e
      && (forall j :: 0 <= j < |rows| && j != r ==> rows'[j] == rows[j])
  {
  }

  /** Intervals that overlap (as closed ranges) never share a row, on a
      positive width with a non-negative margin and row height. */
  lemma {:induction false} OverlappingIntervalsSeparate(s0: int, e0: int, w: real, ivs: seq<Interval>,
                                                       marginX: real, rowHeight: real, i: nat, j: nat)
    requires s0 < e0 && w > 0.0 && marginX >= 0.0 && rowHeight >= 0.0
    requires forall k :: 0 <= k < |ivs| ==> ivs[k].start <= ivs[k].end
    requires i < j < |ivs| && ivs[j].start <= ivs[i].end
    ensures var p := PackFrom([], Extents(s0, e0, w, ivs, marginX, rowHeight)); p.assign[i] != p.assign[j]
  {
    var ext := Extents(s0, e0, w, ivs, marginX, rowHeight);
    assert forall k :: 0 <= k < |ext| ==> ext[k].0 <= ext[k].1 by {
      forall k | 0 <= k < |ext|
        ensures ext[k].0 <= ext[k].1
      {
        ExtentOrdered(s0, e0, w, ivs[k], marginX, rowHeight);
      }
    }
    PackSeparates([], ext);
    var bpp := GenomeViews.BasesPerPixel(e0 - s0, w);
    var endPx := GenomeViews.ToPx(s0, bpp, ivs[i].end as real);
    assert ext[j].0 <= endPx by {
      if ivs[j].start < ivs[i].end {
        GenomeViews.ProjectionIncreasing(s0, e0, w, ivs[j].start as real, ivs[i].end as real);
      }
    }
    assert ext[i].1 == endPx + marginX + LabelWidth(ivs[i].caption, rowHeight);
  }

  /** Layout is not a disjointness test: with the 15-pixel margin, two
      disjoint intervals a pixel apart still go to different rows. */
  lemma DisjointIntervalsCanSplitRows()
    ensures var ivs := [Interval("a", "1", 100, 150, "+", None), Interval("b", "1", 151, 200, "+", None)];
      PackFrom([], Extents(100, 200, 100.0, ivs, 15.0, DefaultRowHeight)).assign == [0, 1]
  {
    var ivs := [Interval("a", "1", 100, 150, "+", None), Interval("b", "1", 151, 200, "+", None)];
    var ext := Extents(100, 200, 100.0, ivs, 15.0, DefaultRowHeight);
    assert ext[0] == (0.0, 65.0);
    assert ext[1].0 == 51.0;
    assert ext[..1] == [ext[0]];
    assert ext[..0] == [];
  }

  /** A = [100, 150) and B = [140, 200) on a 100-pixel view of 100..200:
      A takes row 0 and B, starting left of A's end plus margin, row 1. */
  lemma OverlapScenario()
    ensures var ivs := [Interval("A", "1", 100, 150, "+", None), Interval("B", "1", 140, 200, "+", None)];
      PackFrom([], Extents(100, 200, 100.0, ivs, 15.0, DefaultRowHeight)).assign == [0, 1]
  {
    var ivs := [Interval("A", "1", 100, 150, "+", None), Interval("B", "1", 140, 200, "+", None)];
    var ext := Extents(100, 200, 100.0, ivs, 15.0, DefaultRowHeight);
    assert ext[0] == (0.0, 65.0);
    assert ext[1].0 == 40.0;
    assert ext[..1] == [ext[0]];
    assert ext[..0] == [];
  }
}

=== FILE: pytext.dfy ===
/** The Python built-ins the modelled code leans on, with Python's own
    semantics: slicing with negative indices, `str.upper`, the substring test
    `in`, `str.replace(pat, "")`, `str.split(",")` followed by dropping empty
    items, `int()` on a decimal string and `str()` on a natural number. */
module PyText {
  import opened Wrappers

  /** Python's normalisation of one slice bound against a length `n`:
      a negative bound counts from the end, then the bound is clamped. */
  function SliceBound(i: int, n: nat): (b: nat)
    ensures b <= n
    ensures 0 <= i <= n ==> b == i
    ensures i > n ==> b == n
    ensures i + n < 0 ==> b == 0
    ensures i < 0 && 0 <= i + n ==> b == i + n
  {
    if i < 0 then (if i + n < 0 then 0 else i + n)
    else if i > n then n
    else i
  }

  /** `s[i:j]` in Python. */
  function Slice<T>(s: seq<T>, i: int, j: int): (r: seq<T>)
    ensures |r| <= |s|
    ensures 0 <= i <= j <= |s| ==> r == s[i..j]
    ensures SliceBound(j, |s|) <= SliceBound(i, |s|) ==> r == []
  {
    var lo, hi := SliceBound(i, |s|), SliceBound(j, |s|);
    if hi <= lo then [] else s[lo..hi]
  }

  /** Python `str.upper` restricted to ASCII letters. */
  function UpperChar(c: char): char {
    if 'a' <= c <= 'z' then (c as int - 'a' as int + 'A' as int) as char else c
  }

  function Upper(s: string): (r: string)
    ensures |r| == |s|
    ensures forall k :: 0 <= k < |s| ==> r[k] == UpperChar(s[k])
  {
    seq(|s|, k requires 0 <= k < |s| => UpperChar(s[k]))
  }

  lemma UpperIdempotent(s: string)
    ensures Upper(Upper(s)) == Upper(s)
  {
    assert forall k :: 0 <= k < |s| ==> UpperChar(UpperChar(s[k])) == UpperChar(s[k]);
  }

  /** Python's substring test `pat in s`. */
  predicate Contains(s: string, pat: string) {
    exists i :: 0 <= i <= |s| - |pat| && OccursAt(s, pat, i)
  }

  predicate OccursAt(s: string, pat: string, i: int) {
    0 <= i && i + |pat| <= |s| && s[i..i + |pat|] == pat
  }

  /** Python `s.replace(pat, "")`: every non-overlapping occurrence of `pat`,
      scanning left to right, is removed. */
  function RemoveAll(s: string, pat: string): (r: string)
    requires pat != []
    ensures |r| <= |s|
    decreases |s|
  {
    if |s| < |pat| then s
    else if s[..|pat|] == pat then RemoveAll(s[|pat|..], pat)
    else [s[0]] + RemoveAll(s[1..], pat)
  }

  /** A string without the pattern is left alone by the replacement. */
  lemma {:induction false} RemoveAllAbsent(s: string, pat: string)
    requires pat != []
    requires !Contains(s, pat)
    ensures RemoveAll(s, pat) == s
    decreases |s|
  {
    if |s| < |pat| {
    } else {
      assert !OccursAt(s, pat, 0);
      var t := s[1..];
      if Contains(t, pat) {
        var i :| 0 <= i <= |t| - |pat| && OccursAt(t, pat, i);
        assert t[i..i + |pat|] == pat;
        assert s[i + 1..i + 1 + |pat|] == t[i..i + |pat|];
        assert OccursAt(s, pat, i + 1);
      }
      RemoveAllAbsent(t, pat);
      assert [s[0]] + t == s;
    }
  }

  /** Removing a pattern from a string that starts with it removes that
      leading occurrence first. */
  lemma RemoveAllLeading(pat: string, s: string)
    requires pat != []
    ensures RemoveAll(pat + s, pat) == RemoveAll(s, pat)
  {
    assert (pat + s)[..|pat|] == pat;
    assert (pat + s)[|pat|..] == s;
  }

  /** `s.split(sep)` in Python, then only the non-empty items: the maximal
      runs of characters other than `sep`, in order. `cur` is the run read
      so far. */
  function SplitNonEmptyFrom(s: string, sep: char, cur: string): (r: seq<string>)
    ensures forall k :: 0 <= k < |r| ==> r[k] != []
    decreases |s|
  {
    if s == [] then (if cur == [] then [] else [cur])
    else if s[0] == sep then
      (if cur == [] then [] else [cur]) + SplitNonEmptyFrom(s[1..], sep, [])
    else SplitNonEmptyFrom(s[1..], sep, cur + [s[0]])
  }

  function SplitNonEmpty(s: string, sep: char): (r: seq<string>) {
    SplitNonEmptyFrom(s, sep, [])
  }

  /** No item of the split is empty or holds the separator. */
  lemma {:induction false} SplitItemsClean(s: string, sep: char, cur: string)
    requires sep !in cur
    ensures forall k :: 0 <= k < |SplitNonEmptyFrom(s, sep, cur)| ==>
      SplitNonEmptyFrom(s, sep, cur)[k] != [] && sep !in SplitNonEmptyFrom(s, sep, cur)[k]
    decreases |s|
  {
    if s == [] {
    } else if s[0] == sep {
      SplitItemsClean(s[1..], sep, []);
    } else {
      SplitItemsClean(s[1..], sep, cur + [s[0]]);
    }
  }

  predicate IsDigit(c: char) { '0' <= c <= '9' }

  function DigitValue(c: char): (d: nat)
    requires IsDigit(c)
    ensures d < 10
  {
    c as int - '0' as int
  }

  function DigitChar(d: nat): (c: char)
    requires d < 10
    ensures IsDigit(c) && DigitValue(c) == d
  {
    (d + '0' as int) as char
  }

  /** The value of a non-empty run of decimal digits. */
  function DigitsValue(s: string): nat
    requires forall k :: 0 <= k < |s| ==> IsDigit(s[k])
  {
    if s == [] then 0 else 10 * DigitsValue(s[..|s| - 1]) + DigitValue(s[|s| - 1])
  }

  predicate AllDigits(s: string) {
    s != [] && forall k :: 0 <= k < |s| ==> IsDigit(s[k])
  }

  /** Python `int(s)` on an already-stripped token: an optional sign and one or
      more decimal digits; anything else raises ValueError. */
  function ParseInt(s: string): (r: Result<int>)
    ensures r.Ok? <==> (AllDigits(s) || (|s| > 1 && (s[0] == '-' || s[0] == '+') && AllDigits(s[1..])))
  {
    if AllDigits(s) then Ok(DigitsValue(s))
    else if |s| > 1 && s[0] == '-' && AllDigits(s[1..]) then Ok(0 - DigitsValue(s[1..]))
    else if |s| > 1 && s[0] == '+' && AllDigits(s[1..]) then Ok(DigitsValue(s[1..]))
    else Err(ValueError)
  }

  /** Python `str(n)` for a natural number. */
  function NatToString(n: nat): (s: string)
    ensures AllDigits(s)
    ensures (|s| == 1) == (n < 10)
  {
    if n < 10 then [DigitChar(n)] else NatToString(n / 10) + [DigitChar(n % 10)]
  }

  /** `int(str(n)) == n`. */
  lemma {:induction false} ParseShowsNat(n: nat)
    ensures DigitsValue(NatToString(n)) == n
    ensures ParseInt(NatToString(n)) == Ok(n)
  {
    var s := NatToString(n);
    if n >= 10 {
      ParseShowsNat(n / 10);
      assert s[..|s| - 1] == NatToString(n / 10);
    }
  }

  /** Distinct numbers have distinct decimal strings. */
  lemma NatToStringInjective(m: nat, n: nat)
    requires NatToString(m) == NatToString(n)
    ensures m == n
  {
    ParseShowsNat(m);
    ParseShowsNat(n);
  }

  /** The longest suffix of `s` without an underscore. */
  function TailAfterUnderscore(s: string): (r: string)
    ensures '_' !in r
  {
    if s == [] || s[|s| - 1] == '_' then [] else TailAfterUnderscore(s[..|s| - 1]) + [s[|s| - 1]]
  }

  lemma {:induction false} TailAfterUnderscoreOf(a: string, d: string)
    requires '_' !in d
    ensures TailAfterUnderscore(a + "_" + d) == d
  {
    var s := a + "_" + d;
    if d != [] {
      var d' := d[..|d| - 1];
      assert s[..|s| - 1] == a + "_" + d';
      TailAfterUnderscoreOf(a, d');
      assert d == d' + [d[|d| - 1]];
    }
  }

  /** Joining a prefix, an underscore and an underscore-free suffix can be
      undone: the suffix is what follows the last underscore. */
  lemma SuffixAfterUnderscore(a: string, d: string, b: string, e: string)
    requires '_' !in d && '_' !in e
    requires a + "_" + d == b + "_" + e
    ensures a == b && d == e
  {
    var s := a + "_" + d;
    TailAfterUnderscoreOf(a, d);
    TailAfterUnderscoreOf(b, e);
    assert a == s[..|a|];
    assert b == s[..|b|];
  }
}

=== FILE: quickconsensus.dfy ===
/** The quick-consensus tally: per-position counts of A, C, G, T and
    deletions (and, separately, insertions) over a half-open window, and the
    thresholded query that decides whether a discordance is supported. */
module QuickConsensus {
  import opened Wrappers
  import opened PyText

  /** Rows of the count table: `types_to_id`. Row 4 has no symbol. */
  const Rows: nat := 6

  function TypeToId(type_: string): (r: Option<nat>)
    ensures r.Some? ==> r.value < Rows && r.value != 4
    ensures r.Some? <==> type_ in ["A", "C", "G", "T", "DEL"]
  {
    match type_
    case "A" => Some(0)
    case "C" => Some(1)
    case "G" => Some(2)
    case "T" => Some(3)
    case "DEL" => Some(5)
    case _ => None
  }

  /** The contents of a `MismatchCounts`: its window and its two arrays. */
  datatype Tally = Tally(start: int, end: int, counts: seq<seq<int>>, insertions: seq<int>)

  /** Six rows, each as long as the insertion array, which spans the window. */
  ghost predicate Shaped(t: Tally) {
    && |t.counts| == Rows
    && |t.insertions| == t.end - t.start
    && forall r :: 0 <= r < Rows ==> |t.counts[r]| == |t.insertions|
  }

  /** Every count is a non-negative integer. */
  ghost predicate NonNegative(t: Tally)
    requires Shaped(t)
  {
    && (forall j :: 0 <= j < |t.insertions| ==> t.insertions[j] >= 0)
    && (forall r, j :: 0 <= r < Rows && 0 <= j < |t.insertions| ==> t.counts[r][j] >= 0)
  }

  function Zeros(n: nat): (z: seq<int>)
    ensures |z| == n && forall j :: 0 <= j < n ==> z[j] == 0
  {
    seq(n, j => 0)
  }

  /** The freshly constructed table: every count zero. */
  function EmptyTally(start: int, end: int): (t: Tally)
    requires start <= end
    ensures Shaped(t) && NonNegative(t)
    ensures t.start == start && t.end == end
    ensures forall r, j :: 0 <= r < Rows && 0 <= j < end - start ==> t.counts[r][j] == 0
    ensures forall j :: 0 <= j < end - start ==> t.insertions[j] == 0
  {
    Tally(start, end, seq(Rows, r => Zeros(end - start)), Zeros(end - start))
  }

  /** A single numpy index into an axis of length `n`: a negative index counts
      from the end; anything else out of range raises IndexError. */
  function NpIndex(i: int, n: nat): (r: Option<nat>)
    ensures r.Some? <==> 0 <= i + n && i < n
    ensures r.Some? ==> r.value < n && (r.value == i || r.value == i + n)
    ensures 0 <= i < n ==> r == Some(i)
  {
    if 0 <= i < n then Some(i) else if 0 <= i + n && i < 0 then Some(i + n) else None
  }

  /** `add_count` on the table value: "INS" bumps the insertion array, any other symbol bumps its
      row of the count table, at `position - start`. An unknown symbol raises
      KeyError and a position off the array raises IndexError. */
  function Increment(t: Tally, position: int, type_: string): (r: Result<Tally>)
    requires Shaped(t)
    ensures r.Ok? ==> Shaped(r.value) && r.value.start == t.start && r.value.end == t.end
    ensures r.Err? <==> (type_ != "INS" && TypeToId(type_).None?)
                         || NpIndex(position - t.start, |t.insertions|).None?
    ensures type_ != "INS" && TypeToId(type_).None? ==> r == Err(KeyError)
  {
    var n := |t.insertions|;
    if type_ == "INS" then
      match NpIndex(position - t.start, n)
      case None => Err(IndexError)
      case Some(i) => Ok(t.(insertions := t.insertions[i := t.insertions[i] + 1]))
    else
      match TypeToId(type_)
      case None => Err(KeyError)
      case Some(row) =>
        match NpIndex(position - t.start, n)
        case None => Err(IndexError)
        case Some(i) => Ok(t.(counts := t.counts[row := t.counts[row][i := t.counts[row][i] + 1]]))
  }

  /** An insertion bumps exactly one cell of the insertion array and leaves the
      count table alone. */
  lemma {:induction false} AddInsertionEffect(t: Tally, position: int)
    requires Shaped(t)
    requires t.start <= position < t.end
    ensures Increment(t, position, "INS").Ok?
    ensures var u := Increment(t, position, "INS").value;
      && u.counts == t.counts
      && |u.insertions| == |t.insertions|
      && (forall j :: 0 <= j < |t.insertions| ==>
            u.insertions[j] == t.insertions[j] + (if j == position - t.start then 1 else 0))
  {
  }

  /** Any other known symbol bumps exactly one cell, in its own row; the
      insertion array and row 4 are untouched. */
  lemma {:induction false} AddSymbolEffect(t: Tally, position: int, type_: string)
    requires Shaped(t)
    requires t.start <= position < t.end
    requires type_ != "INS" && TypeToId(type_).Some?
    ensures Increment(t, position, type_).Ok?
    ensures var u := Increment(t, position, type_).value;
      && u.insertions == t.insertions
      && u.counts[4] == t.counts[4]
      && (forall r, j :: 0 <= r < Rows && 0 <= j < |t.insertions| ==>
            u.counts[r][j] == t.counts[r][j]
              + (if r == TypeToId(type_).value && j == position - t.start then 1 else 0))
  {
  }

  /** `DEL` is counted in row 5. */
  lemma DeletionRow()
    ensures TypeToId("DEL") == Some(5)
    ensures TypeToId("INS") == None
  {
  }

  /** Counting keeps every count non-negative. */
  lemma {:induction false} AddCountNonNegative(t: Tally, position: int, type_: string)
    requires Shaped(t) && NonNegative(t)
    requires Increment(t, position, type_).Ok?
    ensures NonNegative(Increment(t, position, type_).value)
  {
  }

  // ---------------------------------------------------------------------
  // The query

  /** All six rows of column `j` added up: the reads covering that position,
      deletions included, insertions not. */
  function ColumnTotal(t: Tally, j: nat): int
    requires Shaped(t) && j < |t.insertions|
  {
    t.counts[0][j] + t.counts[1][j] + t.counts[2][j] + t.counts[3][j] + t.counts[4][j] + t.counts[5][j]
  }

  function SumRange(s: seq<int>, lo: nat, hi: nat): int
    requires lo <= hi <= |s|
    decreases hi - lo
  {
    if lo == hi then 0 else s[lo] + SumRange(s, lo + 1, hi)
  }

  function TotalRange(t: Tally, lo: nat, hi: nat): int
    requires Shaped(t) && lo <= hi <= |t.insertions|
    decreases hi - lo
  {
    if lo == hi then 0 else ColumnTotal(t, lo) + TotalRange(t, lo + 1, hi)
  }

  /** Whether some column in `[lo, hi)` has `row / total > b / a`, written
      as `a * count > b * total` so that a zero total gives false. */
  function AnyColumnAbove(t: Tally, row: nat, lo: nat, hi: nat, a: int, b: int): bool
    requires Shaped(t) && row < Rows && lo <= hi <= |t.insertions|
    decreases hi - lo
  {
    if lo == hi then false
    else a * t.counts[row][lo] > b * ColumnTotal(t, lo) || AnyColumnAbove(t, row, lo + 1, hi, a, b)
  }

  lemma {:induction false} AnyColumnAboveIff(t: Tally, row: nat, lo: nat, hi: nat, a: int, b: int)
    requires Shaped(t) && row < Rows && lo <= hi <= |t.insertions|
    ensures AnyColumnAbove(t, row, lo, hi, a, b) <==>
      exists j :: lo <= j < hi && a * t.counts[row][j] > b * ColumnTotal(t, j)
    decreases hi - lo
  {
    if lo < hi {
      AnyColumnAboveIff(t, row, lo + 1, hi, a, b);
    }
  }

  predicate InWindow(t: Tally, position: int) {
    t.start <= position < t.end
  }

  /** The columns a query covers: from `start` to `end` inclusive (`end`
      defaults to `start`), as the Python slice `[start : end + 1]` relative
      to the window, so it is truncated at the window's end. */
  function QueryBounds(t: Tally, qstart: int, qend: Option<int>): (b: (nat, nat))
    requires Shaped(t) && InWindow(t, qstart)
    ensures b.0 == qstart - t.start && b.1 <= |t.insertions|
    ensures qend.None? ==> b.1 == b.0 + 1
    ensures qend.Some? && qstart <= qend.value < t.end ==> b.1 == qend.value - t.start + 1
    ensures qend.Some? && t.end <= qend.value ==> b.1 == |t.insertions|
  {
    var s := qstart - t.start;
    var e := if qend.None? then s else qend.value - t.start;
    (s, SliceBound(e + 1, |t.insertions|))
  }

  /** `query`. Outside the window the answer is false whatever the symbol.
      INS compares the insertions summed over the range with the column
      totals summed over it (more than 20%); DEL asks for some column above
      30%; a nucleotide for some column above 20%. Any other symbol raises
      KeyError. */
  function Query(t: Tally, type_: string, qstart: int, qend: Option<int>): (r: Result<bool>)
    requires Shaped(t)
    ensures !InWindow(t, qstart) ==> r == Ok(false)
    ensures r.Err? <==> InWindow(t, qstart) && type_ != "INS" && TypeToId(type_).None?
  {
    if !InWindow(t, qstart) then Ok(false)
    else
      var (lo, hi) := QueryBounds(t, qstart, qend);
      if hi <= lo then
        // numpy: an empty slice sums to 0 and `.any()` of nothing is false
        if type_ == "INS" then Ok(false)
        else if TypeToId(type_).None? then Err(KeyError)
        else Ok(false)
      else if type_ == "INS" then
        Ok(5 * SumRange(t.insertions, lo, hi) > TotalRange(t, lo, hi))
      else
        match TypeToId(type_)
        case None => Err(KeyError)
        case Some(row) =>
          if type_ == "DEL" then Ok(AnyColumnAbove(t, row, lo, hi, 10, 3))
          else Ok(AnyColumnAbove(t, row, lo, hi, 5, 1))
  }

  /** A deletion is supported iff some column in range has more than 30% of
      its reads deleted. */
  lemma {:induction false} QueryDeletion(t: Tally, qstart: int, qend: Option<int>)
    requires Shaped(t) && InWindow(t, qstart)
    ensures var (lo, hi) := QueryBounds(t, qstart, qend);
      Query(t, "DEL", qstart, qend) == Ok(true) <==>
        exists j :: lo <= j < hi && 10 * t.counts[5][j] > 3 * ColumnTotal(t, j)
  {
    var (lo, hi) := QueryBounds(t, qstart, qend);
    if lo < hi {
      AnyColumnAboveIff(t, 5, lo, hi, 10, 3);
    }
  }

  /** A nucleotide is supported iff some column in range has more than 20% of
      its reads showing it. */
  lemma {:induction false} QueryNucleotide(t: Tally, type_: string, qstart: int, qend: Option<int>)
    requires Shaped(t) && InWindow(t, qstart)
    requires type_ in ["A", "C", "G", "T"]
    ensures var (lo, hi) := QueryBounds(t, qstart, qend);
      Query(t, type_, qstart, qend) == Ok(true) <==>
        exists j :: lo <= j < hi && 5 * t.counts[TypeToId(type_).value][j] > ColumnTotal(t, j)
  {
    var (lo, hi) := QueryBounds(t, qstart, qend);
    if lo < hi {
      AnyColumnAboveIff(t, TypeToId(type_).value, lo, hi, 5, 1);
    }
  }

  /** An insertion is supported iff the insertions in range exceed 20% of the
      summed column totals; with no reads at all a single insertion is enough
      (numpy's `x / 0 == inf`). */
  lemma {:induction false} QueryInsertion(t: Tally, qstart: int, qend: Option<int>)
    requires Shaped(t) && InWindow(t, qstart)
    ensures var (lo, hi) := QueryBounds(t, qstart, qend);
      Query(t, "INS", qstart, qend) == Ok(true) <==>
        lo < hi && 5 * SumRange(t.insertions, lo, hi) > TotalRange(t, lo, hi)
  {
  }

  /** A column nobody covers is never evidence for a nucleotide or a deletion. */
  lemma {:induction false} QueryZeroCoverage(t: Tally, type_: string, qstart: int)
    requires Shaped(t) && NonNegative(t) && InWindow(t, qstart)
    requires type_ in ["A", "C", "G", "T", "DEL"]
    requires ColumnTotal(t, qstart - t.start) == 0
    ensures Query(t, type_, qstart, None) == Ok(false)
  {
    var j := qstart - t.start;
    var row := TypeToId(type_).value;
    assert t.counts[row][j] == 0;
    if type_ == "DEL" {
      QueryDeletion(t, qstart, None);
    } else {
      QueryNucleotide(t, type_, qstart, None);
    }
  }

  /** An empty table supports nothing. */
  lemma {:induction false} EmptyTallySupportsNothing(start: int, end: int, type_: string, qstart: int, qend: Option<int>)
    requires start <= end
    requires type_ in ["A", "C", "G", "T", "DEL", "INS"]
    ensures Query(EmptyTally(start, end), type_, qstart, qend) == Ok(false)
  {
    var t := EmptyTally(start, end);
    if InWindow(t, qstart) {
      var (lo, hi) := QueryBounds(t, qstart, qend);
      if type_ == "INS" {
        QueryInsertion(t, qstart, qend);
        if lo < hi {
          ZeroSums(t, lo, hi);
          TotalRangeNonNegative(t, lo, hi);
        }
      } else if type_ == "DEL" {
        QueryDeletion(t, qstart, qend);
      } else {
        QueryNucleotide(t, type_, qstart, qend);
      }
    }
  }

  lemma {:induction false} TotalRangeNonNegative(t: Tally, lo: nat, hi: nat)
    requires Shaped(t) && NonNegative(t) && lo <= hi <= |t.insertions|
    ensures TotalRange(t, lo, hi) >= 0
    decreases hi - lo
  {
    if lo < hi {
      TotalRangeNonNegative(t, lo + 1, hi);
    }
  }

  lemma {:induction false} ZeroSums(t: Tally, lo: nat, hi: nat)
    requires Shaped(t) && lo <= hi <= |t.insertions|
    requires forall j :: 0 <= j < |t.insertions| ==> t.insertions[j] == 0
    ensures SumRange(t.insertions, lo, hi) == 0
    decreases hi - lo
  {
    if lo < hi {
      ZeroSums(t, lo + 1, hi);
    }
  }

  // ---------------------------------------------------------------------
  // Tallying a pileup

  /** One read at one pileup column, as pysam reports it; `base` is the
      read's base at its query position. */
  datatype PileupRead = PileupRead(isRefskip: bool, isDel: bool, base: char, indel: int)

  datatype PileupColumn = PileupColumn(pos: int, entries: seq<PileupRead>)

  /** One read of a column: a reference skip adds nothing at all; otherwise a
      deletion adds DEL, a base other than N adds that base, and, on top of
      either, a positive indel adds INS. */
  function TallyRead(t: Tally, pos: int, r: PileupRead): (res: Result<Tally>)
    requires Shaped(t)
    ensures res.Ok? ==> Shaped(res.value) && res.value.start == t.start && res.value.end == t.end
    ensures r.isRefskip ==> res == Ok(t)
  {
    if r.isRefskip then Ok(t)
    else
      var t1 :- if r.isDel then Increment(t, pos, "DEL")
                else if r.base != 'N' then Increment(t, pos, [r.base])
                else Ok(t);
      if r.indel > 0 then Increment(t1, pos, "INS") else Ok(t1)
  }

  /** The reads of one column, in order; the first failure stops the tally. */
  function TallyColumn(t: Tally, pos: int, entries: seq<PileupRead>): (res: Result<Tally>)
    requires Shaped(t)
    ensures res.Ok? ==> Shaped(res.value) && res.value.start == t.start && res.value.end == t.end
  {
    if entries == [] then Ok(t)
    else
      var t1 :- TallyColumn(t, pos, entries[..|entries| - 1]);
      TallyRead(t1, pos, entries[|entries| - 1])
  }

  /** `tally_reads` over the columns pysam's pileup yields. */
  function TallyColumns(t: Tally, columns: seq<PileupColumn>): (res: Result<Tally>)
    requires Shaped(t)
    ensures res.Ok? ==> Shaped(res.value) && res.value.start == t.start && res.value.end == t.end
  {
    if columns == [] then Ok(t)
    else
      var t1 :- TallyColumns(t, columns[..|columns| - 1]);
      var c := columns[|columns| - 1];
      TallyColumn(t1, c.pos, c.entries)
  }

  /** What one read contributes at a column inside the window. */
  lemma {:induction false} TallyReadEffect(t: Tally, pos: int, r: PileupRead)
    requires Shaped(t) && InWindow(t, pos)
    requires !r.isRefskip
    requires r.isDel || r.base in "ACGTN"
    ensures TallyRead(t, pos, r).Ok?
    ensures var u := TallyRead(t, pos, r).value;
      var j := pos - t.start;
      && u.insertions[j] == t.insertions[j] + (if r.indel > 0 then 1 else 0)
      && u.counts[5][j] == t.counts[5][j] + (if r.isDel then 1 else 0)
      && (forall row :: 0 <= row < 4 ==>
            u.counts[row][j] == t.counts[row][j] + (if !r.isDel && r.base != 'N' && TypeToId([r.base]) == Some(row) then 1 else 0))
    ensures var u := TallyRead(t, pos, r).value;
      var j := pos - t.start;
      && |u.insertions| == |t.insertions|
      && u.counts[4] == t.counts[4]
      && (forall k :: 0 <= k < |t.insertions| && k != j ==> u.insertions[k] == t.insertions[k])
      && (forall row, k :: 0 <= row < Rows && 0 <= k < |t.insertions| && k != j ==> u.counts[row][k] == t.counts[row][k])
  {
    var t1 := if r.isDel then Increment(t, pos, "DEL").value
              else if r.base != 'N' then Increment(t, pos, [r.base]).value
              else t;
    if r.isDel {
      AddSymbolEffect(t, pos, "DEL");
    } else if r.base != 'N' {
      assert [r.base] in ["A", "C", "G", "T"];
      AddSymbolEffect(t, pos, [r.base]);
    }
    if r.indel > 0 {
      AddInsertionEffect(t1, pos);
    }
  }

  /** The object form of the tally: a 6-row count matrix and an insertion
      array, both updated in place. */
  class MismatchCounts {
    const chrom: string
    const start: int
    const end: int
    var counts: array2<int>
    var insertions: array<int>

    ghost predicate Valid()
      reads this
    {
      && counts.Length0 == Rows
      && counts.Length1 == end - start
      && insertions.Length == end - start
    }

    /** The arrays read as a value. */
    function Table(): (t: Tally)
      reads this, counts, insertions
      requires Valid()
      ensures Shaped(t) && t.start == start && t.end == end
    {
      Tally(start, end,
        seq(counts.Length0, r requires 0 <= r < counts.Length0 reads this, counts =>
          seq(counts.Length1, j requires 0 <= r < counts.Length0 && 0 <= j < counts.Length1 reads this, counts => counts[r, j])),
        insertions[..])
    }

    /** `MismatchCounts(chrom, start, end)`: both arrays zero. numpy refuses a
        negative length, and the only caller passes a window with start < end. */
    constructor (chrom: string, start: int, end: int)
      requires start <= end
      ensures Valid() && fresh(counts) && fresh(insertions)
      ensures this.chrom == chrom && this.start == start && this.end == end
      ensures Table() == EmptyTally(start, end)
    {
      this.chrom, this.start, this.end := chrom, start, end;
      var c := new int[Rows, end - start]((r, j) => 0);
      var ins := new int[end - start](j => 0);
      counts, insertions := c, ins;
      new;
      forall r | 0 <= r < Rows
        ensures Table().counts[r] == Zeros(end - start)
      {
      }
      assert Table().counts == EmptyTally(start, end).counts;
      assert Table().insertions == Zeros(end - start);
    }

    /** `add_count` on the arrays. */
    method AddCount(position: int, type_: string) returns (outcome: Outcome)
      requires Valid()
      modifies counts, insertions
      ensures Valid()
      ensures outcome.Pass? <==> Increment(old(Table()), position, type_).Ok?
      ensures outcome.Pass? ==> Table() == Increment(old(Table()), position, type_).value
      ensures outcome.Fail? ==> outcome.error == Increment(old(Table()), position, type_).error
                                && Table() == old(Table())
    {
      ghost var t := Table();
      var n := insertions.Length;
      var rel := position - start;
      if type_ == "INS" {
        var idx := NpIndex(rel, n);
        if idx.None? {
          return Fail(IndexError);
        }
        insertions[idx.value] := insertions[idx.value] + 1;
        assert Table().insertions == t.insertions[idx.value := t.insertions[idx.value] + 1];
        assert Table().counts == t.counts;
      } else {
        var row := TypeToId(type_);
        if row.None? {
          return Fail(KeyError);
        }
        var idx := NpIndex(rel, n);
        if idx.None? {
          return Fail(IndexError);
        }
        var r, i := row.value, idx.value;
        counts[r, i] := counts[r, i] + 1;
        assert Table().insertions == t.insertions;
        assert forall q :: 0 <= q < Rows && q != r ==> Table().counts[q] == t.counts[q];
        assert Table().counts[r] == t.counts[r][i := t.counts[r][i] + 1];
        assert Table().counts == t.counts[r := t.counts[r][i := t.counts[r][i] + 1]];
      }
      outcome := Pass;
    }

    /** The body of the inner loop of `tally_reads`: one read at one column. */
    method TallyOne(pos: int, r: PileupRead) returns (outcome: Outcome)
      requires Valid()
      modifies counts, insertions
      ensures Valid()
      ensures outcome.Pass? <==> TallyRead(old(Table()), pos, r).Ok?
      ensures outcome.Pass? ==> Table() == TallyRead(old(Table()), pos, r).value
      ensures outcome.Fail? ==> outcome.error == TallyRead(old(Table()), pos, r).error
                                && Table() == old(Table())
    {
      if r.isRefskip {
        return Pass;
      }
      outcome := Pass;
      if r.isDel {
        outcome := AddCount(pos, "DEL");
      } else if r.base != 'N' {
        outcome := AddCount(pos, [r.base]);
      }
      if outcome.Pass? && r.indel > 0 {
        outcome := AddCount(pos, "INS");
      }
    }

    /** The reads of one pileup column, in order. */
    method TallyColumnReads(pos: int, entries: seq<PileupRead>) returns (outcome: Outcome)
      requires Valid()
      modifies counts, insertions
      ensures Valid()
      ensures outcome.Pass? <==> TallyColumn(old(Table()), pos, entries).Ok?
      ensures outcome.Pass? ==> Table() == TallyColumn(old(Table()), pos, entries).value
      ensures outcome.Fail? ==> outcome.error == TallyColumn(old(Table()), pos, entries).error
    {
      ghost var t0 := Table();
      var k := 0;
      while k < |entries|
        invariant 0 <= k <= |entries|
        invariant Valid()
        invariant TallyColumn(t0, pos, entries[..k]) == Ok(Table())
      {
        assert entries[..k + 1][..k] == entries[..k];
        outcome := TallyOne(pos, entries[k]);
        if outcome.Fail? {
          TallyColumnFails(t0, pos, entries, k + 1);
          return;
        }
        k := k + 1;
      }
      assert entries[..|entries|] == entries;
      outcome := Pass;
    }

    /** `tally_reads` over the columns of an already-fetched pileup. */
    method TallyReads(columns: seq<PileupColumn>) returns (outcome: Outcome)
      requires Valid()
      modifies counts, insertions
      ensures Valid()
      ensures outcome.Pass? <==> TallyColumns(old(Table()), columns).Ok?
      ensures outcome.Pass? ==> Table() == TallyColumns(old(Table()), columns).value
    {
      ghost var t0 := Table();
      var c := 0;
      while c < |columns|
        invariant 0 <= c <= |columns|
        invariant Valid()
        invariant TallyColumns(t0, columns[..c]) == Ok(Table())
      {
        assert columns[..c + 1][..c] == columns[..c];
        outcome := TallyColumnReads(columns[c].pos, columns[c].entries);
        if outcome.Fail? {
          TallyColumnsFail(t0, columns, c + 1);
          return;
        }
        c := c + 1;
      }
      assert columns[..|columns|] == columns;
      outcome := Pass;
    }
  }

  /** A failure on the first `k` reads of a column is a failure of the column. */
  lemma {:induction false} TallyColumnFails(t: Tally, pos: int, entries: seq<PileupRead>, k: nat)
    requires Shaped(t) && k <= |entries|
    requires TallyColumn(t, pos, entries[..k]).Err?
    ensures TallyColumn(t, pos, entries).Err?
    ensures TallyColumn(t, pos, entries).error == TallyColumn(t, pos, entries[..k]).error
    decreases |entries| - k
  {
    if k < |entries| {
      assert entries[..k + 1][..k] == entries[..k];
      TallyColumnFails(t, pos, entries, k + 1);
    } else {
      assert entries[..k] == entries;
    }
  }

  /** A failure on the first `k` columns is a failure of the whole tally. */
  lemma {:induction false} TallyColumnsFail(t: Tally, columns: seq<PileupColumn>, k: nat)
    requires Shaped(t) && 0 < k <= |columns|
    requires TallyColumns(t, columns[..k - 1]).Ok?
    requires TallyColumn(TallyColumns(t, columns[..k - 1]).value, columns[k - 1].pos, columns[k - 1].entries).Err?
    ensures TallyColumns(t, columns).Err?
  {
    assert columns[..k][..k - 1] == columns[..k - 1];
    PrefixFailurePersists(t, columns, k);
  }

  lemma {:induction false} PrefixFailurePersists(t: Tally, columns: seq<PileupColumn>, k: nat)
    requires Shaped(t) && k <= |columns|
    requires TallyColumns(t, columns[..k]).Err?
    ensures TallyColumns(t, columns).Err?
    decreases |columns| - k
  {
    if k < |columns| {
      assert columns[..k + 1][..k] == columns[..k];
      PrefixFailurePersists(t, columns, k + 1);
    } else {
      assert columns[..k] == columns;
    }
  }
}

=== FILE: sequences.dfy ===
/** Python's list comprehensions over a sequence, as reference definitions:
    `[x for x in s if p(x)]` keeps the elements `p` accepts, in their
    original order, and `[f(x) for x in s]` transforms each element in
    place. */
module Sequences {

  /** `[x for x in s if p(x)]`, element by element from the front. */
  function Filter<T>(s: seq<T>, p: T -> bool): (r: seq<T>)
    ensures |r| <= |s|
    ensures forall k :: 0 <= k < |r| ==> r[k] in s && p(r[k])
    ensures forall k :: 0 <= k < |s| && p(s[k]) ==> s[k] in r
  {
    if s == [] then [] else (if p(s[0]) then [s[0]] else []) + Filter(s[1..], p)
  }

  /** `[f(x) for x in s]`. */
  function Map<A, B>(s: seq<A>, f: A -> B): (r: seq<B>)
    ensures |r| == |s| && forall k :: 0 <= k < |s| ==> r[k] == f(s[k])
  {
    seq(|s|, k requires 0 <= k < |s| => f(s[k]))
  }

  /** Filtering a sequence and then one more element is filtering the
      sequence and appending that element when it is accepted: the order a
      loop that appends accepted elements produces. */
  lemma {:induction false} FilterSnoc<T>(s: seq<T>, x: T, p: T -> bool)
    ensures Filter(s + [x], p) == Filter(s, p) + (if p(x) then [x] else [])
  {
    if s != [] {
      assert (s + [x])[1..] == s[1..] + [x];
      FilterSnoc(s[1..], x, p);
    }
  }

  lemma MapSnoc<A, B>(s: seq<A>, x: A, f: A -> B)
    ensures Map(s + [x], f) == Map(s, f) + [f(x)]
  {
  }
}

=== FILE: svg.dfy ===
/** The SVG backend's drawing vocabulary and the Renderer that places one
    component of the page: attribute merging, the primitives shifted by the
    renderer's origin, bounded sub-renderers, and the clip group wrapped
    around every rendered element. Coordinates are exact reals; the text of
    each tag (its `:.2f` number formatting) is not modelled, only what goes
    into it. */
module Svg {
  import opened Wrappers
  import PyText

  // ---------------------------------------------------------------------
  // Attribute dictionaries

  /** A keyword-argument dictionary in insertion order. A value is None or
      the text it is formatted as. */
  type Attrs = seq<(string, Option<string>)>

  ghost predicate DistinctKeys(d: Attrs) {
    forall i, j :: 0 <= i < j < |d| ==> d[i].0 != d[j].0
  }

  /** The value stored under `key`: None when the key is absent. */
  function Lookup(d: Attrs, key: string): (r: Option<Option<string>>)
    ensures r.None? <==> forall i :: 0 <= i < |d| ==> d[i].0 != key
    ensures r.Some? ==> exists i :: 0 <= i < |d| && d[i] == (key, r.value)
  {
    if d == [] then None
    else if d[0].0 == key then Some(d[0].1)
    else Lookup(d[1..], key)
  }

  /** `d[key] = value` on an ordered dictionary: an existing key keeps its
      place, a new key goes to the end. */
  function Store(d: Attrs, key: string, value: Option<string>): (r: Attrs)
    ensures |r| == |d| || |r| == |d| + 1
    ensures forall i :: 0 <= i < |d| ==> r[i].0 == d[i].0
    ensures |r| == |d| + 1 <==> Lookup(d, key).None?
    ensures |r| == |d| + 1 ==> r[|d|] == (key, value)
  {
    if d == [] then [(key, value)]
    else if d[0].0 == key then [(key, value)] + d[1..]
    else [d[0]] + Store(d[1..], key, value)
  }

  /** `defaults.update(kwdargs)`, entry by entry in the order of `kwdargs`. */
  function Update(d: Attrs, kw: Attrs): (r: Attrs)
    ensures |r| >= |d|
    ensures forall i :: 0 <= i < |d| ==> r[i].0 == d[i].0
    decreases |kw|
  {
    if kw == [] then d else Update(Store(d, kw[0].0, kw[0].1), kw[1..])
  }

  lemma {:induction false} StoreLookup(d: Attrs, key: string, value: Option<string>, k: string)
    ensures Lookup(Store(d, key, value), k) == if k == key then Some(value) else Lookup(d, k)
    decreases |d|
  {
    if d != [] && d[0].0 != key {
      StoreLookup(d[1..], key, value, k);
      assert Store(d, key, value)[1..] == Store(d[1..], key, value);
    }
  }

  lemma {:induction false} StoreDistinct(d: Attrs, key: string, value: Option<string>)
    requires DistinctKeys(d)
    ensures DistinctKeys(Store(d, key, value))
  {
    var r := Store(d, key, value);
    if |r| == |d| + 1 {
      forall i | 0 <= i < |d|
        ensures r[i].0 != key
      {
        assert d[i].0 != key;
      }
    }
  }

  /** After the update every key of `kwdargs` holds its value from
      `kwdargs`, every other key keeps its value from `defaults`, and no key
      appears twice. */
  lemma {:induction false} UpdateLookup(d: Attrs, kw: Attrs, k: string)
    requires DistinctKeys(d) && DistinctKeys(kw)
    ensures DistinctKeys(Update(d, kw))
    ensures Lookup(Update(d, kw), k) == if Lookup(kw, k).Some? then Lookup(kw, k) else Lookup(d, k)
    decreases |kw|
  {
    if kw != [] {
      var d1 := Store(d, kw[0].0, kw[0].1);
      StoreDistinct(d, kw[0].0, kw[0].1);
      StoreLookup(d, kw[0].0, kw[0].1, k);
      UpdateLookup(d1, kw[1..], k);
      if k == kw[0].0 {
        assert Lookup(kw[1..], k).None? by {
          forall i | 0 <= i < |kw[1..]|
            ensures kw[1..][i].0 != k
          {
            assert kw[i + 1].0 != kw[0].0;
          }
        }
      }
    }
  }

  /** The entries `_addOptions` writes out: those whose value is neither None
      nor the empty string, in dictionary order. */
  function Emitted(d: Attrs): (r: seq<(string, string)>)
    ensures |r| <= |d|
  {
    if d == [] then []
    else
      var rest := Emitted(d[1..]);
      match d[0].1
      case Some(v) => if v != "" then [(d[0].0, v)] + rest else rest
      case None => rest
  }

  /** An entry is written out exactly when it is in the dictionary with a
      non-empty value. */
  lemma {:induction false} EmittedMembers(d: Attrs, key: string, v: string)
    ensures (key, v) in Emitted(d) <==> (key, Some(v)) in d && v != ""
  {
    if d != [] {
      EmittedMembers(d[1..], key, v);
      assert d == [d[0]] + d[1..];
    }
  }

  /** One `key="value" ` item. */
  function AttrItem(key: string, value: string): string {
    key + "=\"" + value + "\" "
  }

  function AttrText(items: seq<(string, string)>): string {
    if items == [] then "" else AttrItem(items[0].0, items[0].1) + AttrText(items[1..])
  }

  lemma {:induction false} AttrTextAppend(items: seq<(string, string)>, key: string, value: string)
    ensures AttrText(items + [(key, value)]) == AttrText(items) + AttrItem(key, value)
  {
    if items != [] {
      assert (items + [(key, value)])[1..] == items[1..] + [(key, value)];
      AttrTextAppend(items[1..], key, value);
    }
  }

  lemma {:induction false} EmittedAppend(d: Attrs, e: (string, Option<string>))
    ensures Emitted(d + [e]) == Emitted(d) + (if e.1.Some? && e.1.value != "" then [(e.0, e.1.value)] else [])
  {
    if d != [] {
      assert (d + [e])[1..] == d[1..] + [e];
      EmittedAppend(d[1..], e);
    }
  }

  /** `_addOptions`: `kwdargs` merged over `defaults` (an absent `defaults`
      is an empty dictionary), then one `key="value" ` item per entry with a
      non-empty value. `merged` is what the caller's `defaults` holds
      afterwards. */
  method AddOptions(kwdargs: Attrs, defaults: Option<Attrs>) returns (merged: Attrs, text: string)
    ensures merged == Update(defaults.GetOr([]), kwdargs)
    ensures text == AttrText(Emitted(merged))
  {
    merged := Update(defaults.GetOr([]), kwdargs);
    text := "";
    var i := 0;
    while i < |merged|
      invariant 0 <= i <= |merged|
      invariant text == AttrText(Emitted(merged[..i]))
    {
      var key, arg := merged[i].0, merged[i].1;
      assert merged[..i + 1] == merged[..i] + [merged[i]];
      EmittedAppend(merged[..i], merged[i]);
      if arg.Some? && arg.value != "" {
        AttrTextAppend(Emitted(merged[..i]), key, arg.value);
        text := text + AttrItem(key, arg.value);
      } else {
        var done := Emitted(merged[..i]);
        assert done + [] == done;
        assert Emitted(merged[..i + 1]) == done;
      }
      i := i + 1;
    }
    assert merged[..i] == merged;
  }

  // ---------------------------------------------------------------------
  // The SVG backend

  /** What the backend writes for one drawing call, with the coordinates it
      was given and its merged attribute dictionary. */
  datatype Command =
    | TextTag(x: real, y: real, text: string, size: int, anchor: string, family: string, attrs: Attrs)
    | FilterDefs(filterId: nat, background: string)
    | RectTag(x: real, y: real, width: real, height: real, attrs: Attrs)
    | LineTag(x1: real, y1: real, x2: real, y2: real, attrs: Attrs)
    | LineWithArrows(x1: real, y1: real, x2: real, y2: real, n: int, direction: string, color: string, attrs: Attrs)
    | ArrowTag(x: real, y: real, direction: string, color: string, attrs: Attrs)

  const Anchors: seq<string> := ["start", "middle", "end"]

  /** `SVG.text`: the anchor must be one of start, middle or end. */
  function BackendText(x: real, y: real, text: string, size: int, anchor: string, family: string, kw: Attrs): (r: Result<Command>)
    ensures r.Err? <==> anchor !in Anchors
    ensures r.Err? ==> r.error == AssertionError
    ensures r.Ok? ==> r.value.TextTag? && r.value.anchor == anchor && r.value.x == x && r.value.y == y
  {
    if anchor !in Anchors then Err(AssertionError)
    else Ok(TextTag(x, y, text, size, anchor, family, Update([], kw)))
  }

  /** The font family a call of `SVG.text` with these keyword arguments
      gets: a `family` keyword binds to the parameter of that name, which
      defaults to Helvetica; a None value is formatted as "None". */
  function KeywordFamily(kw: Attrs): (f: string)
    ensures Lookup(kw, "family").None? ==> f == "Helvetica"
    ensures Lookup(kw, "family") == Some(None) ==> f == "None"
    ensures Lookup(kw, "family").Some? && Lookup(kw, "family").value.Some? ==> Lookup(kw, "family") == Some(Some(f))
  {
    match Lookup(kw, "family")
    case None => "Helvetica"
    case Some(v) => v.GetOr("None")
  }

  /** `SVG.text_with_background`: the filter definition, the text drawn in
      the background colour through the filter, then the text again in its
      own colour. `filterId` is the backend's counter after its increment.
      Both texts are `SVG.text` calls given the caller's keyword arguments,
      so a `family` keyword picks their font and is not an attribute. */
  function BackendTextWithBackground(x: real, y: real, text: string, size: int, anchor: string,
                                     textColor: string, bg: string, kw: Attrs, filterId: nat): (r: Result<seq<Command>>)
    ensures r.Err? <==> anchor !in Anchors
    ensures r.Ok? ==> |r.value| == 3 && r.value[0] == FilterDefs(filterId, bg)
    ensures r.Ok? ==>
      && TextAt(r.value[1], x, y, text, size, anchor, KeywordFamily(kw))
      && TextAt(r.value[2], x, y, text, size, anchor, KeywordFamily(kw))
  {
    var family := KeywordFamily(kw);
    var behind := Store(Store(kw, "fill", Some(bg)), "filter", Some(FilterUrl(filterId)));
    var front := Remove(Store(behind, "fill", Some(textColor)), "filter");
    if anchor !in Anchors then Err(AssertionError)
    else
      Ok([FilterDefs(filterId, bg),
          BackendText(x, y, text, size, anchor, family, Remove(behind, "family")).value,
          BackendText(x, y, text, size, anchor, family, Remove(front, "family")).value])
  }

  /** A text command at `(x, y)` with the given text, size, anchor and font
      family. */
  predicate TextAt(c: Command, x: real, y: real, text: string, size: int, anchor: string, family: string) {
    c.TextTag? && c.x == x && c.y == y && c.text == text && c.size == size && c.anchor == anchor && c.family == family
  }

  function FilterUrl(id: nat): string {
    "url(#solid" + PyText.NatToString(id) + ")"
  }

  /** `del d[key]` when the key is present. */
  function Remove(d: Attrs, key: string): (r: Attrs)
    ensures |r| <= |d|
    ensures Lookup(d, key).None? ==> r == d
  {
    if d == [] then [] else if d[0].0 == key then d[1..] else [d[0]] + Remove(d[1..], key)
  }

  /** Where `key` first occurs in `d`; `|d|` when it does not. */
  function KeyIndex(d: Attrs, key: string): (i: nat)
    ensures i <= |d| && (i < |d| ==> d[i].0 == key)
    ensures forall k :: 0 <= k < i ==> d[k].0 != key
  {
    if d == [] then 0 else if d[0].0 == key then 0 else 1 + KeyIndex(d[1..], key)
  }

  /** Deleting a present key drops its first entry, and only that entry:
      the others keep their order. */
  lemma {:induction false} RemoveEntry(d: Attrs, key: string)
    ensures var i := KeyIndex(d, key); i < |d| ==> Remove(d, key) == d[..i] + d[i + 1..]
  {
    if d != [] && d[0].0 != key {
      RemoveEntry(d[1..], key);
      var i := KeyIndex(d[1..], key);
      if i < |d[1..]| {
        assert d[..i + 1] == [d[0]] + d[1..][..i];
        assert d[i + 2..] == d[1..][i + 1..];
      }
    }
  }

  /** In a dictionary without repeated keys, the deleted key is gone and
      every other key keeps its value. */
  lemma {:induction false} RemoveLookup(d: Attrs, key: string, k: string)
    requires DistinctKeys(d)
    ensures DistinctKeys(Remove(d, key))
    ensures Lookup(Remove(d, key), k) == if k == key then None else Lookup(d, k)
    decreases |d|
  {
    if d != [] {
      var r := Remove(d, key);
      if d[0].0 == key {
        assert Lookup(d[1..], key).None? by {
          forall i | 0 <= i < |d[1..]|
            ensures d[1..][i].0 != key
          {
            assert d[i + 1].0 != d[0].0;
          }
        }
        if k != key {
          assert Lookup(d, k) == Lookup(d[1..], k);
        }
      } else {
        RemoveLookup(d[1..], key, k);
        var rest := Remove(d[1..], key);
        assert r == [d[0]] + rest && r[1..] == rest;
        forall i | 0 <= i < |rest|
          ensures rest[i].0 != d[0].0
        {
          RemoveLookup(d[1..], key, rest[i].0);
          assert Lookup(rest, rest[i].0).Some?;
          var j :| 0 <= j < |d[1..]| && d[1..][j].0 == rest[i].0;
          assert d[j + 1].0 != d[0].0;
        }
      }
    }
  }

  /** The two texts of `text_with_background` carry the caller's keyword
      arguments, the first with the background colour as fill and the
      solid-colour filter, the second with the text colour as fill and no
      filter at all. */
  lemma TextWithBackgroundAttrs(x: real, y: real, text: string, size: int, anchor: string,
                                textColor: string, bg: string, kw: Attrs, filterId: nat, k: string)
    requires DistinctKeys(kw) && anchor in Anchors
    ensures var r := BackendTextWithBackground(x, y, text, size, anchor, textColor, bg, kw, filterId).value;
      && Lookup(r[1].attrs, k) == (if k == "fill" then Some(Some(bg))
                                   else if k == "filter" then Some(Some(FilterUrl(filterId)))
                                   else if k == "family" then None
                                   else Lookup(kw, k))
      && Lookup(r[2].attrs, k) == (if k == "fill" then Some(Some(textColor))
                                   else if k == "filter" || k == "family" then None
                                   else Lookup(kw, k))
  {
    var b1 := Store(kw, "fill", Some(bg));
    var behind := Store(b1, "filter", Some(FilterUrl(filterId)));
    var f1 := Store(behind, "fill", Some(textColor));
    var front := Remove(f1, "filter");
    StoreDistinct(kw, "fill", Some(bg));
    StoreDistinct(b1, "filter", Some(FilterUrl(filterId)));
    StoreDistinct(behind, "fill", Some(textColor));
    StoreLookup(kw, "fill", Some(bg), k);
    StoreLookup(b1, "filter", Some(FilterUrl(filterId)), k);
    StoreLookup(behind, "fill", Some(textColor), k);
    RemoveLookup(f1, "filter", k);
    RemoveLookup(behind, "family", k);
    RemoveLookup(front, "family", k);
    UpdateLookup([], Remove(behind, "family"), k);
    UpdateLookup([], Remove(front, "family"), k);
  }

  const RectDefaults: Attrs := [("fill", Some("white")), ("stroke", Some("black"))]
  const LineDefaults: Attrs := [("stroke", Some("black"))]

  /** `SVG.rect`: a rectangle at the given point and size. */
  function BackendRect(x: real, y: real, width: real, height: real, kw: Attrs): (c: Command)
    ensures c.RectTag? && c.x == x && c.y == y && c.width == width && c.height == height
  {
    RectTag(x, y, width, height, Update(RectDefaults, kw))
  }

  /** The attributes of a rectangle: the caller's keyword arguments over a
      white fill and a black stroke. */
  lemma RectAttrs(x: real, y: real, width: real, height: real, kw: Attrs, k: string)
    requires DistinctKeys(kw)
    ensures var a := BackendRect(x, y, width, height, kw).attrs;
      && DistinctKeys(a)
      && Lookup(a, k) == (if Lookup(kw, k).Some? then Lookup(kw, k)
                          else if k == "fill" then Some(Some("white"))
                          else if k == "stroke" then Some(Some("black"))
                          else None)
  {
    UpdateLookup(RectDefaults, kw, k);
  }

  /** `SVG.line`: an `arrowhead` keyword binds to the parameter of that
      name, which is never used, so it is not an attribute. */
  function BackendLine(x1: real, y1: real, x2: real, y2: real, kw: Attrs): (c: Command)
    ensures c.LineTag? && c.x1 == x1 && c.y1 == y1 && c.x2 == x2 && c.y2 == y2
  {
    LineTag(x1, y1, x2, y2, Update(LineDefaults, Remove(kw, "arrowhead")))
  }

  /** `SVG.line_with_arrows`: the line is an `SVG.line` call whose keyword
      arguments are the caller's over a stroke in the arrows' colour; then
      `n` arrows are drawn along it, each an `SVG.arrow` call, so the first
      of them fails on a direction `arrow` has no path for. */
  function BackendLineWithArrows(x1: real, y1: real, x2: real, y2: real, n: int, direction: string,
                                 color: string, kw: Attrs): (r: Result<Command>)
    ensures r.Err? <==> n >= 1 && direction !in ArrowDirections
    ensures r.Err? ==> r.error == UnboundLocalError
    ensures r.Ok? ==> && r.value.LineWithArrows? && r.value.x1 == x1 && r.value.y1 == y1
                      && r.value.x2 == x2 && r.value.y2 == y2
                      && r.value.n == n && r.value.direction == direction && r.value.color == color
  {
    var line := BackendLine(x1, y1, x2, y2, Update([("stroke", Some(color))], kw));
    if n >= 1 && direction !in ArrowDirections then Err(UnboundLocalError)
    else Ok(LineWithArrows(x1, y1, x2, y2, n, direction, color, line.attrs))
  }

  /** The attributes of a line: the caller's keyword arguments except
      `arrowhead`, over a black stroke. */
  lemma LineAttrs(x1: real, y1: real, x2: real, y2: real, kw: Attrs, k: string)
    requires DistinctKeys(kw)
    ensures var a := BackendLine(x1, y1, x2, y2, kw).attrs;
      && DistinctKeys(a)
      && Lookup(a, k) == (if k == "arrowhead" then None
                          else if Lookup(kw, k).Some? then Lookup(kw, k)
                          else if k == "stroke" then Some(Some("black"))
                          else None)
  {
    RemoveLookup(kw, "arrowhead", k);
    UpdateLookup(LineDefaults, Remove(kw, "arrowhead"), k);
  }

  /** The attributes of the line of `line_with_arrows`: the caller's keyword
      arguments except `arrowhead`, over a stroke in the arrows' colour. */
  lemma LineWithArrowsAttrs(x1: real, y1: real, x2: real, y2: real, n: int, direction: string,
                            color: string, kw: Attrs, k: string)
    requires DistinctKeys(kw)
    requires n < 1 || direction in ArrowDirections
    ensures var c := BackendLineWithArrows(x1, y1, x2, y2, n, direction, color, kw).value;
      && c == LineWithArrows(x1, y1, x2, y2, n, direction, color, c.attrs)
      && Lookup(c.attrs, k) == (if k == "arrowhead" then None
                                else if Lookup(kw, k).Some? then Lookup(kw, k)
                                else if k == "stroke" then Some(Some(color))
                                else None)
  {
    var d := Update([("stroke", Some(color))], kw);
    UpdateLookup([("stroke", Some(color))], kw, k);
    LineAttrs(x1, y1, x2, y2, d, k);
  }

  /** The directions `SVG.arrow` has a path for. */
  const ArrowDirections: set<string> := {"right", "left"}

  /** `SVG.arrow`: an arrowhead at the given point pointing right or left;
      any other direction leaves the tag unbound. A `scale` keyword binds to
      the parameter of that name; the other keywords are the attributes,
      with no defaults. */
  function BackendArrow(x: real, y: real, direction: string, color: string, kw: Attrs): (r: Result<Command>)
    ensures r.Err? <==> direction !in ArrowDirections
    ensures r.Err? ==> r.error == UnboundLocalError
    ensures r.Ok? ==> r.value.ArrowTag? && r.value.x == x && r.value.y == y
                      && r.value.direction == direction && r.value.color == color
  {
    if direction !in ArrowDirections then Err(UnboundLocalError)
    else Ok(ArrowTag(x, y, direction, color, Update([], Remove(kw, "scale"))))
  }

  /** The attributes of an arrow are the caller's keyword arguments except
      `scale`. */
  lemma ArrowAttrs(x: real, y: real, direction: string, color: string, kw: Attrs, k: string)
    requires DistinctKeys(kw) && direction in ArrowDirections
    ensures var a := BackendArrow(x, y, direction, color, kw).value.attrs;
      && DistinctKeys(a)
      && Lookup(a, k) == if k == "scale" then None else Lookup(kw, k)
  {
    RemoveLookup(kw, "scale", k);
    UpdateLookup([], Remove(kw, "scale"), k);
  }

  // ---------------------------------------------------------------------
  // Output lines and clip groups

  /** One line of the generated document. `Indent` is the three-space
      prefix `render` puts in front of an element's own lines. */
  datatype Line =
    | Comment(name: Option<string>)
    | ClipPath(x: real, y: real, width: real, height: real, id: nat)
    | GroupOpen(id: nat)
    | GroupClose
    | Tag(cmd: Command)
    | Indent(inner: Line)
    | Text(s: string)

  /** `start_clipped_group`: the clip path, then the group that uses it. */
  function StartClippedGroup(x: real, y: real, width: real, height: real, name: nat): (r: seq<Line>)
    ensures |r| == 2 && r[1] == GroupOpen(name)
  {
    [ClipPath(x, y, width, height, name), GroupOpen(name)]
  }

  /** `stop_clipped_group`. */
  function StopClippedGroup(): (r: seq<Line>)
    ensures r == [GroupClose]
  {
    [GroupClose]
  }

  /** +1 for an opened group, -1 for a closed one. */
  function Depth(l: Line): int {
    match l
    case GroupOpen(_) => 1
    case GroupClose => -1
    case Indent(inner) => Depth(inner)
    case _ => 0
  }

  function Net(lines: seq<Line>): int {
    if lines == [] then 0 else Net(lines[..|lines| - 1]) + Depth(lines[|lines| - 1])
  }

  /** Every group is closed, and never before it is opened. */
  ghost predicate Balanced(lines: seq<Line>) {
    Net(lines) == 0 && forall k :: 0 <= k <= |lines| ==> Net(lines[..k]) >= 0
  }

  lemma {:induction false} NetAppend(a: seq<Line>, b: seq<Line>)
    ensures Net(a + b) == Net(a) + Net(b)
    decreases |b|
  {
    if b == [] {
      assert a + b == a;
    } else {
      var b' := b[..|b| - 1];
      assert (a + b)[..|a + b| - 1] == a + b';
      assert (a + b)[|a + b| - 1] == b[|b| - 1];
      NetAppend(a, b');
    }
  }

  lemma {:induction false} BalancedAppend(a: seq<Line>, b: seq<Line>)
    requires Balanced(a) && Balanced(b)
    ensures Balanced(a + b)
  {
    NetAppend(a, b);
    forall k | 0 <= k <= |a + b|
      ensures Net((a + b)[..k]) >= 0
    {
      if k <= |a| {
        assert (a + b)[..k] == a[..k];
      } else {
        assert (a + b)[..k] == a + b[..k - |a|];
        NetAppend(a, b[..k - |a|]);
      }
    }
  }

  /** Lines at depth zero throughout are balanced, and so is a run of them
      wrapped in an opened and a closed group. */
  lemma {:induction false} BalancedWrap(pre: seq<Line>, inner: seq<Line>, name: nat)
    requires forall k :: 0 <= k < |pre| ==> Depth(pre[k]) == 0
    requires Balanced(inner)
    ensures Balanced(pre + [GroupOpen(name)] + inner + [GroupClose])
  {
    FlatBalanced(pre);
    var open := [GroupOpen(name)];
    var openInner := open + inner;
    NetAppend(open, inner);
    assert Net(open) == 1 by { assert open[..0] == []; }
    forall k | 0 <= k <= |openInner|
      ensures Net(openInner[..k]) >= 1 || k == 0
    {
      if k > 0 {
        assert openInner[..k] == open + inner[..k - 1];
        NetAppend(open, inner[..k - 1]);
      }
    }
    var whole := openInner + [GroupClose];
    assert Net(whole) == 0 by {
      assert whole[..|whole| - 1] == openInner;
    }
    assert Balanced(whole) by {
      forall k | 0 <= k <= |whole|
        ensures Net(whole[..k]) >= 0
      {
        if k <= |openInner| {
          assert whole[..k] == openInner[..k];
          if k == 0 { assert whole[..0] == []; }
        } else {
          assert whole[..k] == whole;
        }
      }
    }
    BalancedAppend(pre, whole);
    assert pre + [GroupOpen(name)] + inner + [GroupClose] == pre + whole;
  }

  lemma {:induction false} FlatBalanced(lines: seq<Line>)
    requires forall k :: 0 <= k < |lines| ==> Depth(lines[k]) == 0
    ensures forall k :: 0 <= k <= |lines| ==> Net(lines[..k]) == 0
    ensures Balanced(lines)
    decreases |lines|
  {
    if lines != [] {
      var init := lines[..|lines| - 1];
      FlatBalanced(init);
      forall k | 0 <= k <= |lines|
        ensures Net(lines[..k]) == 0
      {
        if k < |lines| {
          assert lines[..k] == init[..k];
        } else {
          assert lines[..k] == lines;
          assert lines[..k][..k - 1] == init;
        }
      }
      assert lines[..|lines|] == lines;
    } else {
      assert lines[..0] == lines;
    }
  }

  /** The three-space prefix on every line of an element's output. */
  function Indented(lines: seq<Line>): (r: seq<Line>)
    ensures |r| == |lines| && forall k :: 0 <= k < |lines| ==> r[k] == Indent(lines[k])
  {
    seq(|lines|, k requires 0 <= k < |lines| => Indent(lines[k]))
  }

  lemma {:induction false} IndentedNet(lines: seq<Line>)
    ensures Net(Indented(lines)) == Net(lines)
    ensures forall k :: 0 <= k <= |lines| ==> Net(Indented(lines)[..k]) == Net(lines[..k])
    decreases |lines|
  {
    if lines != [] {
      var init := lines[..|lines| - 1];
      IndentedNet(init);
      assert Indented(lines)[..|lines| - 1] == Indented(init);
      forall k | 0 <= k <= |lines|
        ensures Net(Indented(lines)[..k]) == Net(lines[..k])
      {
        if k < |lines| {
          assert Indented(lines)[..k] == Indented(init)[..k];
          assert lines[..k] == init[..k];
        } else {
          assert Indented(lines)[..k] == Indented(lines);
          assert lines[..k] == lines;
          assert Indented(lines)[..k][..k - 1] == Indented(init);
          assert lines[..k][..k - 1] == init;
        }
      }
    } else {
      assert Indented(lines) == [];
    }
  }

  lemma IndentedBalanced(lines: seq<Line>)
    requires Balanced(lines)
    ensures Balanced(Indented(lines))
  {
    IndentedNet(lines);
  }

  // ---------------------------------------------------------------------
  // The renderer

  /** A placement on the page: the origin every primitive is shifted by,
      the size sub-renderers must fit in, and the id naming its clip path
      (the next value of a global counter, which is not modelled). */
  datatype Renderer = Renderer(x: real, y: real, width: real, height: real, id: nat) {

    /** The page coordinates of a point given relative to this renderer. */
    function PageX(x: real): real { x + this.x }
    function PageY(y: real): real { y + this.y }

    function Text(x: real, y: real, text: string, size: int, anchor: string, family: string, kw: Attrs): (r: Result<Command>)
      ensures r.Err? <==> anchor !in Anchors
      ensures r.Ok? ==> r.value.TextTag? && r.value.anchor == anchor
                        && r.value.x == x + this.x && r.value.y == y + this.y
    {
      BackendText(PageX(x), PageY(y), text, size, anchor, family, kw)
    }

    function TextWithBackground(x: real, y: real, text: string, size: int, anchor: string,
                                textColor: string, bg: string, kw: Attrs, filterId: nat): (r: Result<seq<Command>>)
      ensures r.Err? <==> anchor !in Anchors
      ensures r.Ok? ==> |r.value| == 3 && r.value[0] == FilterDefs(filterId, bg)
      ensures r.Ok? ==>
        && TextAt(r.value[1], x + this.x, y + this.y, text, size, anchor, KeywordFamily(kw))
        && TextAt(r.value[2], x + this.x, y + this.y, text, size, anchor, KeywordFamily(kw))
    {
      BackendTextWithBackground(PageX(x), PageY(y), text, size, anchor, textColor, bg, kw, filterId)
    }

    function Rect(x: real, y: real, width: real, height: real, kw: Attrs): (c: Command)
      ensures c.RectTag? && c.x == x + this.x && c.y == y + this.y && c.width == width && c.height == height
    {
      BackendRect(PageX(x), PageY(y), width, height, kw)
    }

    function Line(x1: real, y1: real, x2: real, y2: real, kw: Attrs): (c: Command)
      ensures c.LineTag? && c.x1 == x1 + this.x && c.y1 == y1 + this.y && c.x2 == x2 + this.x && c.y2 == y2 + this.y
    {
      BackendLine(PageX(x1), PageY(y1), PageX(x2), PageY(y2), kw)
    }

    function LineWithArrows(x1: real, y1: real, x2: real, y2: real, n: int, direction: string,
                            color: string, kw: Attrs): (r: Result<Command>)
      ensures r.Err? <==> n >= 1 && direction !in ArrowDirections
      ensures r.Ok? ==> && r.value.LineWithArrows? && r.value.x1 == x1 + this.x && r.value.y1 == y1 + this.y
                        && r.value.x2 == x2 + this.x && r.value.y2 == y2 + this.y
    {
      BackendLineWithArrows(PageX(x1), PageY(y1), PageX(x2), PageY(y2), n, direction, color, kw)
    }

    function Arrow(x: real, y: real, direction: string, color: string, kw: Attrs): (r: Result<Command>)
      ensures r.Err? <==> direction !in ArrowDirections
      ensures r.Ok? ==> r.value.ArrowTag? && r.value.x == x + this.x && r.value.y == y + this.y
    {
      BackendArrow(PageX(x), PageY(y), direction, color, kw)
    }

    /** `render(element)`: a comment naming the element, the clip group for
        this renderer's box, the element's prerender, render and postrender
        lines indented (a missing prerender or postrender is skipped), then
        the group is closed. */
    function Render(name: Option<string>, pre: Option<seq<Line>>, body: seq<Line>, post: Option<seq<Line>>): (r: seq<Line>)
      ensures |r| == 4 + |pre.GetOr([])| + |body| + |post.GetOr([])|
      ensures r[0] == Comment(name) && r[1] == ClipPath(x, y, width, height, id) && r[2] == GroupOpen(id)
      ensures r[|r| - 1] == GroupClose
      ensures r[3..|r| - 1] == Indented(pre.GetOr([]) + body + post.GetOr([]))
    {
      [Comment(name)] + StartClippedGroup(x, y, width, height, id)
        + Indented(pre.GetOr([]) + body + post.GetOr([]))
        + StopClippedGroup()
    }
  }

  /** `subrenderer`: width and height default to the parent's and may not
      exceed them; the origin is the parent's shifted by `(x, y)`. Whether
      the child's box stays inside the parent's is not checked. */
  function Subrenderer(parent: Renderer, x: real, y: real, width: Option<real>, height: Option<real>, id: nat): (r: Result<Renderer>)
    ensures r.Err? ==> r.error == AssertionError
    ensures r.Ok? <==> width.GetOr(parent.width) <= parent.width && height.GetOr(parent.height) <= parent.height
    ensures r.Ok? ==> r.value.width <= parent.width && r.value.height <= parent.height && r.value.id == id
    ensures r.Ok? ==> r.value.x == parent.x + x && r.value.y == parent.y + y
  {
    var w := width.GetOr(parent.width);
    var h := height.GetOr(parent.height);
    if !(w <= parent.width) then Err(AssertionError)
    else if !(h <= parent.height) then Err(AssertionError)
    else Ok(Renderer(x + parent.x, y + parent.y, w, h, id))
  }

  /** Drawing through a sub-renderer placed at `(dx, dy)` is drawing through
      the parent with every coordinate shifted by `(dx, dy)`. */
  lemma SubrendererTranslates(parent: Renderer, dx: real, dy: real, width: Option<real>, height: Option<real>, id: nat,
                              x: real, y: real, x2: real, y2: real, w: real, h: real, kw: Attrs,
                              text: string, size: int, anchor: string, family: string,
                              textColor: string, bg: string, filterId: nat,
                              n: int, direction: string, color: string)
    requires Subrenderer(parent, dx, dy, width, height, id).Ok?
    ensures var child := Subrenderer(parent, dx, dy, width, height, id).value;
      && child.Text(x, y, text, size, anchor, family, kw) == parent.Text(x + dx, y + dy, text, size, anchor, family, kw)
      && child.TextWithBackground(x, y, text, size, anchor, textColor, bg, kw, filterId)
         == parent.TextWithBackground(x + dx, y + dy, text, size, anchor, textColor, bg, kw, filterId)
      && child.Rect(x, y, w, h, kw) == parent.Rect(x + dx, y + dy, w, h, kw)
      && child.Line(x, y, x2, y2, kw) == parent.Line(x + dx, y + dy, x2 + dx, y2 + dy, kw)
      && child.LineWithArrows(x, y, x2, y2, n, direction, color, kw)
         == parent.LineWithArrows(x + dx, y + dy, x2 + dx, y2 + dy, n, direction, color, kw)
      && child.Arrow(x, y, direction, color, kw) == parent.Arrow(x + dx, y + dy, direction, color, kw)
  {
    var child := Subrenderer(parent, dx, dy, width, height, id).value;
    assert child.PageX(x) == parent.PageX(x + dx) && child.PageY(y) == parent.PageY(y + dy);
    assert child.PageX(x2) == parent.PageX(x2 + dx) && child.PageY(y2) == parent.PageY(y2 + dy);
  }

  /** Nested sub-renderers add their offsets. */
  lemma SubrenderersCompose(p: Renderer, x1: real, y1: real, x2: real, y2: real, id1: nat, id2: nat)
    requires Subrenderer(p, x1, y1, None, None, id1).Ok?
    ensures var c := Subrenderer(p, x1, y1, None, None, id1).value;
      && Subrenderer(c, x2, y2, None, None, id2).Ok?
      && Subrenderer(c, x2, y2, None, None, id2).value == Renderer(p.x + x1 + x2, p.y + y1 + y2, p.width, p.height, id2)
  {
  }

  /** A renderer's output is balanced whenever the element's own lines are. */
  lemma {:induction false} RenderBalanced(r: Renderer, name: Option<string>, pre: Option<seq<Line>>, body: seq<Line>, post: Option<seq<Line>>)
    requires Balanced(pre.GetOr([])) && Balanced(body) && Balanced(post.GetOr([]))
    ensures Balanced(r.Render(name, pre, body, post))
  {
    var inner := pre.GetOr([]) + body + post.GetOr([]);
    BalancedAppend(pre.GetOr([]), body);
    BalancedAppend(pre.GetOr([]) + body, post.GetOr([]));
    IndentedBalanced(inner);
    var head := [Comment(name), ClipPath(r.x, r.y, r.width, r.height, r.id)];
    BalancedWrap(head, Indented(inner), r.id);
    var start := StartClippedGroup(r.x, r.y, r.width, r.height, r.id);
    assert start == [ClipPath(r.x, r.y, r.width, r.height, r.id), GroupOpen(r.id)];
    assert [Comment(name)] + start == head + [GroupOpen(r.id)];
    assert StopClippedGroup() == [GroupClose];
  }
}

=== FILE: utilities.dfy ===
/** Chromosome-name reconciliation between the "chr1" and "1" conventions. */
module Utilities {
  import opened PyText

  const ChrPrefix: string := "chr"

  /** The alternative spelling tried when `chrom` is not a key: every "chr"
      removed if the name holds one, otherwise "chr" put in front. */
  function AlternativeName(chrom: string): (r: string)
    ensures Contains(chrom, ChrPrefix) ==> r == RemoveAll(chrom, ChrPrefix)
    ensures !Contains(chrom, ChrPrefix) ==> r == ChrPrefix + chrom
  {
    if Contains(chrom, ChrPrefix) then RemoveAll(chrom, ChrPrefix) else ChrPrefix + chrom
  }

  /** `match_chrom_format`: the name itself when it is a key, else the
      alternative spelling when that is a key, else the name unchanged. */
  function MatchChromFormat(chrom: string, keys: seq<string>): (r: string)
    ensures r == chrom || r == AlternativeName(chrom)
    ensures chrom in keys ==> r == chrom
    ensures chrom !in keys && AlternativeName(chrom) in keys ==> r == AlternativeName(chrom)
    ensures r in keys <==> (chrom in keys || AlternativeName(chrom) in keys)
    ensures r !in keys ==> r == chrom
  {
    if chrom in keys then chrom
    else if AlternativeName(chrom) in keys then AlternativeName(chrom)
    else chrom
  }

  /** A prefixed name ("chr1") is found under its bare key ("1"), provided the
      bare name holds no further "chr". */
  lemma {:induction false} PrefixedNameFindsBareKey(name: string, keys: seq<string>)
    requires !Contains(name, ChrPrefix)
    requires ChrPrefix + name !in keys && name in keys
    ensures MatchChromFormat(ChrPrefix + name, keys) == name
  {
    var p := ChrPrefix + name;
    assert OccursAt(p, ChrPrefix, 0);
    RemoveAllLeading(ChrPrefix, name);
    RemoveAllAbsent(name, ChrPrefix);
  }

  /** Converting a bare name to the prefixed convention and back gives it back. */
  lemma {:induction false} AlternativeNameRoundTrip(name: string)
    requires !Contains(name, ChrPrefix)
    ensures AlternativeName(AlternativeName(name)) == name
  {
    var p := ChrPrefix + name;
    assert OccursAt(p, ChrPrefix, 0);
    RemoveAllLeading(ChrPrefix, name);
    RemoveAllAbsent(name, ChrPrefix);
  }
}

=== FILE: wrappers.dfy ===
/** Option, the Python exceptions the modelled code can raise, and a Result
    type that carries either a value or one of those exceptions. */
module Wrappers {

  datatype Option<+T> = None | Some(value: T) {
    function GetOr(default: T): T {
      match this
      case Some(v) => v
      case None => default
    }
  }

  /** The exception classes raised on the modelled paths. `Failed` is the bare
      `Exception` raised by a strand mismatch in `Scale.get_seq`;
      `UnboundLocalError` is what `SVG.arrow` raises on a direction it has no
      path for. */
  datatype Error =
    | AssertionError
    | KeyError
    | IndexError
    | ValueError
    | TypeError
    | ZeroDivisionError
    | AttributeError
    | UnboundLocalError
    | Failed

  datatype Result<+T> = Ok(value: T) | Err(error: Error) {
    predicate IsFailure() { Err? }
    function PropagateFailure<U>(): Result<U>
      requires Err?
    {
      Err(error)
    }
    function Extract(): T
      requires Ok?
    {
      value
    }
  }

  /** A Result without a value: the call either completes or raises. */
  datatype Outcome = Pass | Fail(error: Error) {
    predicate IsFailure() { Fail? }
    function PropagateFailure<U>(): Result<U>
      requires Fail?
    {
      Err(error)
    }
  }
}
